=== FILE: README.md ===
# rigour, modelled in Dafny

rigour is an internet-scanning platform. Fingerprint plugins probe
services and classify their replies. A persistence pipeline takes the
detected services from Kafka, enriches hosts with GeoIP data and stores them
in MongoDB. An HTTP API pages and aggregates the stored hosts, and a
Next.js dashboard searches, filters and pages them. This project models the
deterministic core of each layer and proves what it promises.

- **Wire formats and classifiers** (`minecraft.dfy`, `ntp.dfy`, `snmp.dfy`,
  `netbios.dfy`, `ftp.dfy`, `plugins.dfy`): the probe bytes each plugin
  sends, and the pure decision it takes on the reply. Bytes are
  `seq<byte>` with `byte = 0..255`. The socket exchange and the random
  transaction id are inputs.
- **Records** (`service_record.dfy`, `raw_message.dfy`, `hosts.dfy`,
  `enricher.dfy`, `geoip.dfy`): the protocol-to-metadata dispatch of
  `FromPluginService`, the BSON-to-JSON normalisation of `bsonRawMessage`,
  IPv4 packing, the GeoIP enrichment of a host and the GeoIP client.
- **Query, paging and storage** (`pagination.dfy`, `base64.dfy`,
  `json.dfy`, `handlers.dfy`, `host_store.dfy`, `service_repo.dfy`,
  `storage.dfy`, `seqs.dfy`):
  - the page-size clamp and the base64 continuation token;
  - the handlers' decision table, from query parameters and repository
    answer to status and body;
  - the two MongoDB repositories, each as the document-level effect of its
    queries and updates on an in-memory collection kept in the order of
    the `$sort` stage.
- **Configuration** (`persistence.dfy`, `kafka.dfy`): defaults and
  validation, the broker list, the four steps that store one service
  event, and the error policy of `Run` and `Close`.
- **UI logic** (`search_query.dfy`, `facet_filters.dfy`,
  `host_results.dfy`, `api_client.dfy`, `url_params.dfy`):
  - the `field: value` parser, written as a functional matcher for the
    leftmost match of its regular expression;
  - facet staging and the query strings the panel and the API client build;
  - the paginator and its page-number window.

Library code the modelled functions call is not modelled itself. This
covers `encoding/json`, `net.ParseIP`, `fmt.Sscanf`, the BSON codec, the
HTTP round trip, `response.json()` and `URLSearchParams` serialisation.
Each becomes a function-typed parameter. Where a proof needs something of
such a library, a predicate states it as a law in a `requires` clause:
`JsonLaws`, `CodecLaws`, `ScanLaws`. Time is an integer, with 0 for Go's
zero time. `time.Now()` is a parameter. Floating-point values are opaque.

Three behaviours of the code are easy to misread, and the model follows
the code in each:
- The search box's expression `(\w+(?:\.\w+)*)\s*:\s*(.+)` is
  unanchored: "x y: z" gives the field "y". Its field is a dotted name,
  not an arbitrary run of word characters and dots.
- The result list's paginator does not clamp a requested page. The
  previous/next buttons are disabled at the ends, and a page beyond the
  last is reset to 1.
- `UpsertService` does not create a missing host, although the comment at
  rigour/internal/storage/repositories.go:32-33 says it does (see
  Findings).

## Model

| member | source | states |
|---|---|---|
| Minecraft.WriteVarInt | rigour/pkg/crawler/fingerprint/plugins/services/minecraft/java/minecraft.go:55-68 | 1 to 5 bytes; every byte but the last has the continuation bit 0x80 and the last does not; 0..127 is the single byte v; the 7-bit groups spell `uint32(v)` |
| Minecraft.ReadVarInt | rigour/pkg/crawler/fingerprint/plugins/services/minecraft/java/minecraft.go:70-89 | a successful read consumes between 1 and 5 bytes of the input |
| Minecraft.ReadVarIntCases | rigour/pkg/crawler/fingerprint/plugins/services/minecraft/java/minecraft.go:70-89 | the read succeeds iff one of the first five bytes has a clear continuation bit, and then consumes exactly up to that byte and returns `int32` of the groups; "varint too big" iff five continuation bytes are followed by a sixth byte |
| Minecraft.VarIntRoundTrip | rigour/pkg/crawler/fingerprint/plugins/services/minecraft/java/minecraft.go:55-89 | `readVarInt(writeVarInt(v))` gives back every int32 v and consumes exactly the bytes written, whatever follows |
| Minecraft.VarIntTestVectors | rigour/pkg/scanner/fingerprint/plugins/services/minecraft/java/minecraft_test.go:62-77 | the round trip holds for 0, 1, 2, 127, 128, 255 and 2097151 |
| Minecraft.ReadVarIntPrefix | rigour/pkg/crawler/fingerprint/plugins/services/minecraft/java/minecraft.go:70-89 | a decoded varint does not depend on the bytes after it |
| Minecraft.WriteStringRoundTrip | rigour/pkg/crawler/fingerprint/plugins/services/minecraft/java/minecraft.go:91-97 | `writeString` is the length as a varint followed by the bytes; a reader recovers both |
| Minecraft.BigEndian16 | rigour/pkg/crawler/fingerprint/plugins/services/minecraft/java/minecraft.go:113 | the port is written as two big-endian bytes |
| Minecraft.HandshakeLayout | rigour/pkg/crawler/fingerprint/plugins/services/minecraft/java/minecraft.go:99-126 | the handshake is its body length as a varint, then packet id 0, version 754 as F2 05, the host string, the big-endian port and next state 1 |
| Minecraft.ProtocolVersionBytes | rigour/pkg/crawler/fingerprint/plugins/services/minecraft/java/minecraft.go:107 | 754 is written as the two bytes F2 05 |
| Minecraft.EncodeStatusRequest | rigour/pkg/crawler/fingerprint/plugins/services/minecraft/java/minecraft.go:128-139 | the status request is exactly [0x01, 0x00]: frame length 1, packet id 0 |
| Minecraft.FrameRejects | rigour/pkg/crawler/fingerprint/plugins/services/minecraft/java/minecraft.go:141-157 | a non-positive declared length and a frame shorter than declared are errors; otherwise the result is that of the declared payload alone |
| Minecraft.PayloadRejects | rigour/pkg/crawler/fingerprint/plugins/services/minecraft/java/minecraft.go:158-173 | a packet id other than 0 is an error naming the id; a JSON length that is negative or longer than the rest of the payload is an error |
| Minecraft.PayloadAccepted | rigour/pkg/crawler/fingerprint/plugins/services/minecraft/java/minecraft.go:158-184 | an accepted payload starts with packet id 0 and its status is the JSON parse of a slice of it |
| Minecraft.JsonAccepted | rigour/pkg/crawler/fingerprint/plugins/services/minecraft/java/minecraft.go:167-184 | the JSON parsed is exactly the declared number of bytes after the length |
| Minecraft.DecodeIgnoresTrailing | rigour/pkg/crawler/fingerprint/plugins/services/minecraft/java/minecraft.go:141-157 | bytes after the declared frame do not change the result |
| Minecraft.SameFrame | rigour/pkg/crawler/fingerprint/plugins/services/minecraft/java/minecraft.go:141-157 | two inputs with the same length prefix and the same declared frame decode alike |
| Minecraft.FramedPayload | rigour/pkg/crawler/fingerprint/plugins/services/minecraft/java/minecraft.go:153-158 | a frame whose header declares exactly the payload after it decodes as that payload |
| Minecraft.StatusResponseRoundTrip | rigour/pkg/crawler/fingerprint/plugins/services/minecraft/java/minecraft.go:141-185 | a framed status response (as the unit test frames it) decodes to the parse of its JSON text, whatever bytes follow |
| Minecraft.PayloadRoundTrip | rigour/pkg/crawler/fingerprint/plugins/services/minecraft/java/minecraft.go:158-184 | packet id 0, the JSON length, the JSON text decode to the parse of the text |
| Minecraft.JsonRoundTrip | rigour/pkg/crawler/fingerprint/plugins/services/minecraft/java/minecraft.go:167-184 | the length-prefixed JSON text decodes to the parse of the text |
| Minecraft.Run | rigour/pkg/crawler/fingerprint/plugins/services/minecraft/java/minecraft.go:187-216 | the handshake (with the target's address when the host is empty) is always sent first; a send error stops there; otherwise the status request [0x01, 0x00] follows and the verdict decides |
| Minecraft.Verdict | rigour/pkg/crawler/fingerprint/plugins/services/minecraft/java/minecraft.go:205-229 | a receive error is returned; an empty or undecodable reply is "not Minecraft" without error; a detection carries the decoded status, version name and TCP |
| Minecraft.RunRejectsNonMinecraft | rigour/pkg/scanner/fingerprint/plugins/services/minecraft/java/minecraft_test.go:133-157 | the reply "not minecraft" yields no service and no error |
| Minecraft.RunRejectsShortFrame | rigour/pkg/crawler/fingerprint/plugins/services/minecraft/java/minecraft.go:153-157 | a reply shorter than its declared frame yields no service and no error |
| Minecraft.PortPriority | rigour/pkg/crawler/fingerprint/plugins/services/minecraft/java/minecraft.go:25-27 | only the default port 25565 is preferred |
| Ntp.HeaderByte | rigour/pkg/scanner/fingerprint/plugins/services/ntp/ntp.go:24 | the first byte packs leap indicator, version and mode as LI << 6, VN << 3, Mode, and the three read back |
| Ntp.RequestFields | rigour/pkg/scanner/fingerprint/plugins/services/ntp/ntp.go:23-36 | the request is 48 bytes; byte 0 is LI 3, version 4, client mode (0xe3); poll 10, precision 0xf8; every byte from 4 on is zero |
| Ntp.Run | rigour/pkg/scanner/fingerprint/plugins/services/ntp/ntp.go:38-50 | a send/receive error is returned unchanged; any reply, including an empty one, gives no error; a detection is NTP over UDP with no version |
| Ntp.RunAcceptsIff | rigour/pkg/scanner/fingerprint/plugins/services/ntp/ntp.go:42-50 | NTP is reported exactly for a reply of 48 bytes whose low three bits are server mode 4, so any other length is rejected whatever its mode |
| Ntp.ServerReplyAccepted | rigour/pkg/scanner/fingerprint/plugins/services/ntp/ntp.go:47-48 | a 48-byte server-mode reply is accepted for every leap indicator and version number |
| Ntp.EchoRejected | rigour/pkg/scanner/fingerprint/plugins/services/ntp/ntp.go:47-50 | a peer that echoes the request is not reported: the echo is in client mode |
| Ntp.PortPriority | rigour/pkg/scanner/fingerprint/plugins/services/ntp/ntp.go:53-55 | only port 123 is preferred |
| Snmp.Tlv | rigour/pkg/scanner/fingerprint/plugins/services/snmp/snmp.go:23-35 | a short-form BER tag-length-value: tag, the contents' length, the contents |
| Snmp.ProbeIsGetRequest | rigour/pkg/scanner/fingerprint/plugins/services/snmp/snmp.go:22-35 | the 43-byte probe is the BER SEQUENCE of version 0, community "public" and a GetRequest PDU with request id 0xffffffff for sysDescr.0 with a NULL value, every nested length matching its contents |
| Snmp.VarbindBytes | rigour/pkg/scanner/fingerprint/plugins/services/snmp/snmp.go:33-34 | the varbind encodes as 30 0c 06 08, the OID, 05 00 |
| Snmp.PduBytes | rigour/pkg/scanner/fingerprint/plugins/services/snmp/snmp.go:28-33 | the PDU body is request id ff ff ff ff, error status 0, error index 0, then the varbind list 30 0e |
| Snmp.MessageBytes | rigour/pkg/scanner/fingerprint/plugins/services/snmp/snmp.go:24-29 | the message is 30 29, version 02 01 00, community 04 06 "public", then a0 1c and the PDU |
| Snmp.Classify | rigour/pkg/scanner/fingerprint/plugins/services/snmp/snmp.go:36-58 | a reply is accepted iff it contains "public" and the sysDescr OID bytes; the version is everything from 33 bytes after the first "public" on, or empty when the reply is shorter |
| Snmp.Run | rigour/pkg/scanner/fingerprint/plugins/services/snmp/snmp.go:38-58 | a send/receive error is returned unchanged; otherwise the detection, SNMP over UDP with the classified version, is reported iff the reply is accepted |
| Snmp.CommunityFirstAt7 | rigour/pkg/scanner/fingerprint/plugins/services/snmp/snmp.go:46 | in a reply laid out like the probe, the first "public" is at index 7 |
| Snmp.SysDescrLayout | rigour/pkg/scanner/fingerprint/plugins/services/snmp/snmp.go:36-56 | in a GetResponse carrying a short sysDescr, "public" sits at bytes 7-12 and the OID at 33-40 |
| Snmp.SysDescrVersion | rigour/pkg/scanner/fingerprint/plugins/services/snmp/snmp.go:50-54 | on such a reply the reported version is the last OID byte, the OCTET STRING tag and length, then the description |
| Snmp.EchoedProbe | rigour/pkg/scanner/fingerprint/plugins/services/snmp/snmp.go:23-56 | a peer echoing the probe is reported as SNMP with version bytes 00 05 00 |
| Snmp.PortPriority | rigour/pkg/scanner/fingerprint/plugins/services/snmp/snmp.go:65-67 | only port 161 is preferred |
| Netbios.EncodeName | rigour/pkg/scanner/fingerprint/plugins/services/netbios/netbiosns.go:32-33 | first-level encoding of section 14.1 of RFC 1001: each byte becomes two letters 'A' + nibble, so the result has twice the length and only the letters A-P |
| Netbios.NameRoundTrip | rigour/pkg/scanner/fingerprint/plugins/services/netbios/netbiosns.go:32-33 | decoding the first-level encoding gives the name back |
| Netbios.Request | rigour/pkg/scanner/fingerprint/plugins/services/netbios/netbiosns.go:22-36 | the query is the two-byte transaction id followed by 48 fixed bytes, 50 in all |
| Netbios.QueriesWildcard | rigour/pkg/scanner/fingerprint/plugins/services/netbios/netbiosns.go:29-35 | the name field is length 0x20 and "CK" followed by thirty 'A's, the encoding of "*" padded with NULs, then 00, QTYPE 0x0021 (NBSTAT, section 4.2.17 of RFC 1002) and QCLASS 1 |
| Netbios.SentNameIsWildcard | rigour/pkg/scanner/fingerprint/plugins/services/netbios/netbiosns.go:32-33 | the 32 bytes sent are the encoding of the wildcard name |
| Netbios.ExtractName | rigour/pkg/scanner/fingerprint/plugins/services/netbios/netbiosns.go:46-54 | as written: a name is returned iff "   " occurs at or after the index of the first five-NUL run plus 7; the name is the bytes before that "   ", beginning at byte 6 or later, and holds no "   " |
| Netbios.ExtractNameFixed | rigour/pkg/scanner/fingerprint/plugins/services/netbios/netbiosns.go:46-54 | as intended: a name is returned only when a five-NUL run exists, and it is exactly the bytes from 7 after that run up to the first "   " |
| Netbios.FixedAgrees | rigour/pkg/scanner/fingerprint/plugins/services/netbios/netbiosns.go:46-51 | the two agree on every reply that contains five NULs in a row |
| Netbios.NulFreeReadFromSix | rigour/pkg/scanner/fingerprint/plugins/services/netbios/netbiosns.go:46-48 | a reply without five NULs is read from byte 6 on as written and is rejected by the corrected check |
| Netbios.NulFreeReplyAccepted | rigour/pkg/scanner/fingerprint/plugins/services/netbios/netbiosns.go:46-54 | a concrete NUL-free reply is reported with name "GH" as written and rejected by the corrected check |
| Netbios.Run | rigour/pkg/scanner/fingerprint/plugins/services/netbios/netbiosns.go:21-56 | as written: a failed random source gives RandomizeError; a receive error is returned; a non-empty reply from which the guard as written extracts a name is detected with that name, over UDP; any other reply is no service and no error |
| Netbios.RunFixed | rigour/pkg/scanner/fingerprint/plugins/services/netbios/netbiosns.go:21-56 | the same plugin over the corrected check: a detection carries the name `ExtractNameFixed` gives, and a reply without five NULs in a row is no service |
| Netbios.RunFixedAgrees | rigour/pkg/scanner/fingerprint/plugins/services/netbios/netbiosns.go:46-55 | the plugin as written and the corrected one give the same answer on every reply that holds five NULs in a row, and on every failed exchange |
| Netbios.NulFreeReplyDetected | rigour/pkg/scanner/fingerprint/plugins/services/netbios/netbiosns.go:46-55 | on the NUL-free reply the plugin as written reports a NetBIOS service named "GH", the corrected one nothing |
| Netbios.PortPriority | rigour/pkg/scanner/fingerprint/plugins/services/netbios/netbiosns.go:58-60 | only port 137 is preferred |
| Ftp.ScanToCR | rigour/pkg/crawler/fingerprint/plugins/services/ftp/ftp.go:12 | the tail `(.*)\r` of the pattern matches from index i iff a carriage return follows with no line feed before it |
| Ftp.Matches | rigour/pkg/crawler/fingerprint/plugins/services/ftp/ftp.go:12 | the pattern matches iff the text starts with three ASCII digits, then '-' or ' ', and a carriage return occurs at index 4 or later with no line feed between index 4 and it (the reply shape of section 4.2 of RFC 959) |
| Ftp.ProFtpdGreeting | rigour/pkg/crawler/fingerprint/plugins/services/ftp/ftp.go:12 | the greeting "220 ready\r\n" matches |
| Ftp.LineFeedOnlyRejected | rigour/pkg/crawler/fingerprint/plugins/services/ftp/ftp.go:12 | "220 ready\n", without a carriage return, does not match |
| Ftp.Run | rigour/pkg/crawler/fingerprint/plugins/services/ftp/ftp.go:22-41 | a read error is returned; a reply is reported iff it matches; the banner is the whole reply, over TCP |
| Ftp.PortPriority | rigour/pkg/crawler/fingerprint/plugins/services/ftp/ftp.go:43-45 | only port 21 is preferred |
| ServiceRecord.FindKind | rigour/pkg/types/service.go:73-264 | the field found is the first whose protocol constant equals the protocol, and None means no field has it |
| ServiceRecord.KindOf | rigour/pkg/types/service.go:73-264 | the switch picks a field iff some field's constant equals the protocol, and the picked field's constant is the protocol |
| ServiceRecord.FromPluginService | rigour/pkg/types/service.go:62-267 | IP, port, protocol, TLS and transport are copied and LastScan is the argument; at most one metadata field is set, and a set field is the protocol's own, holding the decoded raw JSON |
| ServiceRecord.MetadataIff | rigour/pkg/types/service.go:73-264 | a metadata field is set exactly when it belongs to the protocol and the raw JSON decodes into it, so an unknown protocol or undecodable JSON leaves every field nil |
| ServiceRecord.MetadataOfKind | rigour/pkg/types/service.go:73-264 | once the protocol's field is known, the metadata is that field with the decoded value, or nothing when decoding fails |
| ServiceRecord.KindOfUnique | rigour/pkg/types/service.go:73-264 | with distinct protocol constants the switch picks the field whose constant is the protocol |
| ServiceRecord.SshDispatch | rigour/pkg/types/service.go:84-88 | an "ssh" service whose JSON decodes sets exactly the SSH field |
| RawMessage.UnmarshalBsonValue | rigour/internal/storage/mongodb/raw_message.go:24-32 | a nil receiver is an error; Null and Undefined give the empty message |
| RawMessage.StringCase | rigour/internal/storage/mongodb/raw_message.go:34-50 | a BSON string whose text is valid JSON is kept verbatim (so "42" becomes the number 42); any other string is JSON-encoded as a string, and a marshalling error is returned |
| RawMessage.BinaryCase | rigour/internal/storage/mongodb/raw_message.go:52-71 | binary data that is empty or white space only becomes nil; valid JSON is kept verbatim; anything else is JSON-encoded as a byte slice |
| RawMessage.ContainerCases | rigour/internal/storage/mongodb/raw_message.go:73-107 | a one-element array is unwrapped to its element's encoding, other arrays are encoded whole; an embedded document is encoded from its decoded map |
| RawMessage.MarshalOrFail | rigour/internal/storage/mongodb/raw_message.go:45-48 | the encoding succeeds exactly when `json.Marshal` does, and gives its output |
| RawMessage.DecodedIsJson | rigour/internal/storage/mongodb/raw_message.go:29-121 | every successful decode stores nothing or valid JSON, so the message always marshals to valid JSON |
| RawMessage.MarshalJson | rigour/internal/storage/mongodb/raw_message.go:124-129 | an empty message marshals to "null", any other to its bytes |
| RawMessage.SpaceRuneOfEncoding | rigour/internal/storage/mongodb/raw_message.go:57 | the byte-level white-space recogniser of `bytes.TrimSpace` reads exactly one encoded white-space character, and nothing for any other character |
| RawMessage.BlankIffAllSpace | rigour/internal/storage/mongodb/raw_message.go:57 | `bytes.TrimSpace` empties the UTF-8 encoding of a string exactly when every character is white space for `unicode.IsSpace` |
| RawMessage.BlankExamples | rigour/internal/storage/mongodb/raw_message.go:57 | ASCII spaces, a no-break space and an ideographic space together are blank; a lone C2 byte is not |
| RawMessage.BlankStep | rigour/internal/storage/mongodb/raw_message.go:57 | a byte string that opens with a white-space character is blank iff the rest is |
| Pagination.ValidatePageSize | rigour/pkg/api/pagination.go:52-60 | the result is in 1..500; a size of 0 or less gives 50, above 500 gives 500, and anything in 1..500 is kept |
| Pagination.ValidatePageSizeIdempotent | rigour/pkg/api/pagination.go:52-60 | clamping a clamped size changes nothing |
| Pagination.EncodeToken | rigour/pkg/api/pagination.go:17-30 | the token is the padded standard base64 (section 4 of RFC 4648) of the JSON of {last_id, sort_field}: decoding it gives that JSON back |
| Pagination.DecodeToken | rigour/pkg/api/pagination.go:33-49 | the empty token is "no token"; a non-empty token that is not base64 is one error and one whose payload is not JSON the other |
| Pagination.EncodeTokenNonEmpty | rigour/pkg/api/pagination.go:17-30 | an issued token is never empty, so it is never read as "no token" |
| Pagination.TokenRoundTrip | rigour/pkg/api/pagination.go:17-49 | decoding an issued token gives back the id and sort field it was made from |
| Pagination.MalformedTokenRejected | rigour/pkg/api/pagination.go:38-41 | a token whose length, with line breaks skipped, is not a multiple of four is a base64 error |
| Pagination.TrailingNewlineIgnored | rigour/pkg/api/pagination.go:38 | a line break after a non-empty token does not change what it decodes to |
| Base64.Encode | rigour/pkg/api/pagination.go:28 | every three bytes become four characters, and a final one or two bytes are padded with '=' to four: the length is 4 * ceil(n / 3) |
| Base64.RoundTrip | rigour/pkg/api/pagination.go:28-38 | decoding the encoding gives the bytes back |
| Base64.DecodeRejectsLength | rigour/pkg/api/pagination.go:38-41 | a string whose length is not a multiple of four is rejected |
| Base64.DecodeRejectsForeign | rigour/pkg/api/pagination.go:38-41 | a character outside the alphabet in a block before the last one is rejected, whatever follows |
| Base64.StripNewlines | rigour/pkg/api/pagination.go:38 | the carriage returns and line feeds are removed and every other character kept |
| Base64.DecodeString | rigour/pkg/api/pagination.go:38 | line breaks are ignored and the rest must be padded base64; on text without line breaks this is the plain decoder |
| Base64.DecodeSkipsNewline | rigour/pkg/api/pagination.go:38 | a line break inserted anywhere does not change the result |
| Base64.DecodeStringRejectsLength | rigour/pkg/api/pagination.go:38-41 | once the line breaks are gone, a length that is not a multiple of four is rejected |
| Base64.EncodeHasNoNewline | rigour/pkg/api/pagination.go:28 | the encoder never emits a line break |
| Base64.DecodeStringRoundTrip | rigour/pkg/api/pagination.go:28-38 | `DecodeString` undoes `Encode` |
| Base64.VectorF | rigour/pkg/api/pagination.go:28 | the test vector "f" of section 10 of RFC 4648 encodes to "Zg==" |
| Base64.VectorFoob | rigour/pkg/api/pagination.go:28 | the test vector "foob" encodes to "Zm9vYg==" |
| Handlers.FilterOf | rigour/internal/api/handlers.go:28-36 | an absent filter is the empty map; a present one must parse as a JSON object |
| Handlers.SearchArgsOf | rigour/internal/api/handlers.go:27-62 | a bad filter is "Invalid filter parameter"; the limit is 50 when absent and ValidatePageSize of the scanned number otherwise, so always in 1..500; an empty or absent token means no cursor; the arguments fail exactly on a bad filter, an unscannable limit or an undecodable token |
| Handlers.SearchHandler | rigour/internal/api/handlers.go:26-87 | 400 exactly when the arguments fail; 500 with "Search failed: " and the repository's error exactly when the search fails; otherwise 200 with the hosts and a next-page token that is set exactly when the repository returned a next id, encoding that id with sort field "_id" |
| Handlers.NextPageResumesAt | rigour/internal/api/handlers.go:51-83 | following the returned token with the same filter and limit asks the repository to continue from the id the previous page ended on |
| Handlers.FilterCheckedFirst | rigour/internal/api/handlers.go:28-36 | a malformed filter gives the same 400, whatever the limit and page token hold |
| Handlers.GetHostHandler | rigour/internal/api/handlers.go:90-106 | an empty ip is 400 "IP address is required"; a repository error is 404 with its message; otherwise 200 with the host |
| Handlers.FacetsHandler | rigour/internal/api/handlers.go:109-140 | a malformed filter is 400 "Invalid filter parameter"; an aggregation error is 500 with "Facet aggregation failed: " and the error; otherwise 200 with the three count maps copied |
| HostStore.Find | rigour/internal/storage/mongodb/hosts.go:44 | the position found holds the IP, and None means no document has it |
| HostStore.Lookup | rigour/internal/storage/mongodb/hosts.go:89-91 | the document `{ip}` selects holds that IP, and None means no document has it |
| HostStore.Effective | rigour/internal/storage/mongodb/hosts.go:40-42 | a zero time stands for now; any other time is kept |
| HostStore.Insert | rigour/internal/storage/mongodb/hosts.go:57 | an upsert that inserts adds the new document in `_id` order, keeps one document per IP, and changes only the new IP's lookup |
| HostStore.EnsureHost | rigour/internal/storage/mongodb/hosts.go:39-59 | an existing host only gets `last_seen`; a missing one is created with that time as first and last seen, no services and no labels; every other IP is unchanged, and the collection grows by one exactly when the IP was missing |
| HostStore.EnsureHostIdempotent | rigour/internal/storage/repositories.go:27-29 | ensuring a host twice creates nothing the second time and only moves `last_seen`, as the interface asks of implementations |
| HostStore.ApplyUpdate | rigour/internal/storage/mongodb/hosts.go:61-78 | `last_seen` is set to now; ASN, location and labels are replaced only when given, `ip_int` only when non-zero; id, IP, first seen and services are kept |
| HostStore.UpdateHost | rigour/internal/storage/mongodb/hosts.go:61-82 | the update applies to the host with that IP, changes no other IP, and leaves a missing host missing (no upsert) |
| HostStore.PortIndex | rigour/internal/storage/mongodb/hosts.go:109-116 | the position found is the first service on the port, and None means no service has it |
| HostStore.ReplaceOrAppend | rigour/internal/storage/mongodb/hosts.go:108-140 | the first service on the same port is replaced in place; otherwise the service is appended |
| HostStore.ReplaceOrAppendPorts | rigour/internal/storage/mongodb/hosts.go:108-140 | afterwards the service is the one found on its port, the list grew by at most one, and every entry is the service or an old one |
| HostStore.ReplaceOrAppendIdempotent | rigour/internal/storage/mongodb/hosts.go:108-140 | upserting the same service twice is upserting it once |
| HostStore.UpsertService | rigour/internal/storage/mongodb/hosts.go:102-145 | `last_seen` becomes the scan time, or now when it is zero, and the service is replaced or appended; no other IP changes; a missing host stays missing, so the service is dropped |
| HostStore.UpsertServiceCreating | rigour/internal/storage/repositories.go:31-33 | as the interface documents it: afterwards the host exists and holds the service, with `last_seen` the scan time; for an existing host this is `UpsertService` |
| HostStore.GetByIP | rigour/internal/storage/mongodb/hosts.go:84-100 | a nil repository and a fetch error give their messages; otherwise the host with that IP is returned, or "host not found: " and the IP |
| HostStore.Candidates | rigour/internal/storage/mongodb/hosts.go:152-173 | the documents the pipeline keeps before `$limit`: exactly those the filter matches and whose `_id` is past the cursor, in `_id` order |
| HostStore.CandidatesResume | rigour/internal/storage/mongodb/hosts.go:163-168 | resuming after the k-th candidate gives exactly the candidates after it |
| HostStore.Search | rigour/internal/storage/mongodb/hosts.go:147-196 | a nil repository, an aggregation error and a decode error give their messages; otherwise the page is the first candidates, at most `limit` of them and sorted; the next id is set exactly when more than `limit` candidates exist, and is then the page's last `_id`; without a next id the page is every candidate |
| HostStore.SearchPagesPartition | rigour/internal/storage/mongodb/hosts.go:163-193 | a page followed by the candidates after its next id is the whole candidate list: paging neither skips nor repeats a host |
| HostStore.NextPageFollows | rigour/internal/storage/mongodb/hosts.go:163-193 | every host of the next page sorts after every host of this page |
| HostStore.SearchAsWritten | rigour/internal/storage/mongodb/hosts.go:163-168 | as written: with a non-empty cursor the string bound never matches an ObjectId `_id`, so every page after the first is empty |
| HostStore.LaterPagesLost | rigour/internal/storage/mongodb/hosts.go:163-193 | with more matching hosts than one page holds, the first page hands out a cursor whose page is empty as written, although candidates remain and the corrected search returns them |
| HostStore.Facets | rigour/internal/storage/mongodb/hosts.go:198-323 | a nil repository and the two driver errors give their messages; otherwise each map holds exactly the keys whose count fits in int32: service protocols over every service entry, ASN countries, and "number-organization" keys, each with its number of occurrences among the matching hosts |
| HostStore.Int32Counts | rigour/internal/storage/mongodb/hosts.go:277-278 | a group is kept exactly when its count passes the int32 assertion, with that count |
| HostStore.ProtocolKeysAppend | rigour/internal/storage/mongodb/hosts.go:214-219 | the protocol keys of a list of hosts are those of its parts, so counts add up |
| HostStore.ServiceCountOfOneMore | rigour/internal/storage/mongodb/hosts.go:214-219 | a host with n services of a protocol adds n to that protocol's count |
| HostStore.FacetsOfNothing | rigour/internal/storage/mongodb/hosts.go:256-269 | with no matching host every map is empty |
| HostStore.AsnKeyInjective | rigour/internal/storage/mongodb/hosts.go:308-313 | different (number, organization) pairs give different ASN keys |
| ServiceRepo.HostDocumentToHost | rigour/internal/storage/mongodb/mongodb.go:151-174 | id, IP, country, ASN, GeoIP and timestamp are carried over, and the services one for one and in order with every field |
| ServiceRepo.ConversionInjective | rigour/internal/storage/mongodb/mongodb.go:151-174 | different documents give different hosts |
| ServiceRepo.ReadBackMetadata | rigour/internal/storage/mongodb/mongodb.go:144 | empty metadata is left out of the stored document by `omitempty` and reads back as nil |
| ServiceRepo.MetadataReadBack | rigour/internal/storage/mongodb/mongodb.go:144-190 | metadata written as a byte slice and read back through `UnmarshalBSONValue` comes back unchanged exactly when it is empty or non-blank valid JSON; blank metadata comes back empty, and anything else as its JSON (base64 string) encoding |
| ServiceRepo.AddToSet | rigour/internal/storage/mongodb/mongodb.go:201-203 | the service is present afterwards; it is appended only when no equal one exists, and nothing else is added or lost |
| ServiceRepo.FindIp | rigour/internal/storage/mongodb/mongodb.go:194 | the document found holds the IP, and None means no document has it |
| ServiceRepo.InsertServiceRecord | rigour/internal/storage/mongodb/mongodb.go:178-212 | a nil repository and an upsert error give their messages; otherwise the IP's document has the event's GeoIP and timestamp and the service added to its set, or is created when missing; no other IP changes |
| ServiceRepo.InsertTwiceKeepsOne | rigour/internal/storage/mongodb/mongodb.go:193-207 | recording the same event twice changes nothing the second time |
| ServiceRepo.AddToSetKeepsDistinct | rigour/internal/storage/mongodb/mongodb.go:201-203 | a service list built by recording events never holds the same service twice |
| ServiceRepo.BuildQuery | rigour/internal/storage/mongodb/mongodb.go:220-229 | the query holds every filter entry, and `ip` is replaced by `$gte lastID` when a cursor is given |
| ServiceRepo.IpFilterReplaced | rigour/internal/storage/mongodb/mongodb.go:226-229 | a caller's own `ip` condition is dropped once a cursor is given |
| ServiceRepo.Matching | rigour/internal/storage/mongodb/mongodb.go:237 | exactly the documents the query selects, in collection order |
| ServiceRepo.Search | rigour/internal/storage/mongodb/mongodb.go:215-265 | a nil repository, a find error and a decode error give their messages; otherwise the page is the first `limit` selected documents in IP order, and the next id is the last returned IP exactly when one more document came back; with a cursor every host's IP is at least the cursor |
| ServiceRepo.Trim | rigour/internal/storage/mongodb/mongodb.go:256-262 | more than `limit` documents are cut to `limit` and name the last IP kept; otherwise nothing is cut and there is no next id |
| ServiceRepo.NextPageRepeatsLast | rigour/internal/storage/mongodb/mongodb.go:226-262 | because the cursor uses `$gte`, the next page starts with the last host of this page again |
| ServiceRepo.Facets | rigour/internal/storage/mongodb/mongodb.go:268-368 | a nil repository and the service branch's errors are returned; errors of the country and ASN branches leave those maps empty; empty protocol and country keys and missing organizations are dropped, and every count is the number of occurrences |
| ServiceRepo.NonEmpty | rigour/internal/storage/mongodb/mongodb.go:306-332 | the keys kept are those that are not empty, with their counts |
| ServiceRepo.Present | rigour/internal/storage/mongodb/mongodb.go:360 | the keys kept are the organizations that are present, with their counts |
| ServiceRepo.NoGeoNoCountry | rigour/internal/storage/mongodb/mongodb.go:312-345 | a document without a GeoIP record adds nothing to the country and ASN counts |
| Enricher.To4 | rigour/pkg/persistence/enricher.go:70 | a 4-byte form exists only for a 4- or 16-byte address and is its last four bytes |
| Enricher.To4OfIpv4 | rigour/pkg/persistence/enricher.go:70-73 | both forms an IPv4 address can be parsed into give back its four bytes |
| Enricher.To4RejectsIpv6 | rigour/pkg/persistence/enricher.go:70-73 | a true IPv6 address has no 4-byte form, so it is rejected |
| Enricher.Unpack | rigour/pkg/persistence/enricher.go:77 | a number below 2^32 has four bytes, most significant first |
| Enricher.UnpackPack | rigour/pkg/persistence/enricher.go:77 | the shifted sum of four bytes stays below 2^32, and unpacking it gives the bytes back |
| Enricher.PackInjective | rigour/pkg/persistence/enricher.go:77 | different addresses get different integers |
| Enricher.IpToIPInt | rigour/pkg/persistence/enricher.go:62-78 | an unparsable address and a non-IPv4 one give their messages; otherwise the result is below 2^32 and its four bytes are the address's |
| Enricher.IpToIPIntInjective | rigour/pkg/persistence/enricher.go:62-78 | two addresses with the same integer are the same IPv4 address |
| Enricher.SampleAddresses | rigour/pkg/persistence/enricher.go:77 | the integers of three sample addresses, worked out from their bytes |
| Enricher.AppendLabel | rigour/pkg/persistence/enricher.go:56 | append to a possibly nil slice: the tag is last and everything before it is kept |
| Enricher.EnrichHost | rigour/pkg/persistence/enricher.go:23-60 | a lookup error and a conversion error are returned, in that order; otherwise `ip_int`, location (longitude first), ASN (wrapped to uint32) and the proxy label are set and nothing else changes |
| Enricher.ProxyLabelIff | rigour/pkg/persistence/enricher.go:54-57 | a tag is present afterwards exactly when it was before or it is the proxy tag of a flagged address |
| Enricher.AsnWraps | rigour/pkg/persistence/enricher.go:49 | `uint32` of a negative ASN is its two's-complement value |
| GeoIp.NewClient | rigour/internal/geoip/api.go:38-50 | fails exactly when the base URL or the key is empty; a non-positive timeout becomes three seconds; the stored base URL has its trailing slashes cut |
| GeoIp.StoredBaseUrlShape | rigour/internal/geoip/api.go:46 | the stored base URL does not end in a slash and is the given one less only slashes |
| GeoIp.SlashOnlyBaseUrl | rigour/internal/geoip/api.go:39-46 | the emptiness check comes before the trimming, so "/" is accepted and stored as "" |
| GeoIp.Lookup | rigour/internal/geoip/api.go:52-85 | an empty IP, a transport error, a non-200 status (with at most 2^20 characters of the body) and a 200 response whose body does not decode fail, each with its own message; otherwise the decoded record is returned with its defaults set |
| GeoIp.Default | rigour/internal/geoip/api.go:88-90 | an empty text reads "Unknown"; any other is kept |
| GeoIp.SetNullableFieldsToDefault | rigour/internal/geoip/api.go:87-109 | each of the seven text fields reads "Unknown" when empty and is kept otherwise; the other fields are unchanged |
| GeoIp.DefaultsFill | rigour/internal/geoip/api.go:87-109 | afterwards every text field is filled; a record changes exactly when a field was empty; defaulting twice is defaulting once |
| GeoIp.LookupFilled | rigour/internal/geoip/api.go:82-84 | every record a successful lookup returns is filled |
| Persistence.WithDefaults | rigour/pkg/persistence/persistence.go:45-60 | an empty topic, database or collection and a non-positive timeout take the package's constants; every other field is kept |
| Persistence.WithDefaultsIdempotent | rigour/pkg/persistence/persistence.go:45-60 | defaulting twice is defaulting once, and a configuration is left alone exactly when it sets all four fields |
| Persistence.Validate | rigour/pkg/persistence/persistence.go:62-77 | no error exactly when brokers, group id, Mongo URI, GeoIP URL and key are all set; otherwise the first missing one's message, in that order |
| Persistence.DefaultedFieldsNeverFail | rigour/pkg/persistence/persistence.go:62-63 | validity does not depend on the four defaulted fields |
| Persistence.HandleService | rigour/pkg/persistence/persistence.go:197-224 | ensure the host, enrich a bare host, update it, then upsert the service stamped with now when its scan time is zero; the first error stops the steps and is returned with the store as the earlier steps left it |
| Persistence.HandledMeansAllStepsRan | rigour/pkg/persistence/persistence.go:205-223 | a nil error means every step ran: the host was ensured and the lookup and the IP conversion succeeded |
| Persistence.LookupFailureKeepsEnsuredHost | rigour/pkg/persistence/persistence.go:205-215 | a failed GeoIP lookup keeps the ensured host and stores no service |
| Persistence.Close | rigour/pkg/persistence/persistence.go:152-168 | a nil app closes nothing; the consumer and the Mongo client are closed exactly when present, and the first error is returned |
| Persistence.Run | rigour/pkg/persistence/persistence.go:171-195 | a nil app fails with its message; the loop stops only at a cancellation, a fetch error or a store error |
| Persistence.Loop | rigour/pkg/persistence/persistence.go:176-194 | a cancellation returns the context's error and a fetch error that error, before anything else is stored |
| Persistence.RunHandlesMessagesInOrder | rigour/pkg/persistence/persistence.go:176-194 | without a cancellation or a fetch error the loop stores exactly the non-nil messages in order and returns the first store error |
| Persistence.CancelStopsAfterPrefix | rigour/pkg/persistence/persistence.go:177-180 | a cancellation after k clean fetches stores the messages before it and returns the context's error |
| Kafka.ValidateProducer | rigour/internal/messaging/kafka/producer.go:24-32 | no error exactly when the broker string is non-empty and the topic is not blank; otherwise the first failing check's message |
| Kafka.ValidateConsumer | rigour/internal/messaging/kafka/consumer.go:24-35 | no error exactly when brokers are non-empty and topic and group id are not blank; otherwise the first failing check's message |
| Kafka.BlankBrokersPass | rigour/internal/messaging/kafka/producer.go:25 | only the length of the brokers is checked, so spaces pass |
| Kafka.TrimAll | rigour/internal/messaging/kafka/producer.go:40-42 | every element is trimmed and none is dropped |
| Kafka.BrokerList | rigour/internal/messaging/kafka/producer.go:39-42 | one broker more than there are commas |
| Kafka.BrokerListOfJoin | rigour/internal/messaging/kafka/producer.go:39-42 | addresses without commas or surrounding space joined by commas come back as they were |
| Kafka.EmptyEntryKept | rigour/internal/messaging/kafka/producer.go:39-42 | two commas in a row give an empty broker, which is kept |
| Kafka.NewProducer | rigour/internal/messaging/kafka/producer.go:34-57 | fails exactly when validation fails, with its error; otherwise the writer gets the broker list and the topic |
| Kafka.CloseProducer | rigour/internal/messaging/kafka/producer.go:59-64 | a nil producer or writer closes with no error; otherwise the writer's answer |
| Kafka.PublishBytes | rigour/internal/messaging/kafka/producer.go:66-76 | a nil producer or writer fails with its message; otherwise the writer's answer |
| Kafka.PublishMessage | rigour/internal/messaging/kafka/producer.go:97-108 | a nil typed producer fails; a marshal error is returned; otherwise the bytes are published |
| Kafka.NewTypedProducer | rigour/internal/messaging/kafka/producer.go:85-94 | fails exactly when validation fails; otherwise it holds a producer with a writer |
| Kafka.CloseTypedProducer | rigour/internal/messaging/kafka/producer.go:111-116 | a nil typed producer closes with no error |
| Kafka.BuiltProducerWrites | rigour/internal/messaging/kafka/producer.go:34-76 | a built producer passes write errors through unchanged |
| Kafka.NewConsumer | rigour/internal/messaging/kafka/consumer.go:37-57 | fails exactly when validation fails, with its error; otherwise the reader gets the broker list, topic and group id |
| Kafka.CloseConsumer | rigour/internal/messaging/kafka/consumer.go:59-64 | a nil consumer or reader closes with no error; otherwise the reader's answer |
| Kafka.Fetch | rigour/internal/messaging/kafka/consumer.go:87-106 | nil typed consumer and nil reader fail with their messages; a `FetchMessage` error and a decode error are each returned unchanged; otherwise key, decoded value and raw bytes |
| Kafka.NewTypedConsumer | rigour/internal/messaging/kafka/consumer.go:75-84 | fails exactly when validation fails; otherwise it holds a consumer with a reader |
| Kafka.CloseTypedConsumer | rigour/internal/messaging/kafka/consumer.go:109-114 | a nil typed consumer closes with no error |
| Kafka.BuiltConsumerFetches | rigour/internal/messaging/kafka/consumer.go:37-106 | a built consumer delivers what the codec decodes and the bytes it decoded |
| SearchQuery.RunEnd | rigour-ui/components/SearchHeader.tsx:20 | the longest run from a position of characters with the property: all inside satisfy it and the one after does not |
| SearchQuery.FieldEnd | rigour-ui/components/SearchHeader.tsx:20 | the greedy end of `\w+(?:\.\w+)*`: every character before it belongs to the dotted name, and the name cannot be extended |
| SearchQuery.ValueOfShape | rigour-ui/components/SearchHeader.tsx:20-24 | the value is trimmed, and there is a value exactly when something other than line terminators follows the colon |
| SearchQuery.MatchAt | rigour-ui/components/SearchHeader.tsx:20 | a match starting at a position ends inside the text |
| SearchQuery.MatchAtShape | rigour-ui/components/SearchHeader.tsx:20 | a match is a dotted name found at its start, with a colon after it |
| SearchQuery.FirstIndex | rigour-ui/components/SearchHeader.tsx:20 | the least index with the property, and None exactly when there is none |
| SearchQuery.ParseQuery | rigour-ui/components/SearchHeader.tsx:18-28 | a parsed query has a dotted field and a trimmed value |
| SearchQuery.ParseQueryAt | rigour-ui/components/SearchHeader.tsx:20-24 | the query is the one of the leftmost match |
| SearchQuery.ParseQueryLeftmost | rigour-ui/components/SearchHeader.tsx:18-28 | null exactly when the expression matches nowhere; otherwise the match with the leftmost start, and nothing matches before it |
| SearchQuery.NoColonNoQuery | rigour-ui/components/SearchHeader.tsx:20 | without a colon nothing parses |
| SearchQuery.FieldEndOfName | rigour-ui/components/SearchHeader.tsx:20 | a dotted name followed by a colon is taken whole, from any of its segment starts |
| SearchQuery.ValueOfTrimmed | rigour-ui/components/SearchHeader.tsx:20-24 | a trimmed single-line value after ": " is read back as it is |
| SearchQuery.MatchOfRendered | rigour-ui/components/SearchHeader.tsx:20 | "field: value" laid out at a position matches there with that field and value |
| SearchQuery.RenderedQueryParses | rigour-ui/components/SearchHeader.tsx:18-28 | rendering any dotted field and trimmed single-line value as "field: value" and parsing it gives them back |
| SearchQuery.SearchParams | rigour-ui/components/SearchHeader.tsx:30-45 | an empty box and text that does not parse push no parameter; a parsed query pushes exactly one `filter`, the JSON object of its field and value |
| SearchQuery.SearchParamsOfRendered | rigour-ui/components/SearchHeader.tsx:30-45 | the filter pushed for "field: value" names that field and value |
| SearchQuery.SearchParamsOfParsed | rigour-ui/components/SearchHeader.tsx:36-40 | whatever parses is pushed as its one-member JSON object |
| SearchQuery.EmptyValue | rigour-ui/components/SearchHeader.tsx:20-24 | a value of white space parses as "" |
| SearchQuery.WordThenBlank | rigour-ui/components/SearchHeader.tsx:20 | no match starts inside a leading word that a blank and another word follow |
| SearchQuery.MatchAfterWord | rigour-ui/components/SearchHeader.tsx:20 | a match right after a leading word and a blank is the leftmost one |
| SearchQuery.EarlierWordDropped | rigour-ui/components/SearchHeader.tsx:20 | the leftmost match wins, so "x y: z" gives the field "y" |
| SearchQuery.WordThenRendered | rigour-ui/components/SearchHeader.tsx:20 | a word, a blank and then "field: value" parse as that field and value |
| ApiClient.BaseUrl | rigour-ui/lib/api.ts:3 | an unset or empty variable falls back to the local API; any other value is used |
| ApiClient.Lookup | rigour-ui/components/FacetFilters.tsx:102-103 | `record[key]` over a response whose keys are distinct: the value of the member named key, and None exactly when none is |
| ApiClient.FilterParams | rigour-ui/lib/api.ts:31-33 | the filter is sent, as its JSON text, exactly when it has a member |
| ApiClient.SearchParams | rigour-ui/lib/api.ts:24-43 | the server reads the filter's JSON when it has members, the limit (20 when left out) unless it is 0, and the page token unless empty; only these names occur, in this order, never with an empty value |
| ApiClient.FacetsParams | rigour-ui/lib/api.ts:62-71 | only the filter is sent, under the same rule |
| ApiClient.Receive | rigour-ui/lib/api.ts:52-56 | a status outside 200-299 is "API error: " and the status; otherwise the parsed body, or a failure when the body is not JSON |
| ApiClient.ErrorNamesStatus | rigour-ui/lib/api.ts:53 | different statuses give different error messages |
| ApiClient.ServerQuery | rigour/internal/api/handlers.go:29-52 | the handler reads `filter`, `limit` and `page_token` with `Get` |
| ApiClient.SearchRequestArrives | rigour-ui/lib/api.ts:24-43 | the handler sees exactly the filter text, limit and token the client sent |
| ApiClient.SearchLimitAtServer | rigour-ui/lib/api.ts:35-37 | for a limit within `Number.MAX_SAFE_INTEGER`, the text of the limit scans, and the server uses the client's limit clamped, or its default of 50 when the limit was 0 and so not sent |
| ApiClient.DefaultLimitAtServer | rigour-ui/lib/api.ts:26 | when the limit is left out the server uses 20, given only that the scanner reads "20" |
| ApiClient.MissingHostIsApiError | rigour-ui/lib/api.ts:90-104 | a host the repository cannot find reaches `getHostByIP`'s caller as "API error: 404" |
| ApiClient.HandlerStatusesSurface | rigour-ui/lib/api.ts:52 | of the statuses the handlers use, only 200 is not an error |
| FacetFilters.Toggle | rigour-ui/components/FacetFilters.tsx:72-94 | a checked entry is removed, an unchecked one appended; no other entry changes |
| FacetFilters.ToggleKeepsDistinct | rigour-ui/components/FacetFilters.tsx:72-94 | toggling keeps a list free of repeats |
| FacetFilters.ToggleTwiceAbsent | rigour-ui/components/FacetFilters.tsx:72-78 | checking and unchecking an entry that was not checked gives the list back |
| FacetFilters.ToggleTwiceLast | rigour-ui/components/FacetFilters.tsx:72-78 | unchecking and re-checking the last entry gives the list back |
| FacetFilters.ToggleTwiceMoves | rigour-ui/components/FacetFilters.tsx:72-78 | unchecking and re-checking any other entry moves it to the end, so the list differs |
| FacetFilters.HasChangesIff | rigour-ui/components/FacetFilters.tsx:97-100 | "unsaved changes" exactly when some list differs from the initial one, order included |
| FacetFilters.ReselectingShowsChange | rigour-ui/components/FacetFilters.tsx:97-100 | so unchecking and re-checking a country that is not last leaves changes shown |
| FacetFilters.ListParam | rigour-ui/components/FacetFilters.tsx:56-66 | a list is sent exactly when non-empty, joined with ',' |
| FacetFilters.ApplyFilters | rigour-ui/components/FacetFilters.tsx:52-70 | at most the three names countries, asns and services |
| FacetFilters.AppliedCountries | rigour-ui/components/FacetFilters.tsx:56-58 | the `countries` the page reads is the joined countries |
| FacetFilters.AppliedAsns | rigour-ui/components/FacetFilters.tsx:60-62 | the `asns` the page reads is the joined ASN labels |
| FacetFilters.AppliedServices | rigour-ui/components/FacetFilters.tsx:64-66 | the `services` the page reads is the joined services |
| FacetFilters.ReadList | rigour-ui/components/FacetFilters.tsx:56-66 | the read-back of what these lines write, done by lines 24-38 of the dashboard route's page.tsx when it builds the filter: an absent or empty parameter is no selection; otherwise the pieces of its value split at ',' join back to it |
| FacetFilters.ReadListParam | rigour-ui/components/FacetFilters.tsx:56-66 | a list these lines join, without empty entries or commas, is read back by page.tsx lines 24-38 as it was |
| FacetFilters.ReadInitial | rigour-ui/components/FacetFilters.tsx:27-40 | the initial selection these lines take from page.tsx lines 136-150, `v?.split(',') or []`: an absent parameter is no selection; a present one, even empty, splits into pieces that join back to it |
| FacetFilters.InitialAgreesUnlessEmpty | rigour-ui/components/FacetFilters.tsx:27-40 | the component's initial selection equals the list the page filters by, except for a parameter given empty such as `?countries=`, where the component starts from one empty entry and the filter has none |
| FacetFilters.ApplyRoundTrip | rigour-ui/components/FacetFilters.tsx:52-70 | the page "Apply" navigates to shows the applied selection again |
| FacetFilters.CountShowsServerCount | rigour-ui/components/FacetFilters.tsx:102-114 | the count next to an entry is the server's count for it, 0 when there is none |
| FacetFilters.CountryCountIsHostCount | rigour-ui/components/FacetFilters.tsx:102-103 | with the repository's counts, the number next to a country is the number of matching hosts in it (0 when beyond int32) |
| FacetFilters.ServiceCountIsHostCount | rigour-ui/components/FacetFilters.tsx:113-114 | the same for a service protocol, counted over service entries |
| FacetFilters.FirstPrefixed | rigour-ui/components/FacetFilters.tsx:107-110 | the value of the first key with the prefix, None exactly when no key has it |
| FacetFilters.AsnPrefixIff | rigour-ui/components/FacetFilters.tsx:108 | a key "number-organization" starts with "n-" exactly when its number is n |
| FacetFilters.AsnCounts | rigour/internal/storage/mongodb/hosts.go:309-313 | one member per ASN group, keyed "number-organization" |
| FacetFilters.AsnCountByNumber | rigour-ui/components/FacetFilters.tsx:105-111 | the count shown for "AS" n is that of the first key with number n; other organisations under n are not added |
| FacetFilters.LabelOfKey | rigour-ui/components/FacetFilters.tsx:105-109 | the label the dashboard page builds from a key "number-organization" ("AS" and the part before the first '-') is "AS" followed by the number, which is the number `getASNCount` strips back out |
| HostResults.TotalPages | rigour-ui/components/HostResults.tsx:20 | zero pages exactly for no hosts; otherwise the fewest pages of ten that hold them |
| HostResults.Bound | rigour-ui/components/HostResults.tsx:23 | a slice bound is clamped to the list and kept when inside it |
| HostResults.JsSlice | rigour-ui/components/HostResults.tsx:23 | within bounds the slice is the subsequence |
| HostResults.PageSlice | rigour-ui/components/HostResults.tsx:21-23 | a page in range shows its one to ten hosts, from index (page-1)*10; a page beyond the last shows none |
| HostResults.PagesPrefix | rigour-ui/components/HostResults.tsx:20-23 | the first k pages read in order are the first hosts |
| HostResults.PagesPartition | rigour-ui/components/HostResults.tsx:20-23 | all pages read in order give back every host exactly once |
| HostResults.Settle | rigour-ui/components/HostResults.tsx:31-34 | a page beyond the last, when there is one, becomes page 1; otherwise it is kept |
| HostResults.SettleInRange | rigour-ui/components/HostResults.tsx:31-34 | after the reset the page is in range, and a shrunken list shows its first page |
| HostResults.ShowingMatchesSlice | rigour-ui/components/HostResults.tsx:75 | on a page in range, "Showing a-b" names exactly the positions of the hosts shown |
| HostResults.ShowingEmpty | rigour-ui/components/HostResults.tsx:75 | with no hosts the line reads a first number of at least 1 and a second of 0 |
| HostResults.PageNumbers | rigour-ui/components/HostResults.tsx:36-69 | up to five pages are all listed in order |
| HostResults.ShortRow | rigour-ui/components/HostResults.tsx:40-43 | up to five pages: every page, the current one included |
| HostResults.StartRow | rigour-ui/components/HostResults.tsx:45-50 | near the start: pages 1 to 4, "...", the last page |
| HostResults.EndRow | rigour-ui/components/HostResults.tsx:51-56 | near the end: page 1, "...", the last four pages |
| HostResults.MiddleRow | rigour-ui/components/HostResults.tsx:57-65 | in the middle: page 1, "...", the neighbours of the current page, "...", the last page |
| HostResults.PageNumbersWellFormed | rigour-ui/components/HostResults.tsx:36-69 | for any page in range the row starts at 1, ends at the last page, lists neighbours consecutively, puts each "..." between numbers that skip a page, shows the current page and has at most seven entries |
| HostResults.PressStaysInRange | rigour-ui/components/HostResults.tsx:99-132 | no enabled button leads outside the pages |
| HostResults.NextReachesEveryPage | rigour-ui/components/HostResults.tsx:128-132 | next is enabled on every page but the last and moves one page on |
| UrlParams.Get | rigour/internal/api/handlers.go:29 | the first value given for a name, or "" when it does not occur |
| UrlParams.GetFirst | rigour/internal/api/handlers.go:29 | a leading pair with the name is the one read |
| UrlParams.GetSkip | rigour/internal/api/handlers.go:29 | pairs with other names in front do not matter |
| Json.ReadEscaped | rigour-ui/components/SearchHeader.tsx:39 | a JSON string body, read back, gives the string and stops at its closing quote |
| Json.ReadQuoted | rigour-ui/components/SearchHeader.tsx:39 | the string `JSON.stringify` writes is read back as the string, whatever follows it |
| Json.QuoteInjective | rigour-ui/components/SearchHeader.tsx:39 | distinct strings give distinct JSON texts |
| Json.QuotePrefix | rigour-ui/components/SearchHeader.tsx:39 | a JSON string at the front of a text is determined by the text |
| Json.StringifyArrayInjective | rigour-ui/components/FacetFilters.tsx:97-100 | two string arrays stringify alike exactly when they are equal |
| Text.TrimEmptyIff | rigour/internal/messaging/kafka/producer.go:28 | trimming leaves nothing exactly when every character is trimmable |
| Text.Split | rigour/internal/messaging/kafka/producer.go:39 | `split` at a one-character separator: one more piece than separators, none holding it, and joined back they give the text |
| Text.SplitJoin | rigour/internal/messaging/kafka/producer.go:39 | pieces without the separator are recovered from their join |
| Text.NatToString | rigour-ui/components/FacetFilters.tsx:56-66 | the shortest decimal spelling of the number |
| Text.NatToStringInjective | rigour-ui/components/FacetFilters.tsx:108 | different numbers have different spellings |
| Text.ReplaceFirst | rigour-ui/components/FacetFilters.tsx:106 | a string pattern replaces only its first occurrence, and nothing without one |
| Text.ReplaceLeading | rigour-ui/components/FacetFilters.tsx:106 | "AS" in front is dropped |
| Seqs.Tally | rigour/internal/storage/mongodb/hosts.go:216-219 | each distinct key is mapped to its number of occurrences, and no other key appears |

## Left out

- Sockets, timeouts and `utils.Send`/`SendRecv`: each plugin's exchange is an input (the bytes received or the I/O error), and deadlines are not modelled.
- Minecraft.Run: the fields of the status JSON are produced by a parsing parameter; the JSON grammar of the status document is not modelled.
- The protocol constants of the plugins package are not part of this model: `FromPluginService` takes the table from field to protocol name as a parameter, and `DistinctNames` says the constants differ.
- RawMessage: the BSON decoder, `json.Valid` and `json.Marshal` are parameters, bound only by the laws the normalisation needs.
- GeoIp.Lookup: cuts an error body at 2^20 characters of a `string`, where the source reads at most 2^20 bytes; the request headers and the construction error of `http.NewRequestWithContext` are folded into the `get` parameter.
- Enricher.EnrichHost: the three-second context of the lookup is not modelled; coordinates are opaque 64-bit values copied, never computed on.
- Persistence.HandleService: the `fmt.Println` logging of each processed service, and of `Run` starting, is left out, being output only.
- Persistence: `NewApp`, `newGeoEnricher` and `newGeoIPClient` connect to Kafka, MongoDB and the GeoIP service; their checks are `Validate`, `Kafka.ValidateConsumer` and `GeoIp.NewClient`, modelled on their own. The clean-up order on a failed construction is not modelled.
- Persistence.Run: the loop is modelled over a finite sequence of fetch events; an endless stream with no error is the `Waiting` outcome.
- Kafka: the tuning settings of the writer and reader (batch size, async writes, fetch sizes, commit interval) do not affect any modelled result and are left out.
- HostStore.EnsureHost, HostStore.UpdateHost, HostStore.UpsertService: a driver error on a write is not modelled; each models the write that succeeds.
- HostStore: `_id` values are modelled as strings under one total order, standing for ObjectIds. A new document's `_id` is a fresh parameter, because the driver generates it, and the document takes its place in `_id` order.
- HostStore.Facets: the branch for an aggregation that returns no document is covered by `FacetsOfNothing`, since the `$facet` stage always returns one.
- The MongoDB client set-up (`Client`, `Config`, `Connect`, `NewRepository`, `NewHostsRepository`, index creation) in `mongodb.go` and `client.go` is connection plumbing and is left out.
- Handlers: the JSON rendering of response bodies (`render.JSON`) is left out; bodies are modelled as values.
- ApiClient.SearchParams: the percent-encoding of `URLSearchParams.toString()` is the `UrlParams.Codec` parameter, bound by `CodecLaws`; a `limit` that is not an integer is not modelled.
- SearchQuery.SearchParams: pushes the parameters as pairs; their percent-encoding is the same `UrlParams.Codec` parameter.
- FacetFilters.ApplyFilters: the same holds for the query string it pushes.
- ApiClient.Lookup: a key that names a property of `Object.prototype` (such as "constructor") is looked up only among the response's own members.
- ServiceRepo.Search: the collection holds each service's metadata as written, and the page returns it so; the decoding `cursor.All` applies on the way out is stated separately by `ServiceRepo.MetadataReadBack`. Read back that way, metadata is unchanged only when it is empty or non-blank valid JSON (see `RawMessage.BinaryCase`). A decode failure is the `DecodeFailed` outcome, not derived from the metadata.
- ApiClient.SearchLimitAtServer: promises nothing for a limit beyond `Number.MAX_SAFE_INTEGER` (2^53 - 1) in magnitude. There the JavaScript spelling of the number (exponent notation from 1e21 on) and Go's `%d` scan into a 64-bit `int` part ways, and the server may answer 400 "Invalid limit parameter".
- FacetFilters.ReadList, FacetFilters.ReadInitial: a parameter given more than once, which Next.js hands over as an array, is read by its first value only.
- HostResults: the scroll to the top, the "total hosts" note and the markup are view concerns and are left out.
- FacetFilters: expanding and collapsing sections and the pending-transition overlay are view state and are left out.
- The filter object that `page.tsx` builds from the selection (`$in` conditions, `parseInt` of ASN labels) is not part of this model beyond reading the selection back and labelling ASN keys.
- The `PortPriority` functions of the plugins are modelled with their port, and the other plugin metadata (`Name`, `Type`, `Priority`) is constant and left out.

## Findings

| source | as written | input that shows it | evidently intended | confidence | as-written member | corrected member |
|---|---|---|---|---|---|---|
| rigour/pkg/scanner/fingerprint/plugins/services/netbios/netbiosns.go:46-48 | 7 is added to the index of the five-NUL run before the guard compares it with -1, so the guard never fires and a reply without the run is read from byte 6 | the 11-byte reply `NulFreeReply`: no five NULs, "GH" at bytes 6-7, then three spaces. It is accepted with the name "GH" | a reply without five NULs in a row is rejected | not executed | Netbios.ExtractName, Netbios.NulFreeReadFromSix, Netbios.NulFreeReplyAccepted, Netbios.Run, Netbios.NulFreeReplyDetected | Netbios.ExtractNameFixed, Netbios.FixedAgrees, Netbios.RunFixed, Netbios.RunFixedAgrees |
| rigour/internal/storage/mongodb/hosts.go:163-168 | the cursor condition is `_id > lastID` with `lastID` a string, but `_id` holds ObjectIds. Under BSON type ordering no ObjectId compares greater than a string, so every page after the first is empty | any collection with more matching hosts than `limit`: the first page hands out a `next_page_token`, and following it returns no hosts and no token | the cursor is converted to an ObjectId, so the next page holds the hosts after the last one returned | not executed | HostStore.SearchAsWritten, HostStore.LaterPagesLost | HostStore.Search, HostStore.SearchPagesPartition |
| rigour/internal/storage/repositories.go:32-33 | the interface says `UpsertService` creates the host if it does not exist, but the update at hosts.go:132-140 has no upsert option, so a service for a missing host is dropped without an error | `UpsertService` on an empty collection: the collection stays empty | the host is created when missing. `handleService` (persistence.go:206) calls `EnsureHost` first, so the pipeline itself is not affected | not executed | HostStore.UpsertService | HostStore.UpsertServiceCreating |

=== FILE: api_client.dfy ===
/** The web client of the query API (`rigour-ui/lib/api.ts`): the query
    strings `searchHosts`, `getFacets` and `getHostByIP` send, the URLs
    they fetch and how a response becomes a value or an error. `fetch`
    itself and `response.json()` are parameters. */
module ApiClient {
  import opened Wrappers
  import opened Text
  import Json
  import UrlParams
  import Handlers
  import Pagination

  const DefaultBaseUrl: string := "http://localhost:8080"

  /** The default of `searchHosts`' `limit` argument. */
  const DefaultLimit: int := 20

  /** `process.env.NEXT_PUBLIC_API_BASE_URL || 'http://localhost:8080'`:
      an unset or empty variable falls back to the local API. */
  function BaseUrl(env: Option<string>): (r: string)
    ensures r != ""
    ensures env.Some? && env.value != "" ==> r == env.value
    ensures env.None? || env.value == "" ==> r == DefaultBaseUrl
  {
    if env.Some? && env.value != "" then env.value else DefaultBaseUrl
  }

  /** A filter object: its members in key order, each value already in its
      JSON text. `None` is `undefined`. */
  type Filter = Option<seq<(string, string)>>

  /** One of the count maps of `FacetCounts`: a JSON object's members in the
      order the response lists them. */
  type Counts = seq<(string, int)>

  /** `FacetCounts`: each map may be missing from the response. */
  datatype FacetRecord = FacetRecord(services: Option<Counts>, countries: Option<Counts>, asns: Option<Counts>)

  /** `record[key]`: the value of the member named `key`; the server sends
      each key once, so which of several equal keys wins never arises. */
  function Lookup(counts: Counts, key: string): (r: Option<int>)
    ensures r.None? <==> forall i :: 0 <= i < |counts| ==> counts[i].0 != key
    ensures r.Some? ==>
      exists i :: 0 <= i < |counts| && counts[i] == (key, r.value) && (forall j :: 0 <= j < i ==> counts[j].0 != key)
  {
    if |counts| == 0 then None
    else if counts[0].0 == key then Some(counts[0].1)
    else
      var r := Lookup(counts[1..], key);
      if r.Some? then
        var i :| 0 < i + 1 <= |counts| - 1 && counts[1..][i] == (key, r.value)
          && forall j :: 0 <= j < i ==> counts[1..][j].0 != key;
        assert counts[i + 1] == (key, r.value);
        r
      else r
  }

  /** `filter && Object.keys(filter).length > 0`: the filter is sent only
      when it has a member. */
  predicate Sends(filter: Filter) {
    filter.Some? && |filter.value| > 0
  }

  /** The filter's part of the query string. */
  function FilterParams(filter: Filter): (r: UrlParams.Params)
    ensures Sends(filter) ==> r == [("filter", Json.StringifyObject(filter.value))]
    ensures !Sends(filter) ==> r == []
  {
    if Sends(filter) then [("filter", Json.StringifyObject(filter.value))] else []
  }

  /** The order `searchHosts` appends its parameters in. */
  function Rank(name: string): int {
    if name == "filter" then 0 else if name == "limit" then 1 else 2
  }

  /** `if (value) params.append(name, value)`: a parameter that is sent
      only when its value is not empty. */
  function Part(name: string, value: string): (r: UrlParams.Params)
    ensures |r| <= 1 && Named(r, name) && Filled(r)
    ensures UrlParams.Get(r, name) == value
  {
    if value != "" then [(name, value)] else []
  }

  /** All pairs of `p` carry the name `name`. */
  ghost predicate Named(p: UrlParams.Params, name: string) {
    forall i :: 0 <= i < |p| ==> p[i].0 == name
  }

  /** No pair of `p` has an empty value. */
  ghost predicate Filled(p: UrlParams.Params) {
    forall i :: 0 <= i < |p| ==> p[i].1 != ""
  }

  /** The query string of `searchHosts(filter, limit, pageToken)`. `limit`
      is `None` when the argument is left out, and then it is 20; a limit
      of 0 is falsy and is not sent; an absent or empty page token is not
      sent. */
  function SearchParams(filter: Filter, limit: Option<int>, pageToken: Option<string>): (r: UrlParams.Params)
    ensures UrlParams.Get(r, "filter") == if Sends(filter) then Json.StringifyObject(filter.value) else ""
    ensures UrlParams.Get(r, "limit") == if limit.GetOr(DefaultLimit) != 0 then IntToString(limit.GetOr(DefaultLimit)) else ""
    ensures UrlParams.Get(r, "page_token") == pageToken.GetOr("")
    ensures forall i :: 0 <= i < |r| ==> r[i].0 in ["filter", "limit", "page_token"] && r[i].1 != ""
    ensures forall i, j :: 0 <= i < j < |r| ==> Rank(r[i].0) < Rank(r[j].0)
  {
    var l := limit.GetOr(DefaultLimit);
    var f := FilterParams(filter);
    var withLimit := Part("limit", if l != 0 then IntToString(l) else "");
    var withToken := Part("page_token", pageToken.GetOr(""));
    assert f == Part("filter", if Sends(filter) then Json.StringifyObject(filter.value) else "");
    ThreeParts(f, withLimit, withToken);
    ThreeShape(f, withLimit, withToken);
    f + withLimit + withToken
  }

  /** Three groups of at most one pair, under the names `searchHosts` uses
      and in its order: `Get` reads each name from its own group. */
  lemma ThreeParts(f: UrlParams.Params, l: UrlParams.Params, t: UrlParams.Params)
    requires |f| <= 1 && |l| <= 1 && |t| <= 1
    requires Named(f, "filter") && Named(l, "limit") && Named(t, "page_token")
    requires Filled(f) && Filled(l) && Filled(t)
    ensures UrlParams.Get(f + l + t, "filter") == UrlParams.Get(f, "filter")
    ensures UrlParams.Get(f + l + t, "limit") == UrlParams.Get(l, "limit")
    ensures UrlParams.Get(f + l + t, "page_token") == UrlParams.Get(t, "page_token")
  {
    FilterPart(f, l, t);
    LimitPart(f, l, t);
    TokenPart(f, l, t);
  }

  lemma FilterPart(f: UrlParams.Params, l: UrlParams.Params, t: UrlParams.Params)
    requires |f| <= 1 && Named(f, "filter") && Named(l, "limit") && Named(t, "page_token")
    ensures UrlParams.Get(f + l + t, "filter") == UrlParams.Get(f, "filter")
  {
    assert f + l + t == f + (l + t);
    if |f| > 0 {
      UrlParams.GetFirst(f, l + t, "filter");
      UrlParams.GetFirst(f, [], "filter");
      assert f + [] == f;
    } else {
      assert f + (l + t) == l + t;
      UrlParams.GetSkip(l, t, "filter");
    }
  }

  lemma LimitPart(f: UrlParams.Params, l: UrlParams.Params, t: UrlParams.Params)
    requires |l| <= 1 && Named(f, "filter") && Named(l, "limit") && Named(t, "page_token")
    ensures UrlParams.Get(f + l + t, "limit") == UrlParams.Get(l, "limit")
  {
    assert f + l + t == f + (l + t);
    UrlParams.GetSkip(f, l + t, "limit");
    if |l| > 0 {
      UrlParams.GetFirst(l, t, "limit");
      UrlParams.GetFirst(l, [], "limit");
      assert l + [] == l;
    } else {
      assert l + t == t;
    }
  }

  lemma TokenPart(f: UrlParams.Params, l: UrlParams.Params, t: UrlParams.Params)
    requires Named(f, "filter") && Named(l, "limit")
    ensures UrlParams.Get(f + l + t, "page_token") == UrlParams.Get(t, "page_token")
  {
    UrlParams.GetSkip(f + l, t, "page_token");
  }

  /** The same three groups side by side hold only the three names, never
      with an empty value, and in that order. */
  lemma ThreeShape(f: UrlParams.Params, l: UrlParams.Params, t: UrlParams.Params)
    requires |f| <= 1 && |l| <= 1 && |t| <= 1
    requires Named(f, "filter") && Named(l, "limit") && Named(t, "page_token")
    requires Filled(f) && Filled(l) && Filled(t)
    ensures var r := f + l + t;
      && (forall i :: 0 <= i < |r| ==> r[i].0 in ["filter", "limit", "page_token"] && r[i].1 != "")
      && (forall i, j :: 0 <= i < j < |r| ==> Rank(r[i].0) < Rank(r[j].0))
  {
    var r := f + l + t;
    forall i | 0 <= i < |r|
      ensures r[i].1 != ""
      ensures Rank(r[i].0) == if i < |f| then 0 else if i < |f| + |l| then 1 else 2
      ensures r[i].0 in ["filter", "limit", "page_token"]
    {
      if i < |f| {
        assert r[i] == f[i];
      } else if i < |f| + |l| {
        assert r[i] == l[i - |f|];
      } else {
        assert r[i] == t[i - |f| - |l|];
      }
    }
  }

  /** The query string of `getFacets(filter)`. */
  function FacetsParams(filter: Filter): (r: UrlParams.Params)
    ensures UrlParams.Get(r, "filter") == if Sends(filter) then Json.StringifyObject(filter.value) else ""
    ensures |r| <= 1
  {
    FilterParams(filter)
  }

  function SearchUrl(base: string, query: string): string {
    base + "/api/hosts/search?" + query
  }

  function FacetsUrl(base: string, query: string): string {
    base + "/api/facets?" + query
  }

  function HostUrl(base: string, ip: string): string {
    base + "/api/hosts/" + ip
  }

  /** Why a call throws: a response outside 200-299, or a body that is not
      JSON. */
  datatype Failure = ApiError(message: string) | InvalidJson

  /** `response.ok`. */
  predicate IsOk(status: int) {
    200 <= status <= 299
  }

  /** The end of every call: `throw new Error(`API error: ${status}`)` unless
      the response is ok, and `response.json()` otherwise. */
  function Receive<T>(status: int, body: string, parseJson: string -> Option<T>): (r: Result<T, Failure>)
    ensures r.Err? && r.error.ApiError? <==> !IsOk(status)
    ensures !IsOk(status) ==> r.error.message == "API error: " + IntToString(status)
    ensures r.Ok? <==> IsOk(status) && parseJson(body).Some?
    ensures r.Ok? ==> r.value == parseJson(body).value
  {
    if !IsOk(status) then Err(ApiError("API error: " + IntToString(status)))
    else
      match parseJson(body)
      case None => Err(InvalidJson)
      case Some(v) => Ok(v)
  }

  /** Different statuses give different error messages. */
  lemma ErrorNamesStatus(a: int, b: int)
    requires "API error: " + IntToString(a) == "API error: " + IntToString(b)
    ensures a == b
  {
    var sa, sb := IntToString(a), IntToString(b);
    assert sa == ("API error: " + sa)[11..];
    assert sb == ("API error: " + sb)[11..];
    if a < 0 && b < 0 {
      assert NatToString(-a) == sa[1..] && NatToString(-b) == sb[1..];
      NatToStringInjective(-a, -b);
    } else if a >= 0 && b >= 0 {
      NatToStringInjective(a, b);
    }
  }

  /** `Number.MAX_SAFE_INTEGER`: up to it `limit.toString()` spells the
      integer in plain decimal, and it lies well inside Go's `int`. */
  const MaxSafeInteger: int := 0x1F_FFFF_FFFF_FFFF

  predicate SafeInteger(n: int) {
    -MaxSafeInteger <= n <= MaxSafeInteger
  }

  /** What `fmt.Sscanf("%d")` into an `int` promises about the text
      `limit.toString()` produces for a safe integer. Beyond that range the
      client's spelling (exponent notation from 1e21 on) and Go's 64-bit
      range part ways, and nothing is assumed. */
  ghost predicate ScanLaws<F>(libs: Handlers.Libs<F>) {
    forall n :: SafeInteger(n) ==> libs.scanInt(IntToString(n)) == Some(n)
  }

  /** The parameters the Go handlers read from a request whose query string
      is `p`. */
  function ServerQuery(p: UrlParams.Params): (q: Handlers.Query)
    ensures q.filter == UrlParams.Get(p, "filter")
    ensures q.limit == UrlParams.Get(p, "limit")
    ensures q.pageToken == UrlParams.Get(p, "page_token")
  {
    Handlers.Query(UrlParams.Get(p, "filter"), UrlParams.Get(p, "limit"), UrlParams.Get(p, "page_token"))
  }

  /** The request `searchHosts` sends, as the handler reads it. */
  function Received(filter: Filter, limit: Option<int>, pageToken: Option<string>, codec: UrlParams.Codec): Handlers.Query {
    ServerQuery(codec.parse(codec.serialize(SearchParams(filter, limit, pageToken))))
  }

  /** The handler sees exactly the filter text, the limit and the token the
      client sent. */
  lemma SearchRequestArrives(filter: Filter, limit: Option<int>, pageToken: Option<string>, codec: UrlParams.Codec)
    requires UrlParams.CodecLaws(codec)
    ensures var q := Received(filter, limit, pageToken, codec);
      && q.filter == (if Sends(filter) then Json.StringifyObject(filter.value) else "")
      && q.limit == (if limit.GetOr(DefaultLimit) != 0 then IntToString(limit.GetOr(DefaultLimit)) else "")
      && q.pageToken == pageToken.GetOr("")
  {
    var p := SearchParams(filter, limit, pageToken);
    Arrives(p, codec);
  }

  /** What the handler reads from a query string is what was sent. */
  lemma Arrives(p: UrlParams.Params, codec: UrlParams.Codec)
    requires UrlParams.CodecLaws(codec)
    ensures ServerQuery(codec.parse(codec.serialize(p)))
         == Handlers.Query(UrlParams.Get(p, "filter"), UrlParams.Get(p, "limit"), UrlParams.Get(p, "page_token"))
  {
    var q := codec.parse(codec.serialize(p));
    assert UrlParams.Get(q, "filter") == UrlParams.Get(p, "filter");
    assert UrlParams.Get(q, "limit") == UrlParams.Get(p, "limit");
    assert UrlParams.Get(q, "page_token") == UrlParams.Get(p, "page_token");
  }

  /** The page size the server uses for a `searchHosts` call: the client's
      limit, clamped, except that a limit of 0 is never sent and the server
      falls back to its own default of 50. A safe integer limit never
      provokes "Invalid limit parameter". */
  lemma SearchLimitAtServer<F>(filter: Filter, limit: Option<int>, pageToken: Option<string>,
                               codec: UrlParams.Codec, libs: Handlers.Libs<F>)
    requires UrlParams.CodecLaws(codec) && ScanLaws(libs)
    ensures var q := Received(filter, limit, pageToken, codec);
      var l := limit.GetOr(DefaultLimit);
      SafeInteger(l) ==>
      && (q.limit != "" ==> libs.scanInt(q.limit).Some?)
      && (Handlers.SearchArgsOf(q, libs).Ok? ==>
            Handlers.SearchArgsOf(q, libs).value.limit
              == if l == 0 then Pagination.DefaultPageSize else Pagination.ValidatePageSize(l))
  {
    SearchRequestArrives(filter, limit, pageToken, codec);
  }

  /** Left out, `limit` is 20 at the server too; all it takes of the
      scanner is that it reads "20". */
  lemma DefaultLimitAtServer<F>(filter: Filter, pageToken: Option<string>,
                                codec: UrlParams.Codec, libs: Handlers.Libs<F>)
    requires UrlParams.CodecLaws(codec) && libs.scanInt("20") == Some(20)
    requires Handlers.SearchArgsOf(Received(filter, None, pageToken, codec), libs).Ok?
    ensures Handlers.SearchArgsOf(Received(filter, None, pageToken, codec), libs).value.limit == 20
  {
    SearchRequestArrives(filter, None, pageToken, codec);
    DefaultLimitSpelled();
    LimitTwenty(Received(filter, None, pageToken, codec), libs);
  }

  lemma DefaultLimitSpelled()
    ensures IntToString(DefaultLimit) == "20"
  {
    assert NatToString(2) == "2";
  }

  lemma LimitTwenty<F>(q: Handlers.Query, libs: Handlers.Libs<F>)
    requires q.limit == "20" && libs.scanInt("20") == Some(20)
    requires Handlers.SearchArgsOf(q, libs).Ok?
    ensures Handlers.SearchArgsOf(q, libs).value.limit == 20
  {
  }

  /** A host the repository cannot find reaches the caller of `getHostByIP`
      as "API error: 404". */
  lemma MissingHostIsApiError<H, T>(ip: string, getByIP: string -> Result<H, string>,
                                    body: string, parseJson: string -> Option<T>)
    requires ip != "" && getByIP(ip).Err?
    ensures Receive(Handlers.GetHostHandler(ip, getByIP).status, body, parseJson)
         == Err(ApiError("API error: " + IntToString(404)))
  {
  }

  /** Every status the handlers answer with other than 200 is an error for
      the client, and 200 is not. */
  lemma HandlerStatusesSurface(status: int)
    requires status in {Handlers.StatusOK, Handlers.StatusBadRequest, Handlers.StatusNotFound,
                        Handlers.StatusInternalServerError}
    ensures IsOk(status) <==> status == Handlers.StatusOK
  {
  }
}

=== FILE: base64.dfy ===
/** Standard padded base64 (section 4 of RFC 4648), the encoding of the
    pagination token: `base64.StdEncoding.EncodeToString`, and
    `base64.StdEncoding.DecodeString`, which skips line breaks and decodes
    the rest as padded base64. */
module Base64 {
  import opened Wrappers
  import opened Bytes
  import Seqs

  type sextet = x: int | 0 <= x < 64

  /** The base64 alphabet: A-Z, a-z, 0-9, '+', '/'. */
  function CharOf(i: sextet): char {
    if i < 26 then ('A' as int + i) as char
    else if i < 52 then ('a' as int + i - 26) as char
    else if i < 62 then ('0' as int + i - 52) as char
    else if i == 62 then '+'
    else '/'
  }

  /** The inverse of `CharOf`; `None` for a character outside the alphabet. */
  function IndexOf(c: char): (r: Option<sextet>)
    ensures r.Some? ==> CharOf(r.value) == c
  {
    if 'A' <= c <= 'Z' then Some(c as int - 'A' as int)
    else if 'a' <= c <= 'z' then Some(c as int - 'a' as int + 26)
    else if '0' <= c <= '9' then Some(c as int - '0' as int + 52)
    else if c == '+' then Some(62)
    else if c == '/' then Some(63)
    else None
  }

  lemma IndexOfChar(i: sextet)
    ensures IndexOf(CharOf(i)) == Some(i)
  {
  }

  /** The four sextets of a 24-bit group, most significant first. */
  function Sextets(n: nat): (r: seq<sextet>)
    requires n < 0x100_0000
    ensures |r| == 4
  {
    [n / 0x4_0000, (n / 0x1000) % 64, (n / 64) % 64, n % 64]
  }

  function Group(b0: byte, b1: byte, b2: byte): (n: nat)
    ensures n < 0x100_0000
  {
    b0 * 0x1_0000 + b1 * 0x100 + b2
  }

  function Chars(s: seq<sextet>): (r: string)
    ensures |r| == |s|
    ensures forall i :: 0 <= i < |s| ==> r[i] == CharOf(s[i])
  {
    if |s| == 0 then [] else [CharOf(s[0])] + Chars(s[1..])
  }

  /** `base64.StdEncoding.EncodeToString`: every three bytes become four
      characters; a final one or two bytes become two or three characters
      padded with '=' to four. */
  function Encode(b: seq<byte>): (r: string)
    ensures |r| == 4 * ((|b| + 2) / 3)
    decreases |b|
  {
    if |b| == 0 then ""
    else if |b| == 1 then Chars(Sextets(Group(b[0], 0, 0))[..2]) + "=="
    else if |b| == 2 then Chars(Sextets(Group(b[0], b[1], 0))[..3]) + "="
    else Chars(Sextets(Group(b[0], b[1], b[2]))) + Encode(b[3..])
  }

  /** The value of four sextets, most significant first. */
  function Combine(s0: sextet, s1: sextet, s2: sextet, s3: sextet): (n: nat)
    ensures n < 0x100_0000
  {
    s0 * 0x4_0000 + s1 * 0x1000 + s2 * 64 + s3
  }

  function GroupBytes(n: nat): (r: seq<byte>)
    requires n < 0x100_0000
    ensures |r| == 3
  {
    [n / 0x1_0000, (n / 0x100) % 0x100, n % 0x100]
  }

  function Idx(c: char): Option<sextet> {
    if c == '=' then None else IndexOf(c)
  }

  /** Decodes one block of four characters; `last` says whether padding may
      appear. Bits left over by a padded block are ignored. */
  function DecodeBlock(q: string, last: bool): (r: Option<seq<byte>>)
    requires |q| == 4
    ensures r.Some? ==> 1 <= |r.value| <= 3 && (!last ==> |r.value| == 3)
  {
    match (Idx(q[0]), Idx(q[1]))
    case (Some(s0), Some(s1)) =>
      if last && q[2] == '=' && q[3] == '=' then Some(GroupBytes(Combine(s0, s1, 0, 0))[..1])
      else (
        match Idx(q[2])
        case None => None
        case Some(s2) =>
          if last && q[3] == '=' then Some(GroupBytes(Combine(s0, s1, s2, 0))[..2])
          else (
            match Idx(q[3])
            case None => None
            case Some(s3) => Some(GroupBytes(Combine(s0, s1, s2, s3)))))
    case _ => None
  }

  /** Decoding of canonical padded base64; `None` for a length that is not a
      multiple of four, a character outside the alphabet, or misplaced
      padding. */
  function Decode(s: string): (r: Option<seq<byte>>)
    decreases |s|
  {
    if |s| == 0 then Some([])
    else if |s| < 4 then None
    else
      match DecodeBlock(s[..4], |s| == 4)
      case None => None
      case Some(head) =>
        match Decode(s[4..])
        case None => None
        case Some(tail) => Some(head + tail)
  }

  lemma GroupRoundTrip(b0: byte, b1: byte, b2: byte)
    ensures var s := Sextets(Group(b0, b1, b2));
      GroupBytes(Combine(s[0], s[1], s[2], s[3])) == [b0, b1, b2]
  {
    var n := Group(b0, b1, b2);
    var s := Sextets(n);
    assert Combine(s[0], s[1], s[2], s[3]) == n by {
      SplitSextets(n);
    }
    SplitBytes(b0, b1, b2);
  }

  lemma SplitSextets(n: nat)
    requires n < 0x100_0000
    ensures (n / 0x4_0000) * 0x4_0000 + ((n / 0x1000) % 64) * 0x1000 + ((n / 64) % 64) * 64 + n % 64 == n
  {
    var a, b, c, d := n / 0x4_0000, (n / 0x1000) % 64, (n / 64) % 64, n % 64;
    assert n / 0x1000 == a * 64 + b;
    assert n / 64 == (n / 0x1000) * 64 + c;
    assert n == (n / 64) * 64 + d;
  }

  lemma SplitBytes(b0: byte, b1: byte, b2: byte)
    ensures var n := Group(b0, b1, b2);
      n / 0x1_0000 == b0 && (n / 0x100) % 0x100 == b1 && n % 0x100 == b2
  {
    var n := Group(b0, b1, b2);
    assert n == (b0 * 0x100 + b1) * 0x100 + b2;
    assert n / 0x100 == b0 * 0x100 + b1;
  }

  lemma DecodeFullBlock(b0: byte, b1: byte, b2: byte, last: bool)
    ensures DecodeBlock(Chars(Sextets(Group(b0, b1, b2))), last) == Some([b0, b1, b2])
  {
    var s := Sextets(Group(b0, b1, b2));
    GroupRoundTrip(b0, b1, b2);
    IndexOfChars(s);
  }

  lemma PaddedSextets(b0: byte, b1: byte)
    ensures Sextets(Group(b0, b1, 0))[3] == 0
    ensures b1 == 0 ==> Sextets(Group(b0, b1, 0))[2] == 0
  {
    var k := b0 * 1024 + b1 * 4;
    assert Group(b0, b1, 0) == 64 * k;
    assert (64 * k) / 64 == k;
    if b1 == 0 {
      assert k == 64 * (b0 * 16);
    }
  }

  lemma DecodePaddedTwo(s0: sextet, s1: sextet)
    ensures DecodeBlock(Chars([s0, s1]) + "==", true) == Some(GroupBytes(Combine(s0, s1, 0, 0))[..1])
  {
    var q := Chars([s0, s1]) + "==";
    IndexOfChars([s0, s1]);
    assert Idx(q[0]) == Some(s0) && Idx(q[1]) == Some(s1);
  }

  lemma DecodePaddedThree(s0: sextet, s1: sextet, s2: sextet)
    ensures DecodeBlock(Chars([s0, s1, s2]) + "=", true) == Some(GroupBytes(Combine(s0, s1, s2, 0))[..2])
  {
    var q := Chars([s0, s1, s2]) + "=";
    IndexOfChars([s0, s1, s2]);
    assert Idx(q[0]) == Some(s0) && Idx(q[1]) == Some(s1) && Idx(q[2]) == Some(s2);
    assert q[2] != '=';
  }

  lemma DecodeOneByteBlock(b0: byte)
    ensures DecodeBlock(Chars(Sextets(Group(b0, 0, 0))[..2]) + "==", true) == Some([b0])
  {
    var s := Sextets(Group(b0, 0, 0));
    assert s[2] == 0 && s[3] == 0 by { PaddedSextets(b0, 0); }
    var g := GroupBytes(Combine(s[0], s[1], 0, 0));
    assert g == [b0, 0, 0] by { GroupRoundTrip(b0, 0, 0); }
    assert s[..2] == [s[0], s[1]];
    DecodePaddedTwo(s[0], s[1]);
    assert g[..1] == [b0];
  }

  lemma DecodeTwoByteBlock(b0: byte, b1: byte)
    ensures DecodeBlock(Chars(Sextets(Group(b0, b1, 0))[..3]) + "=", true) == Some([b0, b1])
  {
    var s := Sextets(Group(b0, b1, 0));
    assert s[3] == 0 by { PaddedSextets(b0, b1); }
    var g := GroupBytes(Combine(s[0], s[1], s[2], 0));
    assert g == [b0, b1, 0] by { GroupRoundTrip(b0, b1, 0); }
    assert s[..3] == [s[0], s[1], s[2]];
    DecodePaddedThree(s[0], s[1], s[2]);
    assert g[..2] == [b0, b1];
  }

  lemma DecodeAppend(q: string, rest: string, head: seq<byte>, tail: seq<byte>)
    requires |q| == 4
    requires DecodeBlock(q, |rest| == 0) == Some(head)
    requires Decode(rest) == Some(tail)
    ensures Decode(q + rest) == Some(head + tail)
  {
    var s := q + rest;
    assert s[..4] == q && s[4..] == rest;
  }

  lemma RoundTripOne(b: seq<byte>)
    requires |b| == 1
    ensures Decode(Encode(b)) == Some(b)
  {
    var q := Chars(Sextets(Group(b[0], 0, 0))[..2]) + "==";
    assert Encode(b) == q;
    DecodeOneByteBlock(b[0]);
    DecodeLast(q, [b[0]]);
    assert b == [b[0]];
  }

  lemma RoundTripTwo(b: seq<byte>)
    requires |b| == 2
    ensures Decode(Encode(b)) == Some(b)
  {
    var q := Chars(Sextets(Group(b[0], b[1], 0))[..3]) + "=";
    assert Encode(b) == q;
    DecodeTwoByteBlock(b[0], b[1]);
    DecodeLast(q, [b[0], b[1]]);
    assert b == [b[0], b[1]];
  }

  /** A string of one block decodes as its last block. */
  lemma DecodeLast(q: string, head: seq<byte>)
    requires |q| == 4 && DecodeBlock(q, true) == Some(head)
    ensures Decode(q) == Some(head)
  {
    assert q[..4] == q;
    assert Decode(q[4..]) == Some([]);
    assert head + [] == head;
  }

  /** Decoding what `Encode` produced gives the bytes back. */
  lemma {:induction false} RoundTrip(b: seq<byte>)
    ensures Decode(Encode(b)) == Some(b)
    decreases |b|
  {
    if |b| == 0 {
    } else if |b| == 1 {
      RoundTripOne(b);
    } else if |b| == 2 {
      RoundTripTwo(b);
    } else {
      RoundTrip(b[3..]);
      RoundTripBlock(b);
    }
  }

  /** A full leading block decodes back, given that the rest does. */
  lemma RoundTripBlock(b: seq<byte>)
    requires |b| >= 3 && Decode(Encode(b[3..])) == Some(b[3..])
    ensures Decode(Encode(b)) == Some(b)
  {
    var q := Chars(Sextets(Group(b[0], b[1], b[2])));
    var rest := Encode(b[3..]);
    assert Encode(b) == q + rest;
    DecodeFullBlock(b[0], b[1], b[2], |rest| == 0);
    DecodeAppend(q, rest, [b[0], b[1], b[2]], b[3..]);
    SplitThree(b);
  }

  lemma SplitThree(b: seq<byte>)
    requires |b| >= 3
    ensures [b[0], b[1], b[2]] + b[3..] == b
  {
    assert b[..3] == [b[0], b[1], b[2]];
    assert b[..3] + b[3..] == b;
  }

  lemma IndexOfChars(s: seq<sextet>)
    ensures forall i :: 0 <= i < |s| ==> Idx(Chars(s)[i]) == Some(s[i])
  {
    forall i | 0 <= i < |s| ensures Idx(Chars(s)[i]) == Some(s[i]) {
      IndexOfChar(s[i]);
    }
  }

  /** A string whose length is not a multiple of four is never accepted. */
  lemma {:induction false} DecodeRejectsLength(s: string)
    requires |s| % 4 != 0
    ensures Decode(s) == None
    decreases |s|
  {
    if |s| >= 4 {
      assert |s[4..]| % 4 != 0;
      DecodeRejectsLength(s[4..]);
    }
  }

  /** A character outside the alphabet in a block that is not the last
      one is rejected, whatever the rest of the string holds. */
  lemma DecodeRejectsForeign(s: string, i: nat)
    requires |s| > 4 && i < 4 && Idx(s[i]).None?
    ensures Decode(s) == None
  {
    assert s[..4][i] == s[i];
  }

  /** The characters Go's decoder skips wherever they occur. */
  predicate IsNewline(c: char) {
    c == '\r' || c == '\n'
  }

  predicate NotNewline(c: char) {
    !IsNewline(c)
  }

  /** The input with every carriage return and line feed removed. */
  function StripNewlines(s: string): (r: string)
    ensures |r| <= |s|
    ensures forall i :: 0 <= i < |r| ==> !IsNewline(r[i])
    ensures forall i :: 0 <= i < |s| && !IsNewline(s[i]) ==> s[i] in r
  {
    Seqs.Filter(s, NotNewline)
  }

  /** A string without line breaks is left as it is. */
  lemma StripClean(s: string)
    ensures (forall i :: 0 <= i < |s| ==> !IsNewline(s[i])) ==> StripNewlines(s) == s
  {
    if forall i :: 0 <= i < |s| ==> !IsNewline(s[i]) {
      Seqs.FilterAll(s, NotNewline);
    }
  }

  /** `base64.StdEncoding.DecodeString`: line breaks are ignored, and what
      remains must be padded base64; on a string without line breaks it is
      `Decode`. */
  function DecodeString(s: string): (r: Option<seq<byte>>)
    ensures (forall i :: 0 <= i < |s| ==> !IsNewline(s[i])) ==> r == Decode(s)
  {
    StripClean(s);
    Decode(StripNewlines(s))
  }

  /** A line break inserted anywhere does not change the result. */
  lemma DecodeSkipsNewline(a: string, c: char, b: string)
    requires IsNewline(c)
    ensures DecodeString(a + [c] + b) == DecodeString(a + b)
  {
    StripSkipsNewline(a, c, b);
  }

  lemma StripSkipsNewline(a: string, c: char, b: string)
    requires IsNewline(c)
    ensures StripNewlines(a + [c] + b) == StripNewlines(a + b)
  {
    var f := Seqs.Filter(a, NotNewline);
    var g := Seqs.Filter(b, NotNewline);
    Seqs.FilterAppend(a + [c], b, NotNewline);
    Seqs.FilterAppend(a, [c], NotNewline);
    Seqs.FilterAppend(a, b, NotNewline);
    assert Seqs.Filter([c], NotNewline) == [] by {
      assert [c][1..] == [];
    }
    assert f + [] == f;
  }

  /** Once the line breaks are gone, a length that is not a multiple of
      four is rejected. */
  lemma DecodeStringRejectsLength(s: string)
    requires |StripNewlines(s)| % 4 != 0
    ensures DecodeString(s) == None
  {
    DecodeRejectsLength(StripNewlines(s));
  }

  /** The encoder's output never holds a line break. */
  lemma {:induction false} EncodeHasNoNewline(b: seq<byte>)
    ensures forall i :: 0 <= i < |Encode(b)| ==> !IsNewline(Encode(b)[i])
    decreases |b|
  {
    if |b| >= 3 {
      EncodeHasNoNewline(b[3..]);
      var q := Chars(Sextets(Group(b[0], b[1], b[2])));
      assert Encode(b) == q + Encode(b[3..]);
    }
  }

  /** `DecodeString` undoes `Encode`. */
  lemma DecodeStringRoundTrip(b: seq<byte>)
    ensures DecodeString(Encode(b)) == Some(b)
  {
    EncodeHasNoNewline(b);
    RoundTrip(b);
  }

  /** The RFC 4648 test vector "f". */
  lemma VectorF()
    ensures Encode([0x66]) == "Zg=="
  {
    assert Sextets(Group(0x66, 0, 0)) == [25, 32, 0, 0];
  }

  /** The RFC 4648 test vector "foob". */
  lemma VectorFoob()
    ensures Encode([0x66, 0x6f, 0x6f, 0x62]) == "Zm9vYg=="
  {
    var b: seq<byte> := [0x66, 0x6f, 0x6f, 0x62];
    FooBlock();
    TrailingB();
    assert b[3..] == [0x62];
    assert Encode(b) == Chars(Sextets(Group(0x66, 0x6f, 0x6f))) + Encode([0x62]);
  }

  /** "foo" is one full block, "Zm9v". */
  lemma FooBlock()
    ensures Chars(Sextets(Group(0x66, 0x6f, 0x6f))) == "Zm9v"
  {
    assert Sextets(Group(0x66, 0x6f, 0x6f)) == [25, 38, 61, 47];
  }

  /** A final "b" is padded to "Yg==". */
  lemma TrailingB()
    ensures Encode([0x62]) == "Yg=="
  {
    assert Sextets(Group(0x62, 0, 0)) == [24, 32, 0, 0];
  }
}

=== FILE: bytes.dfy ===
/** Byte sequences and the substring search the fingerprint plugins use
    (`strings.Index`, `bytes.Contains` over raw responses). */
module Bytes {

  type byte = x: int | 0 <= x < 256

  /** `needle` occurs in `hay` starting at index `i`. */
  predicate OccursAt<T(==)>(hay: seq<T>, needle: seq<T>, i: nat) {
    i + |needle| <= |hay| && hay[i..i + |needle|] == needle
  }

  /** `bytes.Contains` / `strings.Contains`. */
  predicate Contains<T(==)>(hay: seq<T>, needle: seq<T>) {
    exists i: nat | i <= |hay| :: OccursAt(hay, needle, i)
  }

  /** First occurrence of `needle` at an index `>= i`, or -1. */
  function IndexFrom<T(==)>(hay: seq<T>, needle: seq<T>, i: nat): (r: int)
    ensures r == -1 || (i <= r && OccursAt(hay, needle, r))
    ensures r == -1 ==> forall j: nat :: i <= j ==> !OccursAt(hay, needle, j)
    ensures r != -1 ==> forall j: nat :: i <= j < r ==> !OccursAt(hay, needle, j)
    decreases |hay| - i
  {
    if i + |needle| > |hay| then -1
    else if hay[i..i + |needle|] == needle then i
    else IndexFrom(hay, needle, i + 1)
  }

  /** `strings.Index`: the first index at which `needle` occurs, or -1. */
  function IndexOf<T(==)>(hay: seq<T>, needle: seq<T>): (r: int)
    ensures r == -1 || 0 <= r <= |hay| - |needle|
    ensures r >= 0 ==> OccursAt(hay, needle, r)
    ensures r >= 0 ==> forall j: nat :: j < r ==> !OccursAt(hay, needle, j)
    ensures r == -1 <==> !Contains(hay, needle)
  {
    IndexFrom(hay, needle, 0)
  }
}

=== FILE: enricher.dfy ===
/** Host enrichment (`rigour/pkg/persistence/enricher.go`): the IPv4
    address packed into an integer, and the GeoIP answer copied into the
    host's location, ASN and labels. `net.ParseIP` is a parameter; the
    GeoIP lookup's answer is an input. */
module Enricher {
  import opened Wrappers
  import opened Bytes
  import opened Hosts
  import GeoIp

  const TwoTo32: int := 0x1_0000_0000

  /** The 12-byte prefix of an IPv4 address held in IPv6 form. */
  const V4InV6Prefix: seq<byte> := [0, 0, 0, 0, 0, 0, 0, 0, 0, 0, 0xff, 0xff]

  /** `net.IP.To4`: a 4-byte address as it is, the last four bytes of an
      IPv4-mapped 16-byte address, otherwise nil. */
  function To4(ip: seq<byte>): (r: Option<seq<byte>>)
    ensures r.Some? ==> |ip| >= 4 && |r.value| == 4 && r.value == ip[|ip| - 4..]
    ensures |ip| != 4 && |ip| != 16 ==> r.None?
  {
    if |ip| == 4 then Some(ip)
    else if |ip| == 16 && ip[..12] == V4InV6Prefix then Some(ip[12..])
    else None
  }

  /** Both forms `net.ParseIP` may hold an IPv4 address in give back its
      four bytes. */
  lemma To4OfIpv4(q: seq<byte>)
    requires |q| == 4
    ensures To4(q) == Some(q)
    ensures To4(V4InV6Prefix + q) == Some(q)
  {
    assert (V4InV6Prefix + q)[..12] == V4InV6Prefix;
    assert (V4InV6Prefix + q)[12..] == q;
  }

  /** A true IPv6 address (not IPv4-mapped) has no 4-byte form. */
  lemma To4RejectsIpv6(ip: seq<byte>)
    requires |ip| == 16 && ip[0] != 0
    ensures To4(ip).None?
  {
    assert ip[..12][0] == ip[0];
  }

  /** `uint64(b0)<<24 | uint64(b1)<<16 | uint64(b2)<<8 | uint64(b3)`: the
      shifted bytes occupy disjoint bits of the 64-bit word, so the OR is
      their sum, the four bytes read as a big-endian number. */
  function Pack(q: seq<byte>): (r: nat)
    requires |q| == 4
  {
    var b0, b1, b2, b3 := q[0] as int, q[1] as int, q[2] as int, q[3] as int;
    b0 * 0x100_0000 + b1 * 0x1_0000 + b2 * 0x100 + b3
  }

  /** The four bytes of a 32-bit number, most significant first. */
  function Unpack(n: nat): (r: seq<byte>)
    requires n < TwoTo32
    ensures |r| == 4
  {
    [n / 0x100_0000, (n / 0x1_0000) % 0x100, (n / 0x100) % 0x100, n % 0x100]
  }

  /** Packing stays below 2^32 and unpacking undoes it. */
  lemma UnpackPack(q: seq<byte>)
    requires |q| == 4
    ensures Pack(q) < TwoTo32
    ensures Unpack(Pack(q)) == q
  {
    var b0, b1, b2, b3 := q[0] as int, q[1] as int, q[2] as int, q[3] as int;
    var n := Pack(q);
    assert n / 0x100 == b0 * 0x1_0000 + b1 * 0x100 + b2;
    assert n / 0x1_0000 == b0 * 0x100 + b1;
    assert n / 0x100_0000 == b0;
    var u := Unpack(n);
    assert u[0] == q[0] && u[1] == q[1] && u[2] == q[2] && u[3] == q[3];
    assert forall k :: 0 <= k < 4 ==> u[k] == q[k];
  }

  /** Different addresses get different integers. */
  lemma PackInjective(a: seq<byte>, b: seq<byte>)
    requires |a| == 4 && |b| == 4 && Pack(a) == Pack(b)
    ensures a == b
  {
    UnpackPack(a);
    UnpackPack(b);
  }

  /** `IpToIPInt`: `parse` is `net.ParseIP` (`None` for nil). */
  function IpToIPInt(ip: string, parse: string -> Option<seq<byte>>): (r: Result<nat, string>)
    ensures parse(ip).None? ==> r == Err("invalid IP address: " + ip)
    ensures parse(ip).Some? && To4(parse(ip).value).None? ==>
      r == Err("only IPv4 addresses are supported: " + ip)
    ensures r.Ok? ==> r.value < TwoTo32
    ensures r.Ok? <==> parse(ip).Some? && To4(parse(ip).value).Some?
    ensures r.Ok? ==> Unpack(r.value) == To4(parse(ip).value).value
  {
    match parse(ip)
    case None => Err("invalid IP address: " + ip)
    case Some(parsed) =>
      match To4(parsed)
      case None => Err("only IPv4 addresses are supported: " + ip)
      case Some(q) =>
        UnpackPack(q);
        Ok(Pack(q))
  }

  /** Two addresses with the same integer are the same IPv4 address. */
  lemma IpToIPIntInjective(ip1: string, ip2: string, parse: string -> Option<seq<byte>>)
    requires IpToIPInt(ip1, parse).Ok? && IpToIPInt(ip2, parse).Ok?
    requires IpToIPInt(ip1, parse).value == IpToIPInt(ip2, parse).value
    ensures To4(parse(ip1).value) == To4(parse(ip2).value)
  {
  }

  /** The ip/ip_int pairs of the UI's sample hosts. */
  lemma SampleAddresses(parse: string -> Option<seq<byte>>)
    requires parse("74.48.100.154") == Some(V4InV6Prefix + [74, 48, 100, 154])
    requires parse("203.0.113.42") == Some(V4InV6Prefix + [203, 0, 113, 42])
    requires parse("198.51.100.77") == Some(V4InV6Prefix + [198, 51, 100, 77])
    ensures IpToIPInt("74.48.100.154", parse) == Ok(1244685466)
    ensures IpToIPInt("203.0.113.42", parse) == Ok(3405803818)
    ensures IpToIPInt("198.51.100.77", parse) == Ok(3325256781)
  {
    To4OfIpv4([74, 48, 100, 154]);
    To4OfIpv4([203, 0, 113, 42]);
    To4OfIpv4([198, 51, 100, 77]);
  }

  const AnonymousProxy: string := "anonymous_proxy"

  /** Go's `append` to a slice that may be nil. */
  function AppendLabel(labels: Option<seq<string>>, tag: string): (r: Option<seq<string>>)
    ensures r.Some? && |r.value| >= 1 && r.value[|r.value| - 1] == tag
    ensures r.value[..|r.value| - 1] == labels.GetOr([])
  {
    Some(labels.GetOr([]) + [tag])
  }

  /** `EnrichHost`. `geo` is the GeoIP client's answer for `host.ip`. On
      either error the caller gets the error and no host. */
  function EnrichHost<M>(host: Host<M>, geo: Result<GeoIp.Record, string>,
                         parse: string -> Option<seq<byte>>): (r: Result<Host<M>, string>)
    ensures geo.Err? ==> r == Err(geo.error)
    ensures geo.Ok? && IpToIPInt(host.ip, parse).Err? ==> r == Err(IpToIPInt(host.ip, parse).error)
    ensures r.Ok? <==> geo.Ok? && IpToIPInt(host.ip, parse).Ok?
    ensures r.Ok? ==>
      var g := geo.value;
      && r.value.ipInt == IpToIPInt(host.ip, parse).value
      && r.value.location == Some(Location((g.longitude, g.latitude), g.city, g.timezone))
      && r.value.asn == Some(AsnInfo(g.asn % TwoTo32, g.organization, g.country, false))
      && (g.isAnonymousProxy ==> r.value.labels == AppendLabel(host.labels, AnonymousProxy))
      && (!g.isAnonymousProxy ==> r.value.labels == host.labels)
      && r.value.(ipInt := host.ipInt, location := host.location, asn := host.asn, labels := host.labels) == host
  {
    var g :- geo;
    var ipInt :- IpToIPInt(host.ip, parse);
    var located := host.(ipInt := ipInt,
                         location := Some(Location((g.longitude, g.latitude), g.city, g.timezone)),
                         asn := Some(AsnInfo(g.asn % TwoTo32, g.organization, g.country, false)));
    if g.isAnonymousProxy then Ok(located.(labels := AppendLabel(host.labels, AnonymousProxy)))
    else Ok(located)
  }

  /** The proxy tag is present afterwards exactly when it was before or
      the lookup flagged the address; no other tag is added or lost. */
  lemma ProxyLabelIff<M>(host: Host<M>, g: GeoIp.Record, parse: string -> Option<seq<byte>>, tag: string)
    requires EnrichHost(host, Ok(g), parse).Ok?
    ensures var after := EnrichHost(host, Ok(g), parse).value.labels.GetOr([]);
      tag in after <==> tag in host.labels.GetOr([]) || (g.isAnonymousProxy && tag == AnonymousProxy)
  {
    var before := host.labels.GetOr([]);
    if g.isAnonymousProxy {
      var after := EnrichHost(host, Ok(g), parse).value.labels.value;
      assert after == before + [AnonymousProxy];
    }
  }

  /** A negative ASN wraps to its 32-bit two's-complement value, as
      `uint32(int64)` does. */
  lemma AsnWraps()
    ensures -1 % TwoTo32 == 0xffff_ffff
    ensures (TwoTo32 + 15169) % TwoTo32 == 15169
  {
  }
}

=== FILE: facet_filters.dfy ===
/** The facet side panel of the dashboard (`rigour-ui/components/FacetFilters.tsx`):
    the pending selection of countries, ASNs and services, the toggles
    that change it, the "unsaved changes" test, the counts shown next to
    each entry and the query string "Apply" navigates to. The selection as
    the page reads it back from that query string
    (`rigour-ui/app/(dashboard)/page.tsx`) is the partner of the last. */
module FacetFilters {
  import opened Wrappers
  import opened Text
  import opened Seqs
  import Json
  import UrlParams
  import ApiClient
  import opened Hosts
  import HostStore
  import opened Storage

  /** The three lists of checked entries. */
  datatype Selection = Selection(countries: seq<string>, asns: seq<string>, services: seq<string>)

  predicate Distinct(s: seq<string>) {
    forall i, j :: 0 <= i < j < |s| ==> s[i] != s[j]
  }

  /** `x => x !== v`. */
  function Keep(v: string): string -> bool {
    x => x != v
  }

  /** `prev.includes(v) ? prev.filter(x => x !== v) : [...prev, v]`: a
      checked entry is removed, an unchecked one is appended. */
  function Toggle(list: seq<string>, v: string): (r: seq<string>)
    ensures v in r <==> v !in list
    ensures forall x :: x != v ==> (x in r <==> x in list)
    ensures v !in list ==> r == list + [v]
    ensures v in list ==> |r| < |list|
  {
    if v in list then
      var r := Filter(list, Keep(v));
      assert forall x :: x != v && x in list ==> x in r by {
        forall x | x != v && x in list ensures x in r {
          var i :| 0 <= i < |list| && list[i] == x;
          assert Keep(v)(list[i]);
        }
      }
      FilterDropsOne(list, v);
      r
    else list + [v]
  }

  lemma FilterDropsOne(list: seq<string>, v: string)
    requires v in list
    ensures |Filter(list, Keep(v))| < |list|
  {
    var i :| 0 <= i < |list| && list[i] == v;
    var f := Keep(v);
    assert list == list[..i] + [v] + list[i + 1..];
    FilterAppend(list[..i] + [v], list[i + 1..], f);
    FilterAppend(list[..i], [v], f);
    assert Filter([v], f) == [] by {
      assert [v][1..] == [];
    }
  }

  /** Toggling keeps a list free of repeats. */
  lemma ToggleKeepsDistinct(list: seq<string>, v: string)
    requires Distinct(list)
    ensures Distinct(Toggle(list, v))
  {
    if v in list {
      FilterOrdered(list, Keep(v), (a: string, b: string) => a != b);
    }
  }

  /** Checking and unchecking an entry that was not checked gives the list
      back unchanged. */
  lemma ToggleTwiceAbsent(list: seq<string>, v: string)
    requires v !in list
    ensures Toggle(Toggle(list, v), v) == list
  {
    var f := Keep(v);
    FilterAppend(list, [v], f);
    FilterAll(list, f);
    assert Filter([v], f) == [] by {
      assert [v][1..] == [];
    }
    assert list + [] == list;
  }

  /** Unchecking and re-checking the last entry gives the list back. */
  lemma ToggleTwiceLast(prefix: seq<string>, v: string)
    requires v !in prefix
    ensures Toggle(Toggle(prefix + [v], v), v) == prefix + [v]
  {
    var f := Keep(v);
    FilterAppend(prefix, [v], f);
    FilterAll(prefix, f);
    assert Filter([v], f) == [] by {
      assert [v][1..] == [];
    }
    assert prefix + [] == prefix;
  }

  /** Unchecking and re-checking any other entry moves it to the end. */
  lemma ToggleTwiceMoves(list: seq<string>, v: string)
    requires v in list && list[|list| - 1] != v
    ensures var r := Toggle(Toggle(list, v), v);
      && r != list
      && (forall x :: x in r <==> x in list)
      && r[|r| - 1] == v
  {
  }

  /** `JSON.stringify(a) !== JSON.stringify(b)` for each of the three
      lists. */
  predicate HasChanges(temp: Selection, initial: Selection) {
    || Json.StringifyArray(temp.countries) != Json.StringifyArray(initial.countries)
    || Json.StringifyArray(temp.asns) != Json.StringifyArray(initial.asns)
    || Json.StringifyArray(temp.services) != Json.StringifyArray(initial.services)
  }

  /** "Unsaved changes" means exactly that some list differs from the one
      the page was loaded with, order included. */
  lemma HasChangesIff(temp: Selection, initial: Selection)
    ensures HasChanges(temp, initial) <==> temp != initial
  {
    Json.StringifyArrayInjective(temp.countries, initial.countries);
    Json.StringifyArrayInjective(temp.asns, initial.asns);
    Json.StringifyArrayInjective(temp.services, initial.services);
  }

  /** So unchecking and re-checking a country that is not the last one
      leaves the panel showing unsaved changes. */
  lemma ReselectingShowsChange(sel: Selection, v: string)
    requires v in sel.countries && sel.countries[|sel.countries| - 1] != v
    ensures HasChanges(sel.(countries := Toggle(Toggle(sel.countries, v), v)), sel)
  {
    ToggleTwiceMoves(sel.countries, v);
    HasChangesIff(sel.(countries := Toggle(Toggle(sel.countries, v), v)), sel);
  }

  /** One list's part of the query string: present only when non-empty,
      the entries joined with ','. */
  function ListParam(name: string, list: seq<string>): (r: UrlParams.Params)
    ensures |list| == 0 <==> r == []
    ensures |list| > 0 ==> r == [(name, Join(list, ','))]
  {
    if |list| > 0 then [(name, Join(list, ','))] else []
  }

  /** `applyFilters`: the query string `router.push` navigates to. */
  function ApplyFilters(sel: Selection): (r: UrlParams.Params)
    ensures |r| <= 3
    ensures forall i :: 0 <= i < |r| ==> r[i].0 in ["countries", "asns", "services"]
  {
    ListParam("countries", sel.countries) + (ListParam("asns", sel.asns) + ListParam("services", sel.services))
  }

  /** What the query string holds for one list. */
  function Joined(list: seq<string>): string {
    if |list| > 0 then Join(list, ',') else ""
  }

  lemma ListParamGet(name: string, list: seq<string>)
    ensures UrlParams.Get(ListParam(name, list), name) == Joined(list)
  {
  }

  lemma AppliedCountries(sel: Selection)
    ensures UrlParams.Get(ApplyFilters(sel), "countries") == Joined(sel.countries)
  {
    var c, rest := ListParam("countries", sel.countries), ListParam("asns", sel.asns) + ListParam("services", sel.services);
    if |c| > 0 {
      UrlParams.GetFirst(c, rest, "countries");
    } else {
      assert ApplyFilters(sel) == rest;
    }
  }

  lemma AppliedAsns(sel: Selection)
    ensures UrlParams.Get(ApplyFilters(sel), "asns") == Joined(sel.asns)
  {
    var c, a, s := ListParam("countries", sel.countries), ListParam("asns", sel.asns), ListParam("services", sel.services);
    UrlParams.GetSkip(c, a + s, "asns");
    if |a| > 0 {
      UrlParams.GetFirst(a, s, "asns");
    } else {
      assert a + s == s;
    }
  }

  lemma AppliedServices(sel: Selection)
    ensures UrlParams.Get(ApplyFilters(sel), "services") == Joined(sel.services)
  {
    var c, a, s := ListParam("countries", sel.countries), ListParam("asns", sel.asns), ListParam("services", sel.services);
    UrlParams.GetSkip(c, a + s, "services");
    UrlParams.GetSkip(a, s, "services");
    ListParamGet("services", sel.services);
  }

  /** page.tsx: a parameter that is absent or empty is no selection;
      otherwise its value split at ','. */
  function ReadList(p: UrlParams.Params, name: string): (r: seq<string>)
    ensures UrlParams.Get(p, name) == "" ==> r == []
    ensures UrlParams.Get(p, name) != "" ==> |r| >= 1 && Join(r, ',') == UrlParams.Get(p, name)
  {
    var v := UrlParams.Get(p, name);
    if v == "" then [] else Split(v, ',')
  }

  /** Whether the query string names `name` at all. */
  predicate Has(p: UrlParams.Params, name: string) {
    exists i :: 0 <= i < |p| && p[i].0 == name
  }

  /** page.tsx, the lists handed to the component as its initial selection:
      `v?.split(',') || []`. An absent parameter is no selection, but a
      present one is split even when it is empty. */
  function ReadInitial(p: UrlParams.Params, name: string): (r: seq<string>)
    ensures !Has(p, name) ==> r == []
    ensures Has(p, name) ==> |r| >= 1 && Join(r, ',') == UrlParams.Get(p, name)
  {
    if Has(p, name) then Split(UrlParams.Get(p, name), ',') else []
  }

  /** The component starts from the selection the page filters by, except
      for a parameter given empty (`?countries=`): the filter has no entry
      for it, the component one empty entry. */
  lemma InitialAgreesUnlessEmpty(p: UrlParams.Params, name: string)
    ensures !Has(p, name) || UrlParams.Get(p, name) != "" ==> ReadInitial(p, name) == ReadList(p, name)
    ensures Has(p, name) && UrlParams.Get(p, name) == "" ==> ReadInitial(p, name) == [""] && ReadList(p, name) == []
  {
  }

  function ReadSelection(p: UrlParams.Params): Selection {
    Selection(ReadList(p, "countries"), ReadList(p, "asns"), ReadList(p, "services"))
  }

  /** Entries the ',' join can carry: non-empty, without a ','. */
  predicate Joinable(list: seq<string>) {
    forall i :: 0 <= i < |list| ==> list[i] != "" && ',' !in list[i]
  }

  lemma JoinNonEmpty(list: seq<string>)
    requires |list| >= 1 && list[0] != ""
    ensures Join(list, ',') != ""
  {
  }

  lemma ReadListParam(p: UrlParams.Params, name: string, list: seq<string>)
    requires Joinable(list)
    requires UrlParams.Get(p, name) == Joined(list)
    ensures ReadList(p, name) == list
  {
    if |list| > 0 {
      JoinNonEmpty(list);
      SplitJoin(list, ',');
    }
  }

  /** The page that "Apply" navigates to shows the selection that was
      applied, provided no entry is empty or holds a ','. */
  lemma ApplyRoundTrip(sel: Selection, codec: UrlParams.Codec)
    requires UrlParams.CodecLaws(codec)
    requires Joinable(sel.countries) && Joinable(sel.asns) && Joinable(sel.services)
    ensures ReadSelection(codec.parse(codec.serialize(ApplyFilters(sel)))) == sel
  {
    var p := ApplyFilters(sel);
    var q := codec.parse(codec.serialize(p));
    AppliedCountries(sel);
    AppliedAsns(sel);
    AppliedServices(sel);
    assert UrlParams.Get(q, "countries") == UrlParams.Get(p, "countries");
    assert UrlParams.Get(q, "asns") == UrlParams.Get(p, "asns");
    assert UrlParams.Get(q, "services") == UrlParams.Get(p, "services");
    ReadListParam(q, "countries", sel.countries);
    ReadListParam(q, "asns", sel.asns);
    ReadListParam(q, "services", sel.services);
  }

  /** The response lists exactly the entries of the server's map, each key
      once. */
  predicate Represents(counts: ApiClient.Counts, m: map<string, int>) {
    && (forall i, j :: 0 <= i < j < |counts| ==> counts[i].0 != counts[j].0)
    && (forall i :: 0 <= i < |counts| ==> counts[i].0 in m && m[counts[i].0] == counts[i].1)
    && (forall k | k in m :: exists i :: 0 <= i < |counts| && counts[i].0 == k)
  }

  /** `getCountryCount` and `getServiceCount`: `facets.x?.[key] || 0`. */
  function CountOf(counts: Option<ApiClient.Counts>, key: string): int {
    match counts
    case None => 0
    case Some(c) =>
      match ApiClient.Lookup(c, key)
      case None => 0
      case Some(n) => if n == 0 then 0 else n
  }

  /** The count next to an entry is the server's count for it, 0 when the
      server has none. */
  lemma CountShowsServerCount(counts: ApiClient.Counts, m: map<string, int>, key: string)
    requires Represents(counts, m)
    ensures CountOf(Some(counts), key) == if key in m then m[key] else 0
  {
  }

  /** With the counts `HostStore.Facets` returns, the number next to a
      country is the number of matching hosts in that country, or 0 when
      that number is too large for the int32 the repository reads. */
  lemma CountryCountIsHostCount<M>(repo: Option<seq<Host<M>>>, matches: Host<M> -> bool,
                                   counts: ApiClient.Counts, country: string)
    requires HostStore.Facets(repo, matches, Done).Ok?
    requires Represents(counts, HostStore.Facets(repo, matches, Done).value.countries)
    ensures var n := multiset(HostStore.CountryKeys(HostStore.Candidates(repo.value, matches, "")))[country];
      CountOf(Some(counts), country) == if n <= MaxInt32 then n else 0
  {
    CountShowsServerCount(counts, HostStore.Facets(repo, matches, Done).value.countries, country);
  }

  /** The same for a service protocol. */
  lemma ServiceCountIsHostCount<M>(repo: Option<seq<Host<M>>>, matches: Host<M> -> bool,
                                   counts: ApiClient.Counts, protocol: string)
    requires HostStore.Facets(repo, matches, Done).Ok?
    requires Represents(counts, HostStore.Facets(repo, matches, Done).value.services)
    ensures var n := multiset(HostStore.ProtocolKeys(HostStore.Candidates(repo.value, matches, "")))[protocol];
      CountOf(Some(counts), protocol) == if n <= MaxInt32 then n else 0
  {
    CountShowsServerCount(counts, HostStore.Facets(repo, matches, Done).value.services, protocol);
  }

  /** The value of the first member whose key starts with `prefix`:
      `Object.keys(asns).find(k => k.startsWith(prefix))`. */
  function FirstPrefixed(counts: ApiClient.Counts, prefix: string): (r: Option<int>)
    ensures r.None? <==> forall i :: 0 <= i < |counts| ==> !StartsWith(counts[i].0, prefix)
    ensures r.Some? ==>
      exists i :: 0 <= i < |counts| && StartsWith(counts[i].0, prefix) && counts[i].1 == r.value
        && (forall j :: 0 <= j < i ==> !StartsWith(counts[j].0, prefix))
  {
    if |counts| == 0 then None
    else if StartsWith(counts[0].0, prefix) then Some(counts[0].1)
    else
      var r := FirstPrefixed(counts[1..], prefix);
      if r.Some? then
        var i :| 0 <= i < |counts| - 1 && StartsWith(counts[1..][i].0, prefix) && counts[1..][i].1 == r.value
          && (forall j :: 0 <= j < i ==> !StartsWith(counts[1..][j].0, prefix));
        assert counts[i + 1] == counts[1..][i];
        r
      else r
  }

  /** `getASNCount`: the first "AS" of the label removed, then the count of
      the first key that starts with the number and '-'. */
  function AsnCount(asns: Option<ApiClient.Counts>, asn: string): int {
    var prefix := ReplaceFirst(asn, "AS", "") + "-";
    match asns
    case None => 0
    case Some(c) => FirstPrefixed(c, prefix).GetOr(0)
  }

  /** The label the page shows for an ASN. */
  function Label(n: nat): string {
    "AS" + NatToString(n)
  }

  /** A key `number-organization` starts with `n-` exactly when the number
      is `n`: the '-' keeps AS33 from matching 3320. */
  lemma AsnPrefixIff(a: AsnInfo, n: nat)
    ensures StartsWith(HostStore.AsnKey(a), NatToString(n) + "-") <==> a.number == n
  {
    var s, t := NatToString(a.number), NatToString(n);
    var key := HostStore.AsnKey(a);
    assert key == s + "-" + a.organization;
    if a.number == n {
      assert key[..|t| + 1] == t + "-";
    } else if |key| >= |t| + 1 {
      var head := key[..|t| + 1];
      if |s| == |t| {
        assert head[..|t|] == s && (t + "-")[..|t|] == t;
      } else if |s| < |t| {
        assert head[|s|] == '-' && IsDigit((t + "-")[|s|]);
      } else {
        assert IsDigit(head[|t|]) && (t + "-")[|t|] == '-';
      }
    }
  }

  /** The ASN facet as the server sends it: one member per distinct
      `number-organization` key. */
  function AsnCounts(entries: seq<(AsnInfo, int)>): (r: ApiClient.Counts)
    ensures |r| == |entries|
    ensures forall i :: 0 <= i < |r| ==> r[i] == (HostStore.AsnKey(entries[i].0), entries[i].1)
  {
    if |entries| == 0 then []
    else [(HostStore.AsnKey(entries[0].0), entries[0].1)] + AsnCounts(entries[1..])
  }

  /** Reference: the count of the first entry whose number is `n`. */
  function FirstWithNumber(entries: seq<(AsnInfo, int)>, n: nat): int {
    if |entries| == 0 then 0
    else if entries[0].0.number == n then entries[0].1
    else FirstWithNumber(entries[1..], n)
  }

  /** The count shown for "AS<n>" is that of the first key with number
      `n`; another organisation under the same number is not added in. */
  lemma {:induction false} AsnCountByNumber(entries: seq<(AsnInfo, int)>, n: nat)
    ensures AsnCount(Some(AsnCounts(entries)), Label(n)) == FirstWithNumber(entries, n)
  {
    ReplaceLeading("AS", NatToString(n));
    FirstPrefixedByNumber(entries, n);
  }

  lemma {:induction false} FirstPrefixedByNumber(entries: seq<(AsnInfo, int)>, n: nat)
    ensures FirstPrefixed(AsnCounts(entries), NatToString(n) + "-").GetOr(0) == FirstWithNumber(entries, n)
    decreases |entries|
  {
    if |entries| > 0 {
      AsnPrefixIff(entries[0].0, n);
      assert AsnCounts(entries)[1..] == AsnCounts(entries[1..]);
      FirstPrefixedByNumber(entries[1..], n);
    }
  }

  /** page.tsx turns a key `number-organization` into the label "AS" +
      the part before the first '-', which is the number. */
  lemma LabelOfKey(a: AsnInfo)
    ensures "AS" + Split(HostStore.AsnKey(a), '-')[0] == Label(a.number)
  {
    var s := NatToString(a.number);
    var rest := Split(a.organization, '-');
    var parts := [s] + rest;
    assert parts[1..] == rest;
    assert Join(parts, '-') == s + "-" + a.organization;
    assert '-' !in s by {
      assert AllSatisfy(s, IsDigit);
    }
    SplitJoin(parts, '-');
  }
}

=== FILE: ftp.dfy ===
/** The FTP fingerprint plugin: the server greeting must match
    `^\d{3}[- ](.*)\r`, a three-digit reply code, a space or hyphen, then a
    carriage return before any line feed. */
module Ftp {
  import opened Wrappers
  import opened Bytes
  import opened Plugins

  /** `plugins.ServiceFTP`: the whole greeting is kept as the banner. */
  datatype FtpMeta = ServiceFtp(banner: seq<byte>)

  const CR: byte := 0x0D
  const LF: byte := 0x0A

  predicate IsAsciiDigit(b: byte) { 0x30 <= b <= 0x39 }

  /** The reference reading of the pattern over bytes: `.` matches every
      byte but a line feed (an invalid UTF-8 byte decodes to U+FFFD, which
      `.` also matches), so the pattern matches when some carriage return at
      index 4 or later has no line feed between index 4 and it. */
  predicate GreetingMatches(s: seq<byte>) {
    && |s| >= 5
    && IsAsciiDigit(s[0]) && IsAsciiDigit(s[1]) && IsAsciiDigit(s[2])
    && (s[3] == 0x2D || s[3] == 0x20)
    && exists k :: 4 <= k < |s| && s[k] == CR && forall j :: 4 <= j < k ==> s[j] != LF
  }

  /** The scan a regular-expression engine performs for `(.*)\r` from index
      `i`: it succeeds at the first carriage return and fails at the first
      line feed or at the end. */
  function ScanToCR(s: seq<byte>, i: nat): (r: bool)
    requires i <= |s|
    ensures r <==> exists k :: i <= k < |s| && s[k] == CR && forall j :: i <= j < k ==> s[j] != LF
    decreases |s| - i
  {
    if i == |s| then false
    else if s[i] == CR then true
    else if s[i] == LF then false
    else ScanToCR(s, i + 1)
  }

  /** `ftpResponse.FindStringSubmatch(string(response))` is not nil: the
      anchored pattern matches at the start of the greeting. */
  function Matches(s: seq<byte>): (r: bool)
    ensures r <==> GreetingMatches(s)
  {
    && |s| >= 4
    && IsAsciiDigit(s[0]) && IsAsciiDigit(s[1]) && IsAsciiDigit(s[2])
    && (s[3] == 0x2D || s[3] == 0x20)
    && ScanToCR(s, 4)
  }

  /** A short greeting, "220 ready\r\n", is recognised. */
  lemma ProFtpdGreeting()
    ensures Matches([0x32, 0x32, 0x30, 0x20, 0x72, 0x65, 0x61, 0x64, 0x79, CR, LF])
  {
    var s: seq<byte> := [0x32, 0x32, 0x30, 0x20, 0x72, 0x65, 0x61, 0x64, 0x79, CR, LF];
    assert s[9] == CR && forall j :: 4 <= j < 9 ==> s[j] != LF;
  }

  /** A greeting cut off before its carriage return, "220 ready\n", is not. */
  lemma LineFeedOnlyRejected()
    ensures !Matches([0x32, 0x32, 0x30, 0x20, 0x72, 0x65, 0x61, 0x64, 0x79, LF])
  {
  }

  /** `Run` after the read: `recv` is the outcome of reading the greeting. */
  function Run(target: Target, recv: Result<seq<byte>, IoError>): (r: RunResult<FtpMeta>)
    ensures recv.Err? ==> r == Err(recv.error)
    ensures recv.Ok? ==> (r == Ok(None) <==> !GreetingMatches(recv.value))
    ensures r.Ok? && r.value.Some? ==>
      r.value.value == Detection(target, ServiceFtp(recv.value), false, [], TCP)
  {
    match recv
    case Err(e) => Err(e)
    case Ok(response) =>
      if |response| == 0 then Ok(None)
      else if !Matches(response) then Ok(None)
      else Ok(Some(Detection(target, ServiceFtp(response), false, [], TCP)))
  }

  /** `PortPriority`: only port 21 is preferred. */
  function PortPriority(port: uint16): (r: bool)
    ensures r <==> port == 21
  {
    port == 21
  }
}

=== FILE: geoip.dfy ===
/** The GeoIP HTTP client (`rigour/internal/geoip/api.go`): construction,
    the lookup request and the defaulting of empty text fields. The HTTP
    round trip and the JSON decoder are parameters. */
module GeoIp {
  import opened Wrappers
  import opened Text
  import Hosts

  /** A Go `time.Duration`, in nanoseconds. */
  type Duration = int

  const Second: Duration := 1_000_000_000
  const DefaultTimeout: Duration := 3 * Second
  const Unknown: string := "Unknown"

  /** `GoGeoIPRecord`, and `types.GeoIPRecord`, which has the same fields. */
  datatype Record = Record(
    city: string,
    country: string,
    continent: string,
    isoCountryCode: string,
    isoContinentCode: string,
    isAnonymousProxy: bool,
    isSatelliteProvider: bool,
    timezone: string,
    latitude: Hosts.Float64,
    longitude: Hosts.Float64,
    asn: int,
    organization: string,
    ip: string)

  datatype Client = Client(baseUrl: string, apiKey: string, timeout: Duration)

  predicate IsSlash(c: char) { c == '/' }

  /** `NewClient`: both settings are required; a non-positive timeout becomes
      three seconds; trailing slashes are dropped from the base URL after the
      emptiness check. */
  function NewClient(baseUrl: string, apiKey: string, timeout: Duration): (r: Result<Client, string>)
    ensures r.Err? <==> baseUrl == "" || apiKey == ""
    ensures r.Err? ==> r.error == "geoip: baseURL and apiKey are required"
    ensures r.Ok? ==> r.value.apiKey == apiKey
    ensures r.Ok? && timeout <= 0 ==> r.value.timeout == DefaultTimeout
    ensures r.Ok? && timeout > 0 ==> r.value.timeout == timeout
    ensures r.Ok? ==> r.value.baseUrl == TrimRight(baseUrl, IsSlash)
  {
    if baseUrl == "" || apiKey == "" then Err("geoip: baseURL and apiKey are required")
    else Ok(Client(TrimRight(baseUrl, IsSlash), apiKey, if timeout <= 0 then DefaultTimeout else timeout))
  }

  /** The stored base URL never ends in '/', and the given one is it followed
      by nothing but slashes. */
  lemma StoredBaseUrlShape(baseUrl: string, apiKey: string, timeout: Duration)
    requires NewClient(baseUrl, apiKey, timeout).Ok?
    ensures var b := NewClient(baseUrl, apiKey, timeout).value.baseUrl;
      && (|b| > 0 ==> b[|b| - 1] != '/')
      && baseUrl[..|b|] == b
      && forall i :: |b| <= i < |baseUrl| ==> baseUrl[i] == '/'
  {
  }

  /** The emptiness check comes first, so a base URL of slashes is accepted
      and stored as "". */
  lemma SlashOnlyBaseUrl(apiKey: string)
    requires apiKey != ""
    ensures NewClient("/", apiKey, 0) == Ok(Client("", apiKey, DefaultTimeout))
  {
    assert TrimRight("/"[..0], IsSlash) == "";
  }

  /** An HTTP answer: status code and body text. */
  datatype HttpResponse = HttpResponse(status: int, body: string)

  const StatusOK := 200
  const MaxErrorBody := 0x10_0000

  function RequestUrl(c: Client, ip: string): string {
    c.baseUrl + "/api/v1/ip/" + ip
  }

  /** `Lookup`. `get` is the HTTP round trip for a URL (a transport error is
      `Err`); `decode` is the JSON decoder of the response body. */
  function Lookup(c: Client, ip: string,
                  get: string -> Result<HttpResponse, string>,
                  decode: string -> Result<Record, string>): (r: Result<Record, string>)
    ensures ip == "" ==> r == Err("geoip: ip is required")
    ensures ip != "" && get(c.baseUrl + "/api/v1/ip/" + ip).Err? ==>
      r == Err(get(c.baseUrl + "/api/v1/ip/" + ip).error)
    ensures r.Ok? ==>
      ip != "" && get(c.baseUrl + "/api/v1/ip/" + ip).Ok?
      && get(c.baseUrl + "/api/v1/ip/" + ip).value.status == 200
      && decode(get(c.baseUrl + "/api/v1/ip/" + ip).value.body).Ok?
      && r.value == SetNullableFieldsToDefault(decode(get(c.baseUrl + "/api/v1/ip/" + ip).value.body).value)
    ensures ip != "" && get(c.baseUrl + "/api/v1/ip/" + ip).Ok? ==>
      var resp := get(c.baseUrl + "/api/v1/ip/" + ip).value;
      resp.status != 200 ==>
        r == Err("geoip: status " + IntToString(resp.status) + ": "
                 + resp.body[..if |resp.body| < MaxErrorBody then |resp.body| else MaxErrorBody])
    ensures ip != "" && get(c.baseUrl + "/api/v1/ip/" + ip).Ok?
            && get(c.baseUrl + "/api/v1/ip/" + ip).value.status == 200
            && decode(get(c.baseUrl + "/api/v1/ip/" + ip).value.body).Err? ==>
      r == Err(decode(get(c.baseUrl + "/api/v1/ip/" + ip).value.body).error)
  {
    if ip == "" then Err("geoip: ip is required")
    else
      var resp :- get(RequestUrl(c, ip));
      if resp.status != StatusOK then
        var shown := if |resp.body| < MaxErrorBody then |resp.body| else MaxErrorBody;
        Err("geoip: status " + IntToString(resp.status) + ": " + resp.body[..shown])
      else
        var rec :- decode(resp.body);
        Ok(SetNullableFieldsToDefault(rec))
  }

  function Default(s: string): (r: string)
    ensures r != ""
    ensures s != "" ==> r == s
  {
    if s == "" then Unknown else s
  }

  /** `SetNullableFieldsToDefault`: the seven text fields read "Unknown" when
      empty; nothing else changes. */
  function SetNullableFieldsToDefault(rec: Record): (r: Record)
    ensures r.city == Default(rec.city) && r.country == Default(rec.country)
    ensures r.continent == Default(rec.continent)
    ensures r.isoCountryCode == Default(rec.isoCountryCode)
    ensures r.isoContinentCode == Default(rec.isoContinentCode)
    ensures r.timezone == Default(rec.timezone) && r.organization == Default(rec.organization)
    ensures r.ip == rec.ip && r.asn == rec.asn
    ensures r.latitude == rec.latitude && r.longitude == rec.longitude
    ensures r.isAnonymousProxy == rec.isAnonymousProxy
    ensures r.isSatelliteProvider == rec.isSatelliteProvider
  {
    rec.(city := Default(rec.city), country := Default(rec.country),
         continent := Default(rec.continent), isoCountryCode := Default(rec.isoCountryCode),
         isoContinentCode := Default(rec.isoContinentCode), timezone := Default(rec.timezone),
         organization := Default(rec.organization))
  }

  /** None of the seven defaulted fields is empty. */
  predicate Filled(rec: Record) {
    rec.city != "" && rec.country != "" && rec.continent != "" && rec.isoCountryCode != ""
    && rec.isoContinentCode != "" && rec.timezone != "" && rec.organization != ""
  }

  /** Defaulting fills every field, changes a record exactly when one is
      empty, and so is idempotent. */
  lemma DefaultsFill(rec: Record)
    ensures Filled(SetNullableFieldsToDefault(rec))
    ensures SetNullableFieldsToDefault(rec) == rec <==> Filled(rec)
    ensures SetNullableFieldsToDefault(SetNullableFieldsToDefault(rec)) == SetNullableFieldsToDefault(rec)
  {
  }

  /** Every record a successful lookup returns is filled. */
  lemma LookupFilled(c: Client, ip: string, get: string -> Result<HttpResponse, string>,
                     decode: string -> Result<Record, string>)
    requires Lookup(c, ip, get, decode).Ok?
    ensures Filled(Lookup(c, ip, get, decode).value)
  {
    DefaultsFill(decode(get(RequestUrl(c, ip)).value.body).value);
  }
}

=== FILE: handlers.dfy ===
/** The HTTP handlers of the query API (`rigour/internal/api/handlers.go`)
    as pure functions from the request's query parameters and the
    repository's answer to the response written. `json.Unmarshal` into a
    filter map and `fmt.Sscanf("%d")` are parameters; the repository calls
    are functions of the arguments the handler passes them. */
module Handlers {
  import opened Wrappers
  import Pagination
  import opened Storage

  const StatusOK: int := 200
  const StatusBadRequest: int := 400
  const StatusNotFound: int := 404
  const StatusInternalServerError: int := 500

  /** The value of each query parameter, "" when it is absent. */
  datatype Query = Query(filter: string, limit: string, pageToken: string)

  /** `json.Unmarshal([]byte(param), &filter)` (`None` on error), the empty
      filter map the handler starts from, `fmt.Sscanf(param, "%d")` and the
      token's JSON codec. */
  datatype Libs<F> = Libs(
    parseFilter: string -> Option<F>,
    emptyFilter: F,
    scanInt: string -> Option<int>,
    json: Pagination.JsonCodec)

  /** What the handler hands to `QueryHandler.Search`. */
  datatype SearchArgs<F> = SearchArgs(filter: F, lastId: string, limit: int)

  datatype Body<H> =
    | ErrorBody(error: string)
    | SearchBody(hosts: seq<H>, nextPageToken: string)
    | HostBody(host: H)
    | FacetsBody(counts: FacetCounts)

  datatype Response<H> = Response(status: int, body: Body<H>)

  /** The `filter` parameter: absent means the empty map; present but not a
      JSON object is `None`. */
  function FilterOf<F>(param: string, libs: Libs<F>): (r: Option<F>)
    ensures param == "" ==> r == Some(libs.emptyFilter)
    ensures param != "" ==> r == libs.parseFilter(param)
  {
    if param == "" then Some(libs.emptyFilter) else libs.parseFilter(param)
  }

  /** Steps one to three of `SearchHandler`: filter, limit, page token, in
      that order; `Err` carries the message of the 400 response. */
  function SearchArgsOf<F>(q: Query, libs: Libs<F>): (r: Result<SearchArgs<F>, string>)
    ensures FilterOf(q.filter, libs).None? ==> r == Err("Invalid filter parameter")
    ensures r.Ok? ==> 1 <= r.value.limit <= Pagination.MaxPageSize
    ensures r.Ok? ==> Some(r.value.filter) == FilterOf(q.filter, libs)
    ensures r.Ok? && q.limit == "" ==> r.value.limit == Pagination.DefaultPageSize
    ensures r.Ok? && q.limit != "" ==>
      libs.scanInt(q.limit).Some? && r.value.limit == Pagination.ValidatePageSize(libs.scanInt(q.limit).value)
    ensures r.Ok? && q.pageToken == "" ==> r.value.lastId == ""
    ensures r.Ok? && q.pageToken != "" ==>
      Pagination.DecodeToken(q.pageToken, libs.json).Ok? &&
      match Pagination.DecodeToken(q.pageToken, libs.json).value
      case None => r.value.lastId == ""
      case Some(t) => r.value.lastId == t.lastId
    ensures r.Err? <==>
      || FilterOf(q.filter, libs).None?
      || (q.limit != "" && libs.scanInt(q.limit).None?)
      || Pagination.DecodeToken(q.pageToken, libs.json).Err?
  {
    var filter :- FilterOf(q.filter, libs).ToResult("Invalid filter parameter");
    var limit :-
      if q.limit == "" then Ok(Pagination.DefaultPageSize)
      else
        match libs.scanInt(q.limit)
        case None => Err("Invalid limit parameter")
        case Some(parsed) => Ok(Pagination.ValidatePageSize(parsed));
    var lastId :-
      if q.pageToken == "" then Ok("")
      else
        match Pagination.DecodeToken(q.pageToken, libs.json)
        case Err(_) => Err("Invalid page token")
        case Ok(None) => Ok("")
        case Ok(Some(t)) => Ok(t.lastId);
    Ok(SearchArgs(filter, lastId, limit))
  }

  /** `SearchHandler`. `search` is the repository's answer for the arguments
      it is called with: the hosts of the page and the next cursor id, or
      an error message. */
  function SearchHandler<F, H>(q: Query, libs: Libs<F>,
                               search: SearchArgs<F> -> Result<(seq<H>, string), string>): (r: Response<H>)
    ensures r.status == StatusBadRequest <==> SearchArgsOf(q, libs).Err?
    ensures r.status == StatusInternalServerError <==>
      SearchArgsOf(q, libs).Ok? && search(SearchArgsOf(q, libs).value).Err?
    ensures r.status == StatusOK <==>
      SearchArgsOf(q, libs).Ok? && search(SearchArgsOf(q, libs).value).Ok?
    ensures r.status == StatusInternalServerError ==>
      r.body == ErrorBody("Search failed: " + search(SearchArgsOf(q, libs).value).error)
    ensures r.status == StatusOK ==>
      var (hosts, nextId) := search(SearchArgsOf(q, libs).value).value;
      && r.body.SearchBody?
      && r.body.hosts == hosts
      && (nextId == "" ==> r.body.nextPageToken == "")
      && (Pagination.JsonLaws(libs.json) ==> (r.body.nextPageToken != "" <==> nextId != ""))
      && (nextId != "" ==> r.body.nextPageToken == Pagination.EncodeToken(nextId, "_id", libs.json))
  {
    match SearchArgsOf(q, libs)
    case Err(msg) => Response(StatusBadRequest, ErrorBody(msg))
    case Ok(args) =>
      match search(args)
      case Err(e) => Response(StatusInternalServerError, ErrorBody("Search failed: " + e))
      case Ok((hosts, nextId)) =>
        var token := if nextId != "" then Pagination.EncodeToken(nextId, "_id", libs.json) else "";
        NextTokenEmptyIff(nextId, libs.json);
        Response(StatusOK, SearchBody(hosts, token))
  }

  lemma NextTokenEmptyIff(nextId: string, json: Pagination.JsonCodec)
    ensures nextId != "" && Pagination.JsonLaws(json) ==> Pagination.EncodeToken(nextId, "_id", json) != ""
  {
    if nextId != "" && Pagination.JsonLaws(json) {
      Pagination.EncodeTokenNonEmpty(nextId, "_id", json);
    }
  }

  /** Following `next_page_token` with the same filter and limit asks the
      repository to continue from the id the previous page ended on. */
  lemma NextPageResumesAt<F, H>(q: Query, libs: Libs<F>,
                                search: SearchArgs<F> -> Result<(seq<H>, string), string>)
    requires Pagination.JsonLaws(libs.json)
    requires SearchHandler(q, libs, search).status == StatusOK
    requires SearchHandler(q, libs, search).body.nextPageToken != ""
    ensures var next := q.(pageToken := SearchHandler(q, libs, search).body.nextPageToken);
      && SearchArgsOf(next, libs).Ok?
      && SearchArgsOf(next, libs).value.lastId == search(SearchArgsOf(q, libs).value).value.1
      && SearchArgsOf(next, libs).value.limit == SearchArgsOf(q, libs).value.limit
  {
    var nextId := search(SearchArgsOf(q, libs).value).value.1;
    Pagination.TokenRoundTrip(nextId, "_id", libs.json);
  }

  /** `GetHostHandler`: `getByIP` is the repository's answer for `ip`. */
  function GetHostHandler<H>(ip: string, getByIP: string -> Result<H, string>): (r: Response<H>)
    ensures ip == "" ==> r == Response(StatusBadRequest, ErrorBody("IP address is required"))
    ensures ip != "" && getByIP(ip).Err? ==> r == Response(StatusNotFound, ErrorBody(getByIP(ip).error))
    ensures r.status == StatusOK <==> ip != "" && getByIP(ip).Ok?
    ensures r.status == StatusOK ==> r.body == HostBody(getByIP(ip).value)
  {
    if ip == "" then Response(StatusBadRequest, ErrorBody("IP address is required"))
    else
      match getByIP(ip)
      case Err(e) => Response(StatusNotFound, ErrorBody(e))
      case Ok(host) => Response(StatusOK, HostBody(host))
  }

  /** `FacetsHandler`: the same filter rule as the search, then the
      repository's three count maps copied into the response. */
  function FacetsHandler<F, H>(filterParam: string, libs: Libs<F>,
                               facets: F -> Result<FacetCounts, string>): (r: Response<H>)
    ensures FilterOf(filterParam, libs).None? <==> r.status == StatusBadRequest
    ensures r.status == StatusBadRequest ==> r.body == ErrorBody("Invalid filter parameter")
    ensures r.status == StatusOK <==>
      FilterOf(filterParam, libs).Some? && facets(FilterOf(filterParam, libs).value).Ok?
    ensures r.status == StatusOK ==>
      var agg := facets(FilterOf(filterParam, libs).value).value;
      r.body == FacetsBody(FacetCounts(agg.services, agg.countries, agg.asns))
    ensures r.status == StatusInternalServerError ==>
      r.body == ErrorBody("Facet aggregation failed: " + facets(FilterOf(filterParam, libs).value).error)
  {
    match FilterOf(filterParam, libs)
    case None => Response(StatusBadRequest, ErrorBody("Invalid filter parameter"))
    case Some(filter) =>
      match facets(filter)
      case Err(e) => Response(StatusInternalServerError, ErrorBody("Facet aggregation failed: " + e))
      case Ok(agg) => Response(StatusOK, FacetsBody(FacetCounts(agg.services, agg.countries, agg.asns)))
  }

  /** A malformed filter is rejected before the limit and the page token are
      looked at: whatever they hold, the answer is the same 400. */
  lemma FilterCheckedFirst<F, H>(q: Query, libs: Libs<F>,
                                 search: SearchArgs<F> -> Result<(seq<H>, string), string>)
    requires q.filter != "" && libs.parseFilter(q.filter).None?
    ensures SearchHandler(q, libs, search) == Response(StatusBadRequest, ErrorBody("Invalid filter parameter"))
  {
  }
}

=== FILE: host_results.dfy ===
/** The result list of the dashboard (`rigour-ui/components/HostResults.tsx`):
    ten hosts to a page, the slice shown for the current page, the reset to
    page 1 when the list shrinks, the "Showing a-b" line, the row of page
    buttons and the previous/next buttons. Scrolling to the top and the
    markup are left out. */
module HostResults {

  const HostsPerPage: int := 10

  /** `Math.ceil(hosts.length / HOSTS_PER_PAGE)`. */
  function TotalPages(n: nat): (r: nat)
    ensures n == 0 <==> r == 0
    ensures n > 0 ==> (r - 1) * HostsPerPage < n <= r * HostsPerPage
  {
    (n + HostsPerPage - 1) / HostsPerPage
  }

  /** How `Array.prototype.slice` reads a bound: a negative one counts from
      the end, and both are clamped to the array. */
  function Bound(i: int, n: nat): (r: nat)
    ensures r <= n
    ensures 0 <= i <= n ==> r == i
  {
    if i < 0 then (if n + i < 0 then 0 else n + i)
    else if i > n then n
    else i
  }

  /** `s.slice(start, end)`. */
  function JsSlice<T>(s: seq<T>, start: int, end: int): (r: seq<T>)
    ensures |r| <= |s|
    ensures 0 <= start <= end <= |s| ==> r == s[start..end]
  {
    var a, b := Bound(start, |s|), Bound(end, |s|);
    if a < b then s[a..b] else []
  }

  function Min(a: int, b: int): int {
    if a < b then a else b
  }

  /** `paginatedHosts`: the hosts from index `(page - 1) * 10`, at most
      ten of them. */
  function PageSlice<T>(hosts: seq<T>, page: int): (r: seq<T>)
    ensures 1 <= page <= TotalPages(|hosts|) ==>
      && 1 <= |r| <= HostsPerPage
      && r == hosts[(page - 1) * HostsPerPage..Min(page * HostsPerPage, |hosts|)]
    ensures page > TotalPages(|hosts|) ==> r == []
  {
    var start := (page - 1) * HostsPerPage;
    JsSlice(hosts, start, start + HostsPerPage)
  }

  /** The first `k` pages one after the other. */
  function Pages<T>(hosts: seq<T>, k: nat): seq<T> {
    if k == 0 then [] else Pages(hosts, k - 1) + PageSlice(hosts, k)
  }

  lemma {:induction false} PagesPrefix<T>(hosts: seq<T>, k: nat)
    requires k <= TotalPages(|hosts|)
    ensures Pages(hosts, k) == hosts[..Min(k * HostsPerPage, |hosts|)]
  {
    if k > 0 {
      PagesPrefix(hosts, k - 1);
      var a, b := (k - 1) * HostsPerPage, Min(k * HostsPerPage, |hosts|);
      assert hosts[..a] + hosts[a..b] == hosts[..b];
    }
  }

  /** The pages partition the list: read in order they give back every
      host exactly once. */
  lemma PagesPartition<T>(hosts: seq<T>)
    ensures Pages(hosts, TotalPages(|hosts|)) == hosts
  {
    PagesPrefix(hosts, TotalPages(|hosts|));
  }

  /** The reset at every render: a page beyond the last one, when there is
      a last one, becomes page 1. */
  function Settle(page: int, totalPages: nat): (r: int)
    ensures totalPages > 0 && page > totalPages ==> r == 1
    ensures page <= totalPages || totalPages == 0 ==> r == page
  {
    if page > totalPages && totalPages > 0 then 1 else page
  }

  /** After the reset the page is within range whenever there are hosts,
      and it is the first page, not the last, that a shrunken list jumps
      to. */
  lemma SettleInRange<T>(hosts: seq<T>, page: int)
    requires page >= 1 && |hosts| > 0
    ensures 1 <= Settle(page, TotalPages(|hosts|)) <= TotalPages(|hosts|)
    ensures page > TotalPages(|hosts|) ==>
      PageSlice(hosts, Settle(page, TotalPages(|hosts|))) == hosts[..Min(HostsPerPage, |hosts|)]
  {
  }

  /** The "Showing a-b" line. */
  function Showing(page: int, n: nat): (int, int) {
    var start := (page - 1) * HostsPerPage;
    (start + 1, Min(start + HostsPerPage, n))
  }

  /** On a page in range the line counts exactly the hosts shown, by their
      positions in the list. */
  lemma ShowingMatchesSlice<T>(hosts: seq<T>, page: int)
    requires 1 <= page <= TotalPages(|hosts|)
    ensures var (a, b) := Showing(page, |hosts|);
      && 1 <= a <= b <= |hosts|
      && PageSlice(hosts, page) == hosts[a - 1..b]
  {
  }

  /** With no hosts the line reads "1-0" on page 1: the first number is
      never below 1 and the second is 0. */
  lemma ShowingEmpty(page: int)
    requires page >= 1
    ensures Showing(page, 0).0 >= 1 && Showing(page, 0).1 == 0
  {
  }

  /** An entry of the page-button row: a page number or "...". */
  datatype PageItem = Number(page: int) | Ellipsis

  /** `getPageNumbers`. */
  function PageNumbers(current: int, totalPages: nat): (r: seq<PageItem>)
    ensures totalPages <= 5 ==> |r| == totalPages && forall i :: 0 <= i < |r| ==> r[i] == Number(i + 1)
  {
    if totalPages <= 5 then seq(totalPages, i => Number(i + 1))
    else if current <= 3 then [Number(1), Number(2), Number(3), Number(4), Ellipsis, Number(totalPages)]
    else if current >= totalPages - 2 then
      [Number(1), Ellipsis, Number(totalPages - 3), Number(totalPages - 2), Number(totalPages - 1), Number(totalPages)]
    else
      [Number(1), Ellipsis, Number(current - 1), Number(current), Number(current + 1), Ellipsis, Number(totalPages)]
  }

  /** A row of buttons that accounts for every page from 1 to `totalPages`:
      it starts at 1 and ends at the last page, neighbouring numbers are
      consecutive, and each "..." stands between two numbers for at least
      one page left out. */
  ghost predicate Covers(items: seq<PageItem>, totalPages: nat) {
    && |items| >= 1
    && items[0] == Number(1)
    && items[|items| - 1] == Number(totalPages)
    && (forall i :: 0 <= i < |items| - 1 && items[i].Number? && items[i + 1].Number? ==>
          items[i + 1].page == items[i].page + 1)
    && (forall i :: 0 <= i < |items| && items[i].Ellipsis? ==>
          && 0 < i < |items| - 1
          && items[i - 1].Number? && items[i + 1].Number?
          && items[i + 1].page >= items[i - 1].page + 2)
  }

  /** Every button is a page in range, and the current page has one. */
  ghost predicate InRange(items: seq<PageItem>, current: int, totalPages: nat) {
    && (forall i :: 0 <= i < |items| && items[i].Number? ==> 1 <= items[i].page <= totalPages)
    && Number(current) in items
  }

  lemma ShortRow(current: int, totalPages: nat)
    requires 1 <= current <= totalPages <= 5
    ensures Covers(PageNumbers(current, totalPages), totalPages)
    ensures InRange(PageNumbers(current, totalPages), current, totalPages)
    ensures |PageNumbers(current, totalPages)| == totalPages
  {
    var r := PageNumbers(current, totalPages);
    assert r[current - 1] == Number(current);
  }

  /** Near the start: pages 1 to 4, "...", the last page. */
  lemma StartRow(current: int, totalPages: nat)
    requires 1 <= current <= 3 && totalPages > 5
    ensures Covers(PageNumbers(current, totalPages), totalPages)
    ensures InRange(PageNumbers(current, totalPages), current, totalPages)
    ensures |PageNumbers(current, totalPages)| == 6
  {
    var r := PageNumbers(current, totalPages);
    assert r[current - 1] == Number(current);
  }

  /** Near the end: page 1, "...", the last four pages. */
  lemma EndRow(current: int, totalPages: nat)
    requires 3 < current <= totalPages && current >= totalPages - 2 && totalPages > 5
    ensures Covers(PageNumbers(current, totalPages), totalPages)
    ensures InRange(PageNumbers(current, totalPages), current, totalPages)
    ensures |PageNumbers(current, totalPages)| == 6
  {
    var r := PageNumbers(current, totalPages);
    assert r[current - totalPages + 5] == Number(current);
  }

  /** In the middle: page 1, "...", the current page and its neighbours,
      "...", the last page. */
  lemma MiddleRow(current: int, totalPages: nat)
    requires 3 < current < totalPages - 2 && totalPages > 5
    ensures Covers(PageNumbers(current, totalPages), totalPages)
    ensures InRange(PageNumbers(current, totalPages), current, totalPages)
    ensures |PageNumbers(current, totalPages)| == 7
  {
    var r := PageNumbers(current, totalPages);
    assert r[3] == Number(current);
  }

  /** For any page in range the row covers every page, shows the current
      one and has at most seven entries. */
  lemma PageNumbersWellFormed(current: int, totalPages: nat)
    requires 1 <= current <= totalPages
    ensures Covers(PageNumbers(current, totalPages), totalPages)
    ensures InRange(PageNumbers(current, totalPages), current, totalPages)
    ensures |PageNumbers(current, totalPages)| <= 7
  {
    if totalPages <= 5 {
      ShortRow(current, totalPages);
    } else if current <= 3 {
      StartRow(current, totalPages);
    } else if current >= totalPages - 2 {
      EndRow(current, totalPages);
    } else {
      MiddleRow(current, totalPages);
    }
  }

  /** The buttons under the list: previous, a page number, next. */
  datatype Control = Previous | Next | Go(page: int)

  /** The row is drawn only when there is more than one page. */
  predicate ControlsShown(n: nat) {
    TotalPages(n) > 1
  }

  /** Previous is disabled on page 1, next on the last page; a page number
      can be pressed when the row shows it. */
  predicate Enabled(current: int, totalPages: nat, c: Control) {
    match c
    case Previous => current != 1
    case Next => current != totalPages
    case Go(p) => Number(p) in PageNumbers(current, totalPages)
  }

  /** `handlePageChange`. */
  function Press(current: int, c: Control): int {
    match c
    case Previous => current - 1
    case Next => current + 1
    case Go(p) => p
  }

  /** No enabled button leads outside the pages. */
  lemma PressStaysInRange(current: int, n: nat, c: Control)
    requires ControlsShown(n) && 1 <= current <= TotalPages(n)
    requires Enabled(current, TotalPages(n), c)
    ensures 1 <= Press(current, c) <= TotalPages(n)
  {
    if c.Go? {
      PageNumbersWellFormed(current, TotalPages(n));
      var items := PageNumbers(current, TotalPages(n));
      var i :| 0 <= i < |items| && items[i] == Number(c.page);
    }
  }

  /** Every page can be reached: next is enabled on every page but the
      last. */
  lemma NextReachesEveryPage(current: int, n: nat)
    requires ControlsShown(n) && 1 <= current < TotalPages(n)
    ensures Enabled(current, TotalPages(n), Next) && Press(current, Next) == current + 1
  {
  }
}

=== FILE: host_store.dfy ===
/** The MongoDB host repository (`rigour/internal/storage/mongodb/hosts.go`)
    over an in-memory collection: the documents of the `hosts` collection
    held in `_id` order, one per IP (the unique `ip_unique` index). Each
    update is the document-level effect of the Mongo update it issues.
    Driver errors of the reads are parameters; an error of a write leaves
    the collection as it was and is not modelled. */
module HostStore {
  import opened Wrappers
  import opened Text
  import opened Seqs
  import opened Storage
  import opened Hosts
  import ServiceRecord

  type Time = ServiceRecord.Time
  type Service<M> = ServiceRecord.Service<M>

  predicate Sorted<M>(s: seq<Host<M>>) {
    forall i, j :: 0 <= i < j < |s| ==> Less(s[i].id, s[j].id)
  }

  predicate UniqueIps<M>(s: seq<Host<M>>) {
    forall i, j :: 0 <= i < j < |s| ==> s[i].ip != s[j].ip
  }

  /** The collection's invariant: ascending, distinct, non-empty `_id`s
      (an ObjectId's hex form has 24 digits) and distinct IPs. */
  predicate Valid<M>(s: seq<Host<M>>) {
    Sorted(s) && UniqueIps(s) && forall i :: 0 <= i < |s| ==> s[i].id != ""
  }

  /** Position of the document whose `ip` is `ip`. */
  function Find<M>(s: seq<Host<M>>, ip: string): (r: Option<nat>)
    ensures r.Some? ==> r.value < |s| && s[r.value].ip == ip
    ensures r.None? <==> forall i :: 0 <= i < |s| ==> s[i].ip != ip
  {
    if |s| == 0 then None
    else if s[0].ip == ip then Some(0)
    else match Find(s[1..], ip)
      case None => None
      case Some(k) => Some(k + 1)
  }

  /** The document `{ip: ip}` selects. */
  function Lookup<M>(s: seq<Host<M>>, ip: string): (r: Option<Host<M>>)
    ensures r.Some? ==> r.value.ip == ip
    ensures r.None? <==> forall i :: 0 <= i < |s| ==> s[i].ip != ip
  {
    match Find(s, ip)
    case None => None
    case Some(i) => Some(s[i])
  }

  lemma LookupAt<M>(s: seq<Host<M>>, i: nat)
    requires UniqueIps(s) && i < |s|
    ensures Lookup(s, s[i].ip) == Some(s[i])
  {
  }

  /** Replacing the document at `i` by one with the same IP leaves every
      other IP's document as it was. */
  lemma LookupAfterReplace<M>(s: seq<Host<M>>, i: nat, h: Host<M>, ip: string)
    requires UniqueIps(s) && i < |s| && h.ip == s[i].ip
    ensures UniqueIps(s[i := h])
    ensures Lookup(s[i := h], ip) == if ip == h.ip then Some(h) else Lookup(s, ip)
  {
    var t := s[i := h];
    if ip == h.ip {
      LookupAt(t, i);
    } else if Lookup(s, ip).Some? {
      var j := Find(s, ip).value;
      LookupAt(t, j);
      LookupAt(s, j);
    }
  }

  /** A time of zero (Go's `IsZero`) stands for "now": `clock` is
      `time.Now()`. */
  function Effective(now: Time, clock: Time): (t: Time)
    ensures now != 0 ==> t == now
    ensures now == 0 ==> t == clock
  {
    if now == 0 then clock else now
  }

  /** Where a document with `_id` `id` goes to keep the collection sorted. */
  function InsertPos<M>(s: seq<Host<M>>, id: string): (k: nat)
    requires Sorted(s)
    requires forall i :: 0 <= i < |s| ==> s[i].id != id
    ensures k <= |s|
    ensures forall i :: 0 <= i < k ==> Less(s[i].id, id)
    ensures forall i :: k <= i < |s| ==> Less(id, s[i].id)
  {
    if |s| == 0 then 0
    else if Less(id, s[0].id) then
      assert forall i :: 0 < i < |s| ==> Less(id, s[i].id) by {
        forall i | 0 < i < |s| ensures Less(id, s[i].id) {
          LessTransitive(id, s[0].id, s[i].id);
        }
      }
      0
    else
      LessTotal(id, s[0].id);
      InsertPos(s[1..], id) + 1
  }

  /** The document `$setOnInsert` creates: `first_seen` and `last_seen`
      both `t`, empty services and labels, no ASN, location or `ip_int`. */
  function NewHost<M>(id: string, ip: string, t: Time): Host<M> {
    Host(id, ip, 0, None, None, t, t, [], Some([]))
  }

  /** Adds a document with a fresh `_id` and a fresh IP. */
  function Insert<M>(s: seq<Host<M>>, h: Host<M>): (r: seq<Host<M>>)
    requires Valid(s)
    requires h.id != ""
    requires forall i :: 0 <= i < |s| ==> s[i].id != h.id && s[i].ip != h.ip
    ensures Valid(r) && |r| == |s| + 1
    ensures forall ip :: Lookup(r, ip) == if ip == h.ip then Some(h) else Lookup(s, ip)
  {
    var k := InsertPos(s, h.id);
    InsertSorted(s, h, k);
    InsertLookup(s, h, k);
    s[..k] + [h] + s[k..]
  }

  lemma InsertSorted<M>(s: seq<Host<M>>, h: Host<M>, k: nat)
    requires Valid(s) && k <= |s| && h.id != ""
    requires forall i :: 0 <= i < |s| ==> s[i].ip != h.ip
    requires forall i :: 0 <= i < k ==> Less(s[i].id, h.id)
    requires forall i :: k <= i < |s| ==> Less(h.id, s[i].id)
    ensures Valid(s[..k] + [h] + s[k..])
  {
    var r := s[..k] + [h] + s[k..];
    assert forall i :: 0 <= i < |r| ==> r[i] == if i < k then s[i] else if i == k then h else s[i - 1];
    forall i, j | 0 <= i < j < |r| ensures Less(r[i].id, r[j].id) {
      if i < k && j > k { LessTransitive(r[i].id, h.id, r[j].id); }
    }
  }

  lemma InsertLookup<M>(s: seq<Host<M>>, h: Host<M>, k: nat)
    requires UniqueIps(s) && k <= |s|
    requires UniqueIps(s[..k] + [h] + s[k..])
    ensures forall ip :: Lookup(s[..k] + [h] + s[k..], ip) == if ip == h.ip then Some(h) else Lookup(s, ip)
  {
    var r := s[..k] + [h] + s[k..];
    assert forall i :: 0 <= i < |r| ==> r[i] == if i < k then s[i] else if i == k then h else s[i - 1];
    forall ip ensures Lookup(r, ip) == if ip == h.ip then Some(h) else Lookup(s, ip) {
      if ip == h.ip {
        LookupAt(r, k);
      } else if Lookup(s, ip).Some? {
        var j := Find(s, ip).value;
        if j < k { LookupAt(r, j); } else { LookupAt(r, j + 1); }
        LookupAt(s, j);
      }
    }
  }

  /** `EnsureHost`: an upsert on `ip`. An existing document only gets
      `last_seen`; a missing one is created with `newId` as its `_id`. */
  function EnsureHost<M>(s: seq<Host<M>>, ip: string, now: Time, clock: Time, newId: string): (r: seq<Host<M>>)
    requires Valid(s)
    requires newId != "" && forall i :: 0 <= i < |s| ==> s[i].id != newId
    ensures Valid(r)
    ensures |r| == if Lookup(s, ip).Some? then |s| else |s| + 1
    ensures Lookup(s, ip).Some? ==> Lookup(r, ip) == Some(Lookup(s, ip).value.(lastSeen := Effective(now, clock)))
    ensures Lookup(s, ip).None? ==> Lookup(r, ip) == Some(NewHost(newId, ip, Effective(now, clock)))
    ensures forall other :: other != ip ==> Lookup(r, other) == Lookup(s, other)
  {
    var t := Effective(now, clock);
    match Find(s, ip)
    case Some(i) =>
      LookupAt(s, i);
      forall other ensures Lookup(s[i := s[i].(lastSeen := t)], other) ==
        if other == ip then Some(s[i].(lastSeen := t)) else Lookup(s, other) {
        LookupAfterReplace(s, i, s[i].(lastSeen := t), other);
      }
      s[i := s[i].(lastSeen := t)]
    case None =>
      Insert(s, NewHost(newId, ip, t))
  }

  /** Ensuring a host twice is ensuring it once with the later time: the
      second call creates nothing and touches only `last_seen`. */
  lemma EnsureHostIdempotent<M>(s: seq<Host<M>>, ip: string, t1: Time, t2: Time, clock: Time, id1: string, id2: string)
    requires Valid(s)
    requires forall i :: 0 <= i < |s| ==> s[i].id != id1 && s[i].id != id2
    requires id1 != id2 && id1 != "" && id2 != ""
    ensures var once := EnsureHost(s, ip, t1, clock, id1);
      forall i :: 0 <= i < |once| ==> once[i].id != id2
    ensures var once := EnsureHost(s, ip, t1, clock, id1);
      var twice := EnsureHost(once, ip, t2, clock, id2);
      && |twice| == |once|
      && Lookup(twice, ip) == Some(Lookup(once, ip).value.(lastSeen := Effective(t2, clock)))
      && forall other :: other != ip ==> Lookup(twice, other) == Lookup(once, other)
  {
    var once := EnsureHost(s, ip, t1, clock, id1);
    assert forall i :: 0 <= i < |once| ==> once[i].id != id2 by {
      match Find(s, ip)
      case Some(_) =>
      case None =>
        var k := InsertPos(s, id1);
        assert once == s[..k] + [NewHost(id1, ip, Effective(t1, clock))] + s[k..];
        forall i | 0 <= i < |once| ensures once[i].id != id2 {
          if i < k { assert once[i] == s[i]; }
          else if i > k { assert once[i] == s[i - 1]; }
        }
    }
  }

  /** The `$set` of `UpdateHost` applied to the stored document:
      `last_seen` always, ASN, location and labels when non-nil, `ip_int`
      when non-zero. */
  function ApplyUpdate<M>(stored: Host<M>, host: Host<M>, clock: Time): (r: Host<M>)
    ensures r.id == stored.id && r.ip == stored.ip && r.firstSeen == stored.firstSeen
    ensures r.services == stored.services
    ensures r.lastSeen == clock
    ensures r.asn == if host.asn.Some? then host.asn else stored.asn
    ensures r.location == if host.location.Some? then host.location else stored.location
    ensures r.labels == if host.labels.Some? then host.labels else stored.labels
    ensures r.ipInt == if host.ipInt != 0 then host.ipInt else stored.ipInt
  {
    stored.(lastSeen := clock,
         asn := if host.asn.Some? then host.asn else stored.asn,
         location := if host.location.Some? then host.location else stored.location,
         labels := if host.labels.Some? then host.labels else stored.labels,
         ipInt := if host.ipInt != 0 then host.ipInt else stored.ipInt)
  }

  /** `UpdateHost`: an update without upsert on `host.ip`; `clock` is the
      `time.Now()` it always writes to `last_seen`. */
  function UpdateHost<M>(s: seq<Host<M>>, host: Host<M>, clock: Time): (r: seq<Host<M>>)
    requires Valid(s)
    ensures Valid(r) && |r| == |s|
    ensures Lookup(s, host.ip).None? ==> r == s
    ensures Lookup(s, host.ip).Some? ==>
      Lookup(r, host.ip) == Some(ApplyUpdate(Lookup(s, host.ip).value, host, clock))
    ensures forall other :: other != host.ip ==> Lookup(r, other) == Lookup(s, other)
  {
    match Find(s, host.ip)
    case None => s
    case Some(i) =>
      var h := ApplyUpdate(s[i], host, clock);
      LookupAt(s, i);
      forall other ensures Lookup(s[i := h], other) == if other == host.ip then Some(h) else Lookup(s, other) {
        LookupAfterReplace(s, i, h, other);
      }
      assert Valid(s[i := h]) by {
        assert forall j :: 0 <= j < |s| ==> s[i := h][j].id == s[j].id;
      }
      s[i := h]
  }

  /** The first position of a service on `port`. */
  function PortIndex<M>(services: seq<Service<M>>, port: int): (r: Option<nat>)
    ensures r.Some? ==> r.value < |services| && services[r.value].port == port
    ensures r.Some? ==> forall j :: 0 <= j < r.value ==> services[j].port != port
    ensures r.None? <==> forall j :: 0 <= j < |services| ==> services[j].port != port
  {
    if |services| == 0 then None
    else if services[0].port == port then Some(0)
    else match PortIndex(services[1..], port)
      case None => None
      case Some(k) => Some(k + 1)
  }

  /** `services.$` after `$elemMatch: {port}`, else `$push`: the first
      service on the same port is replaced in place, otherwise `svc` is
      appended. */
  function ReplaceOrAppend<M>(services: seq<Service<M>>, svc: Service<M>): (r: seq<Service<M>>)
    ensures PortIndex(services, svc.port).Some? ==>
      var j := PortIndex(services, svc.port).value;
      r == services[..j] + [svc] + services[j + 1..]
    ensures PortIndex(services, svc.port).None? ==> r == services + [svc]
  {
    match PortIndex(services, svc.port)
    case Some(j) => services[j := svc]
    case None => services + [svc]
  }

  /** After the upsert `svc` is the service on its port, and the set of
      ports grew by at most that one port. */
  lemma ReplaceOrAppendPorts<M>(services: seq<Service<M>>, svc: Service<M>)
    ensures var r := ReplaceOrAppend(services, svc);
      && PortIndex(r, svc.port).Some?
      && r[PortIndex(r, svc.port).value] == svc
      && |r| == (if PortIndex(services, svc.port).Some? then |services| else |services| + 1)
      && (forall j :: 0 <= j < |r| ==> r[j] == svc || r[j] in services)
  {
    var r := ReplaceOrAppend(services, svc);
    match PortIndex(services, svc.port)
    case Some(j) =>
      assert r[j] == svc;
      assert forall i :: 0 <= i < j ==> r[i] == services[i];
    case None =>
      assert r[|services|] == svc;
      assert forall i :: 0 <= i < |services| ==> r[i] == services[i];
  }

  /** Upserting the same service twice is upserting it once. */
  lemma ReplaceOrAppendIdempotent<M>(services: seq<Service<M>>, svc: Service<M>)
    ensures ReplaceOrAppend(ReplaceOrAppend(services, svc), svc) == ReplaceOrAppend(services, svc)
  {
    var r := ReplaceOrAppend(services, svc);
    ReplaceOrAppendPorts(services, svc);
    var j := PortIndex(r, svc.port).value;
    assert r[j := svc] == r;
  }

  /** `UpsertService`: `last_seen` becomes the scan time (or `clock` when it
      is zero). A missing host is left missing: neither update upserts. */
  function UpsertService<M>(s: seq<Host<M>>, svc: Service<M>, clock: Time): (r: seq<Host<M>>)
    requires Valid(s)
    ensures Valid(r) && |r| == |s|
    ensures Lookup(s, svc.ip).None? ==> r == s
    ensures Lookup(s, svc.ip).Some? ==>
      var stored := Lookup(s, svc.ip).value;
      Lookup(r, svc.ip) == Some(stored.(services := ReplaceOrAppend(stored.services, svc),
                                     lastSeen := Effective(svc.lastScan, clock)))
    ensures forall other :: other != svc.ip ==> Lookup(r, other) == Lookup(s, other)
  {
    match Find(s, svc.ip)
    case None => s
    case Some(i) =>
      var h := s[i].(services := ReplaceOrAppend(s[i].services, svc), lastSeen := Effective(svc.lastScan, clock));
      LookupAt(s, i);
      ReplaceInPlace(s, i, h);
      s[i := h]
  }

  /** Replacing a document by one with the same `_id` and IP keeps the
      collection valid and changes only that IP's lookup. */
  lemma ReplaceInPlace<M>(s: seq<Host<M>>, i: nat, h: Host<M>)
    requires Valid(s) && i < |s| && h.ip == s[i].ip && h.id == s[i].id
    ensures Valid(s[i := h])
    ensures forall other :: Lookup(s[i := h], other) == if other == h.ip then Some(h) else Lookup(s, other)
  {
    forall other ensures Lookup(s[i := h], other) == if other == h.ip then Some(h) else Lookup(s, other) {
      LookupAfterReplace(s, i, h, other);
    }
    assert forall j :: 0 <= j < |s| ==> s[i := h][j].id == s[j].id;
  }

  /** `UpsertService` as the interface documents it: the host is created
      when it does not exist, so the service is never dropped. The
      ingestion pipeline gets the same effect by ensuring the host first. */
  function UpsertServiceCreating<M>(s: seq<Host<M>>, svc: Service<M>, clock: Time, newId: string): (r: seq<Host<M>>)
    requires Valid(s)
    requires newId != "" && forall i :: 0 <= i < |s| ==> s[i].id != newId
    ensures Valid(r)
    ensures |r| == if Lookup(s, svc.ip).Some? then |s| else |s| + 1
    ensures Lookup(r, svc.ip).Some?
    ensures svc in Lookup(r, svc.ip).value.services
    ensures Lookup(r, svc.ip).value.lastSeen == Effective(svc.lastScan, clock)
    ensures Lookup(s, svc.ip).Some? ==> r == UpsertService(s, svc, clock)
    ensures forall other :: other != svc.ip ==> Lookup(r, other) == Lookup(s, other)
  {
    var ensured := EnsureHost(s, svc.ip, svc.lastScan, clock, newId);
    var r := UpsertService(ensured, svc, clock);
    var stored := Lookup(ensured, svc.ip).value;
    ReplaceOrAppendHolds(stored.services, svc);
    r
  }

  /** After the upsert the host holds `svc` itself. */
  lemma ReplaceOrAppendHolds<M>(services: seq<Service<M>>, svc: Service<M>)
    ensures svc in ReplaceOrAppend(services, svc)
  {
    var r := ReplaceOrAppend(services, svc);
    match PortIndex(services, svc.port)
    case Some(j) => assert r[j] == svc;
    case None => assert r[|r| - 1] == svc;
  }

  /** `GetByIP`; `None` is a nil repository or collection, and `fault` is
      an error of `FindOne` or `Decode` other than "no documents". */
  function GetByIP<M>(repo: Option<seq<Host<M>>>, ip: string, fault: Option<string>): (r: Result<Host<M>, string>)
    ensures repo.None? ==> r == Err("mongodb: hosts repository is nil")
    ensures repo.Some? && fault.Some? ==> r == Err("mongodb: failed to fetch host: " + fault.value)
    ensures repo.Some? && fault.None? ==> (r.Ok? <==> Lookup(repo.value, ip).Some?)
    ensures r.Ok? ==> r.value == Lookup(repo.value, ip).value
    ensures repo.Some? && fault.None? && r.Err? ==> r.error == "host not found: " + ip
  {
    match repo
    case None => Err("mongodb: hosts repository is nil")
    case Some(docs) =>
      if fault.Some? then Err("mongodb: failed to fetch host: " + fault.value)
      else
        match Lookup(docs, ip)
        case None => Err("host not found: " + ip)
        case Some(h) => Ok(h)
  }

  /** The `$gt: lastID` stage; an empty `lastID` adds no stage. */
  predicate After<M>(lastId: string, h: Host<M>) {
    lastId == "" || Less(lastId, h.id)
  }

  /** The documents the pipeline keeps before `$limit`, in `_id` order:
      those `matches` (the `$match` of the filter) accepts, past `lastId`. */
  function Candidates<M>(s: seq<Host<M>>, matches: Host<M> -> bool, lastId: string): (r: seq<Host<M>>)
    ensures |r| <= |s|
    ensures forall i :: 0 <= i < |r| ==> r[i] in s && matches(r[i]) && After(lastId, r[i])
    ensures forall i :: 0 <= i < |s| && matches(s[i]) && After(lastId, s[i]) ==> s[i] in r
  {
    Filter(s, (h: Host<M>) => matches(h) && After(lastId, h))
  }

  /** The candidates of a non-empty collection: its first document if it
      qualifies, then those of the rest. */
  lemma CandidatesCons<M>(s: seq<Host<M>>, matches: Host<M> -> bool, lastId: string)
    requires |s| > 0
    ensures Candidates(s, matches, lastId)
         == if matches(s[0]) && After(lastId, s[0]) then [s[0]] + Candidates(s[1..], matches, lastId)
            else Candidates(s[1..], matches, lastId)
  {
  }

  lemma CandidatesSorted<M>(s: seq<Host<M>>, matches: Host<M> -> bool, lastId: string)
    requires Sorted(s)
    ensures Sorted(Candidates(s, matches, lastId))
  {
    var lt := (a: Host<M>, b: Host<M>) => Less(a.id, b.id);
    assert forall i, j :: 0 <= i < j < |s| ==> lt(s[i], s[j]);
    FilterOrdered(s, (h: Host<M>) => matches(h) && After(lastId, h), lt);
  }

  /** Two cursors that no document of `s` tells apart select the same
      documents. */
  lemma CandidatesAgree<M>(s: seq<Host<M>>, matches: Host<M> -> bool, a: string, b: string)
    requires forall i :: 0 <= i < |s| ==> (After(a, s[i]) <==> After(b, s[i]))
    ensures Candidates(s, matches, a) == Candidates(s, matches, b)
  {
    FilterAgree(s, (h: Host<M>) => matches(h) && After(a, h), (h: Host<M>) => matches(h) && After(b, h));
  }

  /** Resuming after the `k`-th candidate yields exactly the candidates that
      follow it. */
  lemma {:induction false} CandidatesResume<M>(s: seq<Host<M>>, matches: Host<M> -> bool, lastId: string, k: nat)
    requires Valid(s)
    requires k < |Candidates(s, matches, lastId)|
    ensures Candidates(s, matches, Candidates(s, matches, lastId)[k].id) == Candidates(s, matches, lastId)[k + 1..]
    decreases |s|
  {
    var c := Candidates(s, matches, lastId);
    var tail := Candidates(s[1..], matches, lastId);
    var taken := matches(s[0]) && After(lastId, s[0]);
    CandidatesCons(s, matches, lastId);
    if taken && k == 0 {
      ResumeAtHead(s, matches, lastId);
      assert c[k] == s[0] && c[k + 1..] == tail;
    } else {
      var k' := if taken then k - 1 else k;
      if taken { ConsIndex(s[0], tail, k); }
      var h := tail[k'];
      assert c[k] == h && c[k + 1..] == tail[k' + 1..];
      ValidTail(s);
      SkipHead(s, matches, h);
      CandidatesResume(s[1..], matches, lastId, k');
      assert Candidates(s, matches, h.id) == tail[k' + 1..];
    }
  }

  lemma ConsIndex<T>(x: T, t: seq<T>, k: nat)
    requires 0 < k <= |t|
    ensures ([x] + t)[k] == t[k - 1] && ([x] + t)[k + 1..] == t[k..]
  {
  }

  lemma ValidTail<M>(s: seq<Host<M>>)
    requires Valid(s) && |s| > 0
    ensures Valid(s[1..])
  {
  }

  lemma ResumeAtHead<M>(s: seq<Host<M>>, matches: Host<M> -> bool, lastId: string)
    requires Valid(s) && |s| > 0 && matches(s[0]) && After(lastId, s[0])
    ensures Candidates(s, matches, s[0].id) == Candidates(s[1..], matches, lastId)
  {
    var x := s[0].id;
    LessIrreflexive(x);
    forall i | 0 <= i < |s[1..]| ensures After(x, s[1..][i]) <==> After(lastId, s[1..][i]) {
      assert Less(x, s[i + 1].id);
      if lastId != "" { LessTransitive(lastId, x, s[i + 1].id); }
    }
    CandidatesAgree(s[1..], matches, x, lastId);
  }

  /** A cursor taken from a later document does not select the first. */
  lemma SkipHead<M>(s: seq<Host<M>>, matches: Host<M> -> bool, h: Host<M>)
    requires Valid(s) && |s| > 0 && h in s[1..]
    ensures Candidates(s, matches, h.id) == Candidates(s[1..], matches, h.id)
  {
    var j :| 0 <= j < |s[1..]| && s[1..][j] == h;
    assert Less(s[0].id, s[j + 1].id);
    LessAsymmetric(s[0].id, h.id);
    CandidatesCons(s, matches, h.id);
  }

  lemma LessAsymmetric(a: string, b: string)
    requires Less(a, b)
    ensures !Less(b, a)
  {
    if Less(b, a) {
      LessTransitive(a, b, a);
      LessIrreflexive(a);
    }
  }

  /** `Search` (hosts.go): the `$limit: limit + 1` stage fetches one extra
      document to tell whether another page exists. `limit` is at least 1:
      the HTTP handler only passes clamped page sizes, and with 0 the code
      would index `hosts[-1]`. */
  function Search<M>(repo: Option<seq<Host<M>>>, matches: Host<M> -> bool, lastId: string, limit: int,
                     outcome: Outcome):
    (r: Result<(seq<Host<M>>, string), string>)
    requires limit >= 1
    requires repo.Some? ==> Valid(repo.value)
    ensures repo.None? <==> r == Err("mongodb: hosts repository is nil")
    ensures repo.Some? && outcome.AggregateFailed? ==>
      r == Err("mongodb: search aggregation failed: " + outcome.e)
    ensures repo.Some? && outcome.DecodeFailed? ==>
      r == Err("mongodb: failed to decode results: " + outcome.e)
    ensures r.Ok? <==> repo.Some? && outcome.Done?
    ensures r.Ok? ==>
      var (hosts, nextId) := r.value;
      var c := Candidates(repo.value, matches, lastId);
      && |hosts| <= limit && |hosts| <= |c|
      && Sorted(hosts)
      && hosts == c[..|hosts|]
      && (nextId != "" <==> |c| > limit)
      && (nextId != "" ==> |hosts| == limit && nextId == hosts[limit - 1].id)
      && (nextId == "" ==> hosts == c)
  {
    match repo
    case None => Err("mongodb: hosts repository is nil")
    case Some(docs) =>
      if outcome.AggregateFailed? then Err("mongodb: search aggregation failed: " + outcome.e)
      else if outcome.DecodeFailed? then Err("mongodb: failed to decode results: " + outcome.e)
      else
        var c := Candidates(docs, matches, lastId);
        CandidatesSorted(docs, matches, lastId);
        var fetched := if |c| <= limit + 1 then c else c[..limit + 1];
        if |fetched| > limit then
          assert c[limit - 1].id != "" by { assert c[limit - 1] in docs; }
          Ok((fetched[..limit], fetched[limit - 1].id))
        else Ok((fetched, ""))
  }

  /** Paging by `next_page_token` neither skips nor repeats a host: a page
      followed by the candidates after its cursor is the whole candidate
      list. */
  lemma SearchPagesPartition<M>(docs: seq<Host<M>>, matches: Host<M> -> bool, lastId: string, limit: int)
    requires limit >= 1 && Valid(docs)
    requires Search(Some(docs), matches, lastId, limit, Done).value.1 != ""
    ensures var (hosts, nextId) := Search(Some(docs), matches, lastId, limit, Done).value;
      Candidates(docs, matches, lastId) == hosts + Candidates(docs, matches, nextId)
  {
    SearchFullPage(docs, matches, lastId, limit);
    ResumeSplits(docs, matches, lastId, limit);
  }

  /** The first `limit` candidates, then those after the last of them. */
  lemma ResumeSplits<M>(s: seq<Host<M>>, matches: Host<M> -> bool, lastId: string, limit: nat)
    requires Valid(s) && 1 <= limit < |Candidates(s, matches, lastId)|
    ensures var c := Candidates(s, matches, lastId);
      c == c[..limit] + Candidates(s, matches, c[limit - 1].id)
  {
    var c := Candidates(s, matches, lastId);
    CandidatesResume(s, matches, lastId, limit - 1);
    assert Candidates(s, matches, c[limit - 1].id) == c[limit..];
    SplitAt(c, limit);
  }

  lemma SplitAt<T>(s: seq<T>, n: nat)
    requires n <= |s|
    ensures s == s[..n] + s[n..]
  {
  }

  lemma SearchFullPage<M>(docs: seq<Host<M>>, matches: Host<M> -> bool, lastId: string, limit: int)
    requires limit >= 1 && Valid(docs)
    requires Search(Some(docs), matches, lastId, limit, Done).value.1 != ""
    ensures var c := Candidates(docs, matches, lastId);
      var r := Search(Some(docs), matches, lastId, limit, Done).value;
      |c| > limit && r.0 == c[..limit] && r.1 == c[limit - 1].id
  {
  }

  /** The next page continues where the previous one stopped: with the
      returned cursor, the repository's next answer starts right after it. */
  lemma NextPageFollows<M>(docs: seq<Host<M>>, matches: Host<M> -> bool, lastId: string, limit: int)
    requires limit >= 1 && Valid(docs)
    requires Search(Some(docs), matches, lastId, limit, Done).value.1 != ""
    ensures var (hosts, nextId) := Search(Some(docs), matches, lastId, limit, Done).value;
      var (more, _) := Search(Some(docs), matches, nextId, limit, Done).value;
      forall i, j :: 0 <= i < |hosts| && 0 <= j < |more| ==> Less(hosts[i].id, more[j].id)
  {
    var (hosts, nextId) := Search(Some(docs), matches, lastId, limit, Done).value;
    var more := Search(Some(docs), matches, nextId, limit, Done).value.0;
    forall i, j | 0 <= i < |hosts| && 0 <= j < |more| ensures Less(hosts[i].id, more[j].id) {
      assert After(nextId, more[j]);
      if i < limit - 1 {
        LessTransitive(hosts[i].id, nextId, more[j].id);
      }
    }
  }

  /** `Search` as the repository runs it against the ids its own upsert
      creates. `_id` is an ObjectId, while the cursor is compared as the
      string `lastID`; MongoDB orders values of different BSON types by
      type before value, so `{_id: {$gt: lastID}}` lets no document
      through and every page after the first comes back empty. */
  function SearchAsWritten<M>(repo: Option<seq<Host<M>>>, matches: Host<M> -> bool, lastId: string, limit: int,
                              outcome: Outcome):
    (r: Result<(seq<Host<M>>, string), string>)
    requires limit >= 1
    requires repo.Some? ==> Valid(repo.value)
    ensures r.Ok? <==> repo.Some? && outcome.Done?
    ensures r.Ok? && lastId != "" ==> r.value == ([], "")
    ensures lastId == "" ==> r == Search(repo, matches, "", limit, outcome)
  {
    match repo
    case None => Err("mongodb: hosts repository is nil")
    case Some(docs) =>
      if outcome.AggregateFailed? then Err("mongodb: search aggregation failed: " + outcome.e)
      else if outcome.DecodeFailed? then Err("mongodb: failed to decode results: " + outcome.e)
      else if lastId != "" then Ok(([], ""))
      else Search(repo, matches, lastId, limit, outcome)
  }

  /** With more matching hosts than fit on one page, the first page hands
      out a cursor; as written the page it leads to is empty although hosts
      remain, which the string-ordered `Search` returns. */
  lemma LaterPagesLost<M>(docs: seq<Host<M>>, matches: Host<M> -> bool, limit: int)
    requires limit >= 1 && Valid(docs) && |Candidates(docs, matches, "")| > limit
    ensures var (first, nextId) := SearchAsWritten(Some(docs), matches, "", limit, Done).value;
      && nextId != ""
      && |first| == limit
      && SearchAsWritten(Some(docs), matches, nextId, limit, Done) == Ok(([], ""))
      && |Candidates(docs, matches, nextId)| > 0
      && |Search(Some(docs), matches, nextId, limit, Done).value.0| > 0
  {
    var (first, nextId) := Search(Some(docs), matches, "", limit, Done).value;
    SearchPagesPartition(docs, matches, "", limit);
  }

  /** The protocol of every service of every host, host by host: what
      `$unwind: "$services"` then grouping by `services.protocol` counts. */
  function ProtocolKeys<M>(hosts: seq<Host<M>>): seq<string> {
    if |hosts| == 0 then []
    else ServiceProtocols(hosts[0].services) + ProtocolKeys(hosts[1..])
  }

  function ServiceProtocols<M>(services: seq<Service<M>>): (r: seq<string>)
    ensures |r| == |services|
    ensures forall j :: 0 <= j < |r| ==> r[j] == services[j].protocol
  {
    if |services| == 0 then [] else [services[0].protocol] + ServiceProtocols(services[1..])
  }

  /** `asn.country` of the hosts that have an ASN record. */
  function CountryKeys<M>(hosts: seq<Host<M>>): seq<string> {
    if |hosts| == 0 then []
    else (if hosts[0].asn.Some? then [hosts[0].asn.value.country] else []) + CountryKeys(hosts[1..])
  }

  /** `fmt.Sprintf("%v-%v", number, organization)`. */
  function AsnKey(a: AsnInfo): string {
    NatToString(a.number) + "-" + a.organization
  }

  function AsnKeys<M>(hosts: seq<Host<M>>): seq<string> {
    if |hosts| == 0 then []
    else (if hosts[0].asn.Some? then [AsnKey(hosts[0].asn.value)] else []) + AsnKeys(hosts[1..])
  }

  /** `Facets` (hosts.go): the three `$facet` branches over the matching
      documents. The `$facet` stage always yields one result document, so
      the `len(results) == 0` branch is not reachable here. A group whose
      count is not a BSON int32 (it exceeds `MaxInt32`) is skipped by the
      `.(int32)` assertions. */
  function Facets<M>(repo: Option<seq<Host<M>>>, matches: Host<M> -> bool, outcome: Outcome):
    (r: Result<FacetCounts, string>)
    ensures repo.None? <==> r == Err("mongodb: hosts repository is nil")
    ensures repo.Some? && outcome.AggregateFailed? ==>
      r == Err("mongodb: facet aggregation failed: " + outcome.e)
    ensures repo.Some? && outcome.DecodeFailed? ==>
      r == Err("mongodb: failed to decode facet results: " + outcome.e)
    ensures r.Ok? <==> repo.Some? && outcome.Done?
    ensures r.Ok? ==>
      var hs := Candidates(repo.value, matches, "");
      && (forall p :: p in r.value.services <==> p in ProtocolKeys(hs) && multiset(ProtocolKeys(hs))[p] <= MaxInt32)
      && (forall p | p in r.value.services :: r.value.services[p] == multiset(ProtocolKeys(hs))[p])
      && (forall c :: c in r.value.countries <==> c in CountryKeys(hs) && multiset(CountryKeys(hs))[c] <= MaxInt32)
      && (forall c | c in r.value.countries :: r.value.countries[c] == multiset(CountryKeys(hs))[c])
      && (forall k :: k in r.value.asns <==> k in AsnKeys(hs) && multiset(AsnKeys(hs))[k] <= MaxInt32)
      && (forall k | k in r.value.asns :: r.value.asns[k] == multiset(AsnKeys(hs))[k])
  {
    match repo
    case None => Err("mongodb: hosts repository is nil")
    case Some(docs) =>
      match outcome
      case AggregateFailed(e) => Err("mongodb: facet aggregation failed: " + e)
      case DecodeFailed(e) => Err("mongodb: failed to decode facet results: " + e)
      case Done =>
        var hs := Candidates(docs, matches, "");
        Ok(FacetCounts(Int32Counts(Tally(ProtocolKeys(hs))), Int32Counts(Tally(CountryKeys(hs))),
                       Int32Counts(Tally(AsnKeys(hs)))))
  }

  /** The groups whose count the `.(int32)` assertion accepts. */
  function Int32Counts(m: map<string, int>): (r: map<string, int>)
    ensures forall k :: k in r <==> k in m && m[k] <= MaxInt32
    ensures forall k | k in r :: r[k] == m[k]
  {
    map k | k in m && m[k] <= MaxInt32 :: m[k]
  }

  /** Each service entry of a host adds one to its protocol's count: the
      keys of a list of hosts are the keys of its parts. */
  lemma {:induction false} ProtocolKeysAppend<M>(a: seq<Host<M>>, b: seq<Host<M>>)
    ensures multiset(ProtocolKeys(a + b)) == multiset(ProtocolKeys(a)) + multiset(ProtocolKeys(b))
    decreases |a|
  {
    if |a| == 0 {
      assert a + b == b;
    } else {
      assert (a + b)[1..] == a[1..] + b;
      ProtocolKeysAppend(a[1..], b);
    }
  }

  /** A matching host with `n` services of protocol `p` adds `n` to the
      count of `p`. */
  lemma ServiceCountOfOneMore<M>(hosts: seq<Host<M>>, h: Host<M>, p: string)
    ensures multiset(ProtocolKeys(hosts + [h]))[p] ==
      multiset(ProtocolKeys(hosts))[p] + multiset(ServiceProtocols(h.services))[p]
  {
    ProtocolKeysAppend(hosts, [h]);
    assert ProtocolKeys([h]) == ServiceProtocols(h.services) + ProtocolKeys([h][1..]);
    assert ProtocolKeys([h][1..]) == [];
    assert ServiceProtocols(h.services) + [] == ServiceProtocols(h.services);
  }

  /** With no matching host every map is empty. */
  lemma FacetsOfNothing<M>(docs: seq<Host<M>>, matches: Host<M> -> bool)
    requires forall i :: 0 <= i < |docs| ==> !matches(docs[i])
    ensures Facets(Some(docs), matches, Done) == Ok(EmptyCounts)
  {
  }

  /** Different (number, organization) pairs give different ASN keys: the
      number's digits end at the first '-'. */
  lemma AsnKeyInjective(a: AsnInfo, b: AsnInfo)
    requires AsnKey(a) == AsnKey(b)
    ensures a.number == b.number && a.organization == b.organization
  {
    var na, nb := NatToString(a.number), NatToString(b.number);
    var k := AsnKey(a);
    assert forall j :: 0 <= j < |na| ==> k[j] == na[j] && IsDigit(k[j]);
    assert forall j :: 0 <= j < |nb| ==> k[j] == nb[j] && IsDigit(k[j]);
    assert k[|na|] == '-' && k[|nb|] == '-';
    assert |na| == |nb|;
    assert na == k[..|na|] && nb == k[..|nb|];
    NatToStringInjective(a.number, b.number);
    assert a.organization == k[|na| + 1..];
  }
}

=== FILE: hosts.dfy ===
/** The host record the persistence pipeline maintains
    (`rigour/pkg/types/host.go`). Floating-point values are kept opaque. */
module Hosts {
  import opened Wrappers
  import ServiceRecord

  /** A Go `float64`, kept as its IEEE 754 bit pattern: the model only moves
      such values around and never computes with them. */
  datatype Float64 = Float64(bits: bv64)

  type uint32 = n: int | 0 <= n < 0x1_0000_0000

  /** `types.ASNInfo`. */
  datatype AsnInfo = AsnInfo(
    number: uint32,
    organization: string,
    country: string,
    isSatelliteProvider: bool)

  /** `types.Location`: `coordinates` is the pair (longitude, latitude). */
  datatype Location = Location(coordinates: (Float64, Float64), city: string, timezone: string)

  /** `types.Host`. A nil `ASN`, `Location` or `Labels` is `None`; a missing
      `ip_int` reads back as 0. */
  datatype Host<M> = Host(
    id: string,
    ip: string,
    ipInt: nat,
    asn: Option<AsnInfo>,
    location: Option<Location>,
    firstSeen: ServiceRecord.Time,
    lastSeen: ServiceRecord.Time,
    services: seq<ServiceRecord.Service<M>>,
    labels: Option<seq<string>>)
}

=== FILE: json.dfy ===
/** The string form `JSON.stringify` gives a JavaScript string (section
    25.5.2.3 QuoteJSONString of ECMAScript 2023), and a decoder for JSON
    string bodies that undoes it. Dafny's `char` is a Unicode scalar value,
    so the lone-surrogate case of QuoteJSONString cannot arise. */
module Json {
  import opened Wrappers

  const HexDigits: string := "0123456789abcdef"

  function HexDigit(n: nat): (r: char)
    requires n < 16
  {
    HexDigits[n]
  }

  /** The value of a lower- or upper-case hex digit. */
  function HexValue(c: char): (r: Option<nat>)
    ensures r.Some? ==> r.value < 16
  {
    if '0' <= c <= '9' then Some(c as int - '0' as int)
    else if 'a' <= c <= 'f' then Some(c as int - 'a' as int + 10)
    else if 'A' <= c <= 'F' then Some(c as int - 'A' as int + 10)
    else None
  }

  lemma HexValueOfDigit(n: nat)
    requires n < 16
    ensures HexValue(HexDigit(n)) == Some(n)
  {
  }

  /** The escape QuoteJSONString writes for one code point. */
  function Escape(c: char): (r: string)
    ensures |r| >= 1
    ensures c != '"' && c != '\\' && c >= ' ' ==> r == [c]
  {
    if c == '\U{8}' then "\\b"
    else if c == '\t' then "\\t"
    else if c == '\n' then "\\n"
    else if c == '\U{C}' then "\\f"
    else if c == '\r' then "\\r"
    else if c == '"' then "\\\""
    else if c == '\\' then "\\\\"
    else if c < ' ' then "\\u00" + [HexDigit((c as int) / 16), HexDigit((c as int) % 16)]
    else [c]
  }

  function EscapeAll(s: string): (r: string)
    ensures |r| >= |s|
  {
    if |s| == 0 then "" else Escape(s[0]) + EscapeAll(s[1..])
  }

  /** `JSON.stringify` of a string. */
  function Quote(s: string): (r: string)
    ensures |r| >= 2 && r[0] == '"' && r[|r| - 1] == '"'
  {
    "\"" + EscapeAll(s) + "\""
  }

  /** `JSON.stringify` of an object whose members are `(key, value)` with
      `value` already in JSON form, in the object's key order. */
  function StringifyObject(members: seq<(string, string)>): (r: string)
    ensures |r| >= 2 && r[0] == '{' && r[|r| - 1] == '}'
  {
    "{" + Members(members) + "}"
  }

  function Members(members: seq<(string, string)>): string {
    if |members| == 0 then ""
    else if |members| == 1 then Quote(members[0].0) + ":" + members[0].1
    else Quote(members[0].0) + ":" + members[0].1 + "," + Members(members[1..])
  }

  /** `JSON.stringify({[key]: value})` for string key and value. */
  function SingleEntryObject(key: string, value: string): (r: string)
    ensures r == "{" + Quote(key) + ":" + Quote(value) + "}"
  {
    StringifyObject([(key, Quote(value))])
  }

  /** `JSON.stringify` of an array of strings. */
  function StringifyArray(items: seq<string>): (r: string)
    ensures |r| >= 2 && r[0] == '[' && r[|r| - 1] == ']'
  {
    "[" + Elements(items) + "]"
  }

  function Elements(items: seq<string>): string {
    if |items| == 0 then ""
    else if |items| == 1 then Quote(items[0])
    else Quote(items[0]) + "," + Elements(items[1..])
  }

  /** The character of an escape sequence's letter, for the one-letter
      escapes of JSON. */
  function SimpleEscape(c: char): (r: Option<char>) {
    if c == '"' then Some('"')
    else if c == '\\' then Some('\\')
    else if c == '/' then Some('/')
    else if c == 'b' then Some('\U{8}')
    else if c == 'f' then Some('\U{C}')
    else if c == 'n' then Some('\n')
    else if c == 'r' then Some('\r')
    else if c == 't' then Some('\t')
    else None
  }

  /** The code point of four hex digits, when it is a scalar value. */
  function CodeUnit(h: string): (r: Option<char>)
    requires |h| == 4
  {
    var a :- HexValue(h[0]);
    var b :- HexValue(h[1]);
    var c :- HexValue(h[2]);
    var d :- HexValue(h[3]);
    var n := ((a * 16 + b) * 16 + c) * 16 + d;
    if 0xD800 <= n < 0xE000 then None else Some(n as char)
  }

  /** Reads the body of a JSON string whose opening quote is already
      consumed: the decoded text up to the closing quote and what follows
      that quote; `None` for a raw control character, a malformed escape or
      a missing closing quote. */
  function ReadBody(t: string): (r: Option<(string, string)>)
    ensures r.Some? ==> |r.value.1| < |t|
    decreases |t|
  {
    if |t| == 0 then None
    else if t[0] == '"' then Some(("", t[1..]))
    else if t[0] == '\\' then
      if |t| < 2 then None
      else if t[1] == 'u' then
        if |t| < 6 then None
        else
          var c :- CodeUnit(t[2..6]);
          Prepend(c, ReadBody(t[6..]))
      else
        var c :- SimpleEscape(t[1]);
        Prepend(c, ReadBody(t[2..]))
    else if t[0] < ' ' then None
    else Prepend(t[0], ReadBody(t[1..]))
  }

  /** The read text with `c` in front of it. */
  function Prepend(c: char, r: Option<(string, string)>): (p: Option<(string, string)>)
    ensures p.Some? <==> r.Some?
    ensures p.Some? ==> p.value.0 == [c] + r.value.0 && p.value.1 == r.value.1
  {
    if r.Some? then Some(([c] + r.value.0, r.value.1)) else None
  }

  lemma ReadShort(e: char, c: char, rest: string)
    requires e != 'u' && SimpleEscape(e) == Some(c)
    ensures ReadBody(['\\', e] + rest) == Prepend(c, ReadBody(rest))
  {
    assert (['\\', e] + rest)[2..] == rest;
  }

  lemma ReadControl(c: char, rest: string)
    requires c < ' '
    ensures ReadBody("\\u00" + [HexDigit((c as int) / 16), HexDigit((c as int) % 16)] + rest)
            == Prepend(c, ReadBody(rest))
  {
    var n := c as int;
    var t := "\\u00" + [HexDigit(n / 16), HexDigit(n % 16)] + rest;
    HexValueOfDigit(n / 16);
    HexValueOfDigit(n % 16);
    assert t[2..6] == ['0', '0', HexDigit(n / 16), HexDigit(n % 16)];
    assert CodeUnit(t[2..6]) == Some(c);
    assert t[6..] == rest;
  }

  lemma ReadPlain(c: char, rest: string)
    requires c != '"' && c != '\\' && c >= ' '
    ensures ReadBody([c] + rest) == Prepend(c, ReadBody(rest))
  {
    assert ([c] + rest)[1..] == rest;
  }

  /** Reading consumes one escape and continues after it. */
  lemma ReadStep(c: char, rest: string)
    ensures ReadBody(Escape(c) + rest) == Prepend(c, ReadBody(rest))
  {
    if c == '\U{8}' { ReadShort('b', c, rest); }
    else if c == '\t' { ReadShort('t', c, rest); }
    else if c == '\n' { ReadShort('n', c, rest); }
    else if c == '\U{C}' { ReadShort('f', c, rest); }
    else if c == '\r' { ReadShort('r', c, rest); }
    else if c == '"' { ReadShort('"', c, rest); }
    else if c == '\\' { ReadShort('\\', c, rest); }
    else if c < ' ' { ReadControl(c, rest); }
    else { ReadPlain(c, rest); }
  }

  /** Reading an escaped string stops at its closing quote and gives the
      string back, whatever follows. */
  lemma {:induction false} ReadEscaped(s: string, rest: string)
    ensures ReadBody(EscapeAll(s) + "\"" + rest) == Some((s, rest))
    decreases |s|
  {
    if |s| == 0 {
      assert EscapeAll(s) + "\"" + rest == "\"" + rest;
      assert ("\"" + rest)[1..] == rest;
    } else {
      var tail := EscapeAll(s[1..]) + "\"" + rest;
      assert EscapeAll(s) + "\"" + rest == Escape(s[0]) + tail;
      ReadStep(s[0], tail);
      ReadEscaped(s[1..], rest);
      assert s == [s[0]] + s[1..];
    }
  }

  /** A quoted string read from the front of `t`. */
  lemma ReadQuoted(s: string, rest: string)
    ensures var t := Quote(s) + rest;
      |t| > 0 && t[0] == '"' && ReadBody(t[1..]) == Some((s, rest))
  {
    var t := Quote(s) + rest;
    assert t[1..] == EscapeAll(s) + "\"" + rest;
    ReadEscaped(s, rest);
  }

  /** Escaping is injective, so distinct strings stay distinct in JSON. */
  lemma QuoteInjective(a: string, b: string)
    requires Quote(a) == Quote(b)
    ensures a == b
  {
    ReadQuoted(a, "");
    ReadQuoted(b, "");
    assert Quote(a) + "" == Quote(b) + "";
  }

  /** A quoted string at the front of a text is determined by the text:
      the closing quote is the first unescaped one. */
  lemma QuotePrefix(a: string, x: string, b: string, y: string)
    requires Quote(a) + x == Quote(b) + y
    ensures a == b && x == y
  {
    ReadQuoted(a, x);
    ReadQuoted(b, y);
  }

  /** What follows the first element of a non-empty array's elements. */
  function After(items: seq<string>): (r: string)
    requires |items| >= 1
    ensures |r| >= 1 && r[0] == if |items| == 1 then ']' else ','
  {
    if |items| == 1 then "]" else "," + (Elements(items[1..]) + "]")
  }

  lemma ElementsSplit(items: seq<string>)
    requires |items| >= 1
    ensures Elements(items) + "]" == Quote(items[0]) + After(items)
  {
    if |items| > 1 {
      assert Elements(items) == Quote(items[0]) + "," + Elements(items[1..]);
      Regroup(Quote(items[0]), ",", Elements(items[1..]), "]");
    }
  }

  /** The first character tells an empty array from a non-empty one. */
  lemma ElementsHead(items: seq<string>)
    ensures (Elements(items) + "]")[0] == if |items| == 0 then ']' else '"'
  {
    if |items| > 0 {
      ElementsSplit(items);
    }
  }

  lemma {:induction false} ElementsInjective(a: seq<string>, b: seq<string>)
    requires Elements(a) + "]" == Elements(b) + "]"
    ensures a == b
    decreases |a|
  {
    ElementsHead(a);
    ElementsHead(b);
    if |a| > 0 {
      ElementsSplit(a);
      ElementsSplit(b);
      QuotePrefix(a[0], After(a), b[0], After(b));
      if |a| > 1 {
        assert After(a)[1..] == Elements(a[1..]) + "]";
        assert After(b)[1..] == Elements(b[1..]) + "]";
        ElementsInjective(a[1..], b[1..]);
        assert a == [a[0]] + a[1..] && b == [b[0]] + b[1..];
      }
    }
  }

  /** Different string arrays stringify differently. */
  lemma StringifyArrayInjective(a: seq<string>, b: seq<string>)
    ensures StringifyArray(a) == StringifyArray(b) <==> a == b
  {
    if StringifyArray(a) == StringifyArray(b) {
      AfterBracket(a);
      AfterBracket(b);
      ElementsInjective(a, b);
    }
  }

  lemma AfterBracket(items: seq<string>)
    ensures StringifyArray(items)[1..] == Elements(items) + "]"
  {
    assert StringifyArray(items) == "[" + (Elements(items) + "]");
  }

  lemma Regroup(a: string, b: string, c: string, d: string)
    ensures a + b + c + d == a + (b + (c + d))
  {
  }
}

=== FILE: kafka.dfy ===
/** The Kafka producer and consumer wrappers
    (`rigour/internal/messaging/kafka/producer.go` and `consumer.go`):
    configuration checks, the broker list, and what each method does on a
    nil receiver. The kafka-go writer and reader are parameters: their
    answers (a write or close error, a fetched message) are inputs. */
module Kafka {
  import opened Wrappers
  import opened Text
  import opened Bytes

  datatype ProducerConfig = ProducerConfig(brokers: string, topic: string)
  datatype ConsumerConfig = ConsumerConfig(brokers: string, topic: string, groupId: string)

  const BrokersEmpty: string := "kafka: brokers is empty"
  const TopicEmpty: string := "kafka: topic is empty"
  const GroupIdEmpty: string := "kafka: group id is empty"

  /** `ProducerConfig.Validate` (`None` for nil): only the length of the
      broker string is checked, the topic must not be blank. */
  function ValidateProducer(c: ProducerConfig): (r: Option<string>)
    ensures r.None? <==> |c.brokers| > 0 && !AllSatisfy(c.topic, IsGoSpace)
    ensures |c.brokers| == 0 ==> r == Some(BrokersEmpty)
    ensures |c.brokers| > 0 && AllSatisfy(c.topic, IsGoSpace) ==> r == Some(TopicEmpty)
  {
    BlankIffAllSpace(c.topic);
    if |c.brokers| == 0 then Some(BrokersEmpty)
    else if IsBlank(c.topic) then Some(TopicEmpty)
    else None
  }

  /** `ConsumerConfig.Validate`: brokers, topic, group id, in that order. */
  function ValidateConsumer(c: ConsumerConfig): (r: Option<string>)
    ensures r.None? <==>
      |c.brokers| > 0 && !AllSatisfy(c.topic, IsGoSpace) && !AllSatisfy(c.groupId, IsGoSpace)
    ensures |c.brokers| == 0 ==> r == Some(BrokersEmpty)
    ensures |c.brokers| > 0 && AllSatisfy(c.topic, IsGoSpace) ==> r == Some(TopicEmpty)
    ensures |c.brokers| > 0 && !AllSatisfy(c.topic, IsGoSpace) && AllSatisfy(c.groupId, IsGoSpace) ==>
      r == Some(GroupIdEmpty)
  {
    BlankIffAllSpace(c.topic);
    BlankIffAllSpace(c.groupId);
    if |c.brokers| == 0 then Some(BrokersEmpty)
    else if IsBlank(c.topic) then Some(TopicEmpty)
    else if IsBlank(c.groupId) then Some(GroupIdEmpty)
    else None
  }

  /** A broker string of spaces passes, since only its length is checked. */
  lemma BlankBrokersPass(topic: string)
    requires !AllSatisfy(topic, IsGoSpace)
    ensures ValidateProducer(ProducerConfig(" ", topic)).None?
    ensures ValidateConsumer(ConsumerConfig(" ", topic, topic)).None?
  {
  }

  function TrimAll(parts: seq<string>): (r: seq<string>)
    ensures |r| == |parts|
    ensures forall i :: 0 <= i < |parts| ==> r[i] == TrimSpace(parts[i])
  {
    if |parts| == 0 then [] else [TrimSpace(parts[0])] + TrimAll(parts[1..])
  }

  /** `strings.Split(brokers, ",")` with every element trimmed. */
  function BrokerList(brokers: string): (r: seq<string>)
    ensures |r| == Count(brokers, ',') + 1
  {
    TrimAll(Split(brokers, ','))
  }

  /** Addresses without commas or surrounding space, joined by commas, come
      back as they were. */
  lemma BrokerListOfJoin(addrs: seq<string>)
    requires |addrs| >= 1
    requires forall i :: 0 <= i < |addrs| ==> ',' !in addrs[i] && TrimSpace(addrs[i]) == addrs[i]
    ensures BrokerList(Join(addrs, ',')) == addrs
  {
    SplitJoin(addrs, ',');
  }

  /** Empty entries are kept: two commas in a row give an empty broker. */
  lemma EmptyEntryKept(a: string, b: string)
    requires ',' !in a && ',' !in b
    ensures |BrokerList(a + ",," + b)| == 3 && BrokerList(a + ",," + b)[1] == ""
  {
    var parts := [a, "", b];
    assert Join(parts[2..], ',') == b;
    assert Join(parts[1..], ',') == "" + [','] + b;
    assert Join(parts, ',') == a + ",," + b;
    SplitJoin(parts, ',');
    assert TrimSpace("") == "";
  }

  // ---------------------------------------------------------------------
  // Producer

  /** The `kafka.Writer` a producer is built with. */
  datatype Writer = Writer(brokers: seq<string>, topic: string)

  datatype Producer = Producer(writer: Option<Writer>)

  /** `NewProducer`. */
  function NewProducer(cfg: ProducerConfig): (r: Result<Producer, string>)
    ensures r.Err? <==> ValidateProducer(cfg).Some?
    ensures r.Err? ==> r.error == ValidateProducer(cfg).value
    ensures r.Ok? ==> r.value.writer == Some(Writer(BrokerList(cfg.brokers), cfg.topic))
  {
    match ValidateProducer(cfg)
    case Some(e) => Err(e)
    case None => Ok(Producer(Some(Writer(BrokerList(cfg.brokers), cfg.topic))))
  }

  /** `Producer.Close`: `closeError` is the writer's answer. */
  function CloseProducer(p: Option<Producer>, closeError: Option<string>): (r: Option<string>)
    ensures p.None? || p.value.writer.None? ==> r.None?
    ensures p.Some? && p.value.writer.Some? ==> r == closeError
  {
    if p.None? || p.value.writer.None? then None else closeError
  }

  /** `Producer.PublishBytes`: `writeError` is `WriteMessages`' answer. */
  function PublishBytes(p: Option<Producer>, writeError: Option<string>): (r: Option<string>)
    ensures p.None? || p.value.writer.None? ==> r == Some("kafka: producer is nil")
    ensures p.Some? && p.value.writer.Some? ==> r == writeError
  {
    if p.None? || p.value.writer.None? then Some("kafka: producer is nil") else writeError
  }

  datatype TypedProducer = TypedProducer(producer: Option<Producer>)

  /** `TypedProducer.PublishMessage`: `marshal` is the JSON codec, `write`
      the writer's answer for the serialized bytes. */
  function PublishMessage<T>(tp: Option<TypedProducer>, value: T,
                             marshal: T -> Result<seq<byte>, string>,
                             write: seq<byte> -> Option<string>): (r: Option<string>)
    ensures tp.None? || tp.value.producer.None? ==> r == Some("kafka: typed producer is nil")
    ensures tp.Some? && tp.value.producer.Some? && marshal(value).Err? ==> r == Some(marshal(value).error)
    ensures tp.Some? && tp.value.producer.Some? && marshal(value).Ok? ==>
      r == PublishBytes(tp.value.producer, write(marshal(value).value))
  {
    if tp.None? || tp.value.producer.None? then Some("kafka: typed producer is nil")
    else
      match marshal(value)
      case Err(e) => Some(e)
      case Ok(bytes) => PublishBytes(tp.value.producer, write(bytes))
  }

  /** `NewTypedProducer`: a producer with the JSON codec. */
  function NewTypedProducer(cfg: ProducerConfig): (r: Result<TypedProducer, string>)
    ensures r.Err? <==> ValidateProducer(cfg).Some?
    ensures r.Ok? ==> r.value.producer.Some? && r.value.producer.value.writer.Some?
  {
    var p :- NewProducer(cfg);
    Ok(TypedProducer(Some(p)))
  }

  function CloseTypedProducer(tp: Option<TypedProducer>, closeError: Option<string>): (r: Option<string>)
    ensures tp.None? || tp.value.producer.None? ==> r.None?
  {
    if tp.None? || tp.value.producer.None? then None else CloseProducer(tp.value.producer, closeError)
  }

  /** A producer built by `NewProducer` passes its write errors through
      unchanged; a nil one never reaches the writer. */
  lemma BuiltProducerWrites(cfg: ProducerConfig, writeError: Option<string>)
    requires NewProducer(cfg).Ok?
    ensures PublishBytes(Some(NewProducer(cfg).value), writeError) == writeError
    ensures PublishBytes(None, writeError) == Some("kafka: producer is nil")
  {
  }

  // ---------------------------------------------------------------------
  // Consumer

  datatype Reader = Reader(brokers: seq<string>, topic: string, groupId: string)

  datatype Consumer = Consumer(reader: Option<Reader>)

  /** `NewConsumer`. */
  function NewConsumer(cfg: ConsumerConfig): (r: Result<Consumer, string>)
    ensures r.Err? <==> ValidateConsumer(cfg).Some?
    ensures r.Err? ==> r.error == ValidateConsumer(cfg).value
    ensures r.Ok? ==> r.value.reader == Some(Reader(BrokerList(cfg.brokers), cfg.topic, cfg.groupId))
  {
    match ValidateConsumer(cfg)
    case Some(e) => Err(e)
    case None => Ok(Consumer(Some(Reader(BrokerList(cfg.brokers), cfg.topic, cfg.groupId))))
  }

  function CloseConsumer(c: Option<Consumer>, closeError: Option<string>): (r: Option<string>)
    ensures c.None? || c.value.reader.None? ==> r.None?
    ensures c.Some? && c.value.reader.Some? ==> r == closeError
  {
    if c.None? || c.value.reader.None? then None else closeError
  }

  datatype TypedConsumer = TypedConsumer(consumer: Option<Consumer>)

  /** A raw Kafka message and its decoded form. */
  datatype Message = Message(key: seq<byte>, value: seq<byte>)
  datatype TypedMessage<T> = TypedMessage(key: seq<byte>, value: T, raw: seq<byte>)

  /** `TypedConsumer.Fetch`: `fetched` is `FetchMessage`'s answer and
      `unmarshal` the JSON codec. */
  function Fetch<T>(tc: Option<TypedConsumer>, fetched: Result<Message, string>,
                    unmarshal: seq<byte> -> Result<T, string>): (r: Result<TypedMessage<T>, string>)
    ensures tc.None? || tc.value.consumer.None? ==> r == Err("kafka: typed consumer is nil")
    ensures tc.Some? && tc.value.consumer.Some? && tc.value.consumer.value.reader.None? ==>
      r == Err("kafka: consumer is nil")
    ensures r.Ok? <==>
      tc.Some? && tc.value.consumer.Some? && tc.value.consumer.value.reader.Some?
      && fetched.Ok? && unmarshal(fetched.value.value).Ok?
    ensures r.Ok? ==>
      r.value == TypedMessage(fetched.value.key, unmarshal(fetched.value.value).value, fetched.value.value)
    ensures tc.Some? && tc.value.consumer.Some? && tc.value.consumer.value.reader.Some?
            && fetched.Ok? && unmarshal(fetched.value.value).Err? ==>
      r == Err(unmarshal(fetched.value.value).error)
    ensures tc.Some? && tc.value.consumer.Some? && tc.value.consumer.value.reader.Some?
            && fetched.Err? ==>
      r == Err(fetched.error)
  {
    if tc.None? || tc.value.consumer.None? then Err("kafka: typed consumer is nil")
    else if tc.value.consumer.value.reader.None? then Err("kafka: consumer is nil")
    else
      var m :- fetched;
      var value :- unmarshal(m.value);
      Ok(TypedMessage(m.key, value, m.value))
  }

  /** `NewTypedConsumer`: a consumer with the JSON codec. */
  function NewTypedConsumer(cfg: ConsumerConfig): (r: Result<TypedConsumer, string>)
    ensures r.Err? <==> ValidateConsumer(cfg).Some?
    ensures r.Ok? ==> r.value.consumer.Some? && r.value.consumer.value.reader.Some?
  {
    var c :- NewConsumer(cfg);
    Ok(TypedConsumer(Some(c)))
  }

  function CloseTypedConsumer(tc: Option<TypedConsumer>, closeError: Option<string>): (r: Option<string>)
    ensures tc.None? || tc.value.consumer.None? ==> r.None?
  {
    if tc.None? || tc.value.consumer.None? then None else CloseConsumer(tc.value.consumer, closeError)
  }

  /** A consumer built by `NewConsumer` delivers what the codec decodes, and
      the raw bytes it decoded them from. */
  lemma BuiltConsumerFetches<T>(cfg: ConsumerConfig, m: Message, unmarshal: seq<byte> -> Result<T, string>)
    requires NewConsumer(cfg).Ok? && unmarshal(m.value).Ok?
    ensures Fetch(Some(TypedConsumer(Some(NewConsumer(cfg).value))), Ok(m), unmarshal)
            == Ok(TypedMessage(m.key, unmarshal(m.value).value, m.value))
  {
  }
}

=== FILE: minecraft.dfy ===
/** The Minecraft Java Edition status probe: the LEB128-style VarInt codec,
    the handshake and status-request frames sent to the server, the decoder
    for the status-response frame, and the plugin's accept/reject decision. */
module Minecraft {
  import opened Wrappers
  import opened Bytes
  import opened Plugins

  const TwoTo31: int := 0x8000_0000
  const TwoTo32: int := 0x1_0000_0000

  type int32 = v: int | -0x8000_0000 <= v < 0x8000_0000

  /** Go's `uint32(v)`: the low 32 bits of `v` read as unsigned. */
  function ToUint32(v: int): (u: nat)
    ensures u < TwoTo32
    ensures 0 <= v < TwoTo32 ==> u == v
  {
    v % TwoTo32
  }

  /** Go's `int32(x)`: the low 32 bits of `x` read in two's complement. */
  function ToInt32(x: int): (r: int32)
    ensures -TwoTo31 <= x < TwoTo31 ==> r == x
  {
    var w := x % TwoTo32;
    if w < TwoTo31 then w else w - TwoTo32
  }

  lemma Int32Uint32(v: int32)
    ensures ToInt32(ToUint32(v)) == v
  {
  }

  function Pow128(k: nat): (p: nat)
    ensures p >= 1
  {
    if k == 0 then 1 else 128 * Pow128(k - 1)
  }

  /** The number the 7-bit groups of `bs` spell, least significant group
      first; the continuation bit (0x80) of each byte is ignored. */
  function GroupsValue(bs: seq<byte>): nat {
    if |bs| == 0 then 0 else bs[0] % 128 + 128 * GroupsValue(bs[1..])
  }

  /** The loop of `writeVarInt` on the unsigned value `uv`. */
  function EncodeUvarint(uv: nat): (r: seq<byte>)
    ensures |r| >= 1
    ensures forall i :: 0 <= i < |r| - 1 ==> r[i] >= 128
    ensures r[|r| - 1] < 128
    ensures GroupsValue(r) == uv
  {
    if uv < 128 then [uv]
    else
      var tail := EncodeUvarint(uv / 128);
      var b := uv % 128 + 128;
      GroupsValueCons(b, tail);
      DivMod128(uv);
      [b] + tail
  }

  lemma GroupsValueCons(b: byte, tail: seq<byte>)
    ensures GroupsValue([b] + tail) == b % 128 + 128 * GroupsValue(tail)
  {
    assert ([b] + tail)[1..] == tail;
  }

  lemma {:induction false} EncodeUvarintLength(uv: nat, k: nat)
    requires k >= 1 && uv < Pow128(k)
    ensures |EncodeUvarint(uv)| <= k
  {
    if uv >= 128 {
      assert k >= 2;
      assert uv / 128 < Pow128(k - 1);
      EncodeUvarintLength(uv / 128, k - 1);
    }
  }

  /** `writeVarInt`: 1 to 5 bytes, each but the last with the continuation
      bit set; a value in 0..127 is its own single byte. */
  function WriteVarInt(v: int32): (r: seq<byte>)
    ensures 1 <= |r| <= 5
    ensures forall i :: 0 <= i < |r| - 1 ==> r[i] >= 128
    ensures r[|r| - 1] < 128
    ensures 0 <= v < 128 ==> r == [v]
    ensures GroupsValue(r) == ToUint32(v)
  {
    EncodeUvarintLength(ToUint32(v), 5);
    EncodeUvarint(ToUint32(v))
  }

  datatype VarIntError = EndOfInput | TooBig

  /** The loop of `readVarInt` from its `numRead`-th iteration on: the value
      of the groups read and the number of bytes consumed. */
  function ReadGroups(bs: seq<byte>, numRead: nat): (r: Result<(nat, nat), VarIntError>)
    requires numRead <= 5
    ensures r.Ok? ==> 1 <= r.value.1 <= |bs| && r.value.1 <= 5 - numRead
    decreases 5 - numRead
  {
    if |bs| == 0 then Err(EndOfInput)
    else if numRead + 1 > 5 then Err(TooBig)
    else if bs[0] < 128 then Ok((bs[0], 1))
    else
      match ReadGroups(bs[1..], numRead + 1)
      case Err(e) => Err(e)
      case Ok((v, n)) => Ok((bs[0] % 128 + 128 * v, n + 1))
  }

  /** `readVarInt`: the decoded value and the number of bytes it consumed.
      The int32 accumulator keeps only the low 32 bits of the groups. */
  function ReadVarInt(bs: seq<byte>): (r: Result<(int32, nat), VarIntError>)
    ensures r.Ok? ==> 1 <= r.value.1 <= |bs| && r.value.1 <= 5
  {
    match ReadGroups(bs, 0)
    case Err(e) => Err(e)
    case Ok((v, n)) => Ok((ToInt32(v), n))
  }

  lemma {:induction false} ReadGroupsOfEncoding(uv: nat, rest: seq<byte>, numRead: nat)
    requires numRead + |EncodeUvarint(uv)| <= 5
    ensures ReadGroups(EncodeUvarint(uv) + rest, numRead)
         == Ok((uv, |EncodeUvarint(uv)|))
  {
    var e := EncodeUvarint(uv);
    if uv >= 128 {
      var tail := EncodeUvarint(uv / 128);
      var b := uv % 128 + 128;
      EncodeUvarintCons(uv, rest);
      ReadGroupsOfEncoding(uv / 128, rest, numRead + 1);
      ReadGroupsCons(b, tail + rest, numRead, uv / 128, |tail|);
      DivMod128(uv);
    } else {
      assert (e + rest)[0] == uv;
    }
  }

  lemma EncodeUvarintCons(uv: nat, rest: seq<byte>)
    requires uv >= 128
    ensures EncodeUvarint(uv) + rest == [uv % 128 + 128] + (EncodeUvarint(uv / 128) + rest)
    ensures |EncodeUvarint(uv)| == |EncodeUvarint(uv / 128)| + 1
  {
  }

  lemma ReadGroupsCons(b: byte, bs: seq<byte>, numRead: nat, v: nat, n: nat)
    requires numRead < 5 && b >= 128
    requires ReadGroups(bs, numRead + 1) == Ok((v, n))
    ensures ReadGroups([b] + bs, numRead) == Ok((b % 128 + 128 * v, n + 1))
  {
    assert ([b] + bs)[1..] == bs;
  }

  lemma DivMod128(uv: nat)
    ensures (uv % 128 + 128) % 128 + 128 * (uv / 128) == uv
  {
  }

  /** `readVarInt(writeVarInt(v))` returns `v` for every int32 and consumes
      exactly the bytes written, whatever follows them. */
  lemma VarIntRoundTrip(v: int32, rest: seq<byte>)
    ensures ReadVarInt(WriteVarInt(v) + rest) == Ok((v, |WriteVarInt(v)|))
  {
    EncodeUvarintLength(ToUint32(v), 5);
    ReadGroupsOfEncoding(ToUint32(v), rest, 0);
    Int32Uint32(v);
  }

  /** The values the unit test round-trips. */
  lemma VarIntTestVectors()
    ensures forall v: int32 | v in [0, 1, 2, 127, 128, 255, 2097151] ::
      ReadVarInt(WriteVarInt(v)).Ok? && ReadVarInt(WriteVarInt(v)).value.0 == v
  {
    forall v: int32 | v in [0, 1, 2, 127, 128, 255, 2097151]
      ensures ReadVarInt(WriteVarInt(v)).Ok? && ReadVarInt(WriteVarInt(v)).value.0 == v
    {
      VarIntRoundTrip(v, []);
      assert WriteVarInt(v) + [] == WriteVarInt(v);
    }
  }

  /** A successful read consumes up to and including the first byte with
      a clear continuation bit, and returns the value of those groups. */
  lemma {:induction false} ReadGroupsOk(bs: seq<byte>, m: nat)
    requires m <= 5 && ReadGroups(bs, m).Ok?
    ensures var n := ReadGroups(bs, m).value.1;
      && 1 <= n <= 5 - m && n <= |bs|
      && bs[n - 1] < 128
      && (forall j :: 0 <= j < n - 1 ==> bs[j] >= 128)
      && ReadGroups(bs, m).value.0 == GroupsValue(bs[..n])
    decreases 5 - m
  {
    if bs[0] < 128 {
      assert bs[..1] == [bs[0]];
    } else {
      var t := bs[1..];
      var (v, n) := ReadGroups(t, m + 1).value;
      assert ReadGroups(bs, m) == Ok((bs[0] % 128 + 128 * v, n + 1));
      ReadGroupsOk(t, m + 1);
      assert bs[..n + 1] == [bs[0]] + t[..n];
      GroupsValueCons(bs[0], t[..n]);
      forall j | 0 <= j < n ensures bs[j] >= 128 {
        if j > 0 { assert bs[j] == t[j - 1]; }
      }
    }
  }

  /** A read succeeds exactly when one of the bytes it may still take has
      a clear continuation bit. */
  lemma {:induction false} ReadGroupsOkIff(bs: seq<byte>, m: nat)
    requires m <= 5
    ensures ReadGroups(bs, m).Ok? <==> exists k :: 0 <= k < 5 - m && k < |bs| && bs[k] < 128
    decreases 5 - m
  {
    if |bs| == 0 || m == 5 || bs[0] < 128 {
    } else {
      ReadGroupsOkIff(bs[1..], m + 1);
      if ReadGroups(bs[1..], m + 1).Ok? {
        var k :| 0 <= k < 5 - (m + 1) && k < |bs[1..]| && bs[1..][k] < 128;
        assert bs[k + 1] < 128;
      } else {
        forall k | 0 <= k < 5 - m && k < |bs| ensures bs[k] >= 128 {
          if k > 0 { assert bs[k] == bs[1..][k - 1]; }
        }
      }
    }
  }

  /** A read is too big exactly when every byte it may take has the
      continuation bit and one more byte follows. */
  lemma {:induction false} ReadGroupsTooBigIff(bs: seq<byte>, m: nat)
    requires m <= 5
    ensures ReadGroups(bs, m) == Err(TooBig) <==>
      |bs| >= 6 - m && forall j :: 0 <= j < 5 - m ==> bs[j] >= 128
    decreases 5 - m
  {
    if |bs| == 0 || m == 5 || bs[0] < 128 {
    } else {
      ReadGroupsTooBigIff(bs[1..], m + 1);
      if ReadGroups(bs, m) == Err(TooBig) {
        forall j | 0 <= j < 5 - m ensures bs[j] >= 128 {
          if j > 0 { assert bs[j] == bs[1..][j - 1]; }
        }
      }
      if |bs| >= 6 - m && forall j :: 0 <= j < 5 - m ==> bs[j] >= 128 {
        forall j | 0 <= j < 5 - (m + 1) ensures bs[1..][j] >= 128 {
          assert bs[1..][j] == bs[j + 1];
        }
      }
    }
  }

  /** `readVarInt` succeeds exactly when one of the first five bytes has a
      clear continuation bit; it then consumes up to and including the first
      such byte. It reports "varint too big" exactly when five continuation
      bytes are followed by a sixth byte, and end of input otherwise. */
  lemma ReadVarIntCases(bs: seq<byte>)
    ensures ReadVarInt(bs).Ok? <==> exists k :: 0 <= k < 5 && k < |bs| && bs[k] < 128
    ensures ReadVarInt(bs).Ok? ==>
      var n := ReadVarInt(bs).value.1;
      && 1 <= n <= 5 && n <= |bs| && bs[n - 1] < 128
      && (forall j :: 0 <= j < n - 1 ==> bs[j] >= 128)
      && ReadVarInt(bs).value.0 == ToInt32(GroupsValue(bs[..n]))
    ensures ReadVarInt(bs) == Err(TooBig) <==>
      |bs| >= 6 && forall j :: 0 <= j < 5 ==> bs[j] >= 128
  {
    ReadGroupsOkIff(bs, 0);
    if ReadVarInt(bs).Ok? {
      ReadGroupsOk(bs, 0);
    }
    ReadGroupsTooBigIff(bs, 0);
  }

  lemma {:induction false} ReadGroupsPrefix(bs: seq<byte>, extra: seq<byte>, m: nat)
    requires m <= 5
    requires ReadGroups(bs, m).Ok?
    ensures ReadGroups(bs + extra, m) == ReadGroups(bs, m)
    decreases 5 - m
  {
    if bs[0] >= 128 {
      assert (bs + extra)[1..] == bs[1..] + extra;
      ReadGroupsPrefix(bs[1..], extra, m + 1);
    }
  }

  /** A decoded varint does not depend on the bytes after it. */
  lemma ReadVarIntPrefix(bs: seq<byte>, extra: seq<byte>)
    requires ReadVarInt(bs).Ok?
    ensures ReadVarInt(bs + extra) == ReadVarInt(bs)
  {
    ReadGroupsPrefix(bs, extra, 0);
  }

  /** `writeString`: the length as a varint (Go's `int32(len(s))`), then the
      bytes of `s`. */
  function WriteString(s: seq<byte>): seq<byte> {
    WriteVarInt(ToInt32(|s|)) + s
  }

  /** A reader of `writeString`'s output recovers the length and then the
      bytes themselves, for any string shorter than 2^31 bytes. */
  lemma WriteStringRoundTrip(s: seq<byte>, rest: seq<byte>)
    requires |s| < TwoTo31
    ensures exists k ::
      && ReadVarInt(WriteString(s) + rest) == Ok((|s|, k))
      && (WriteString(s) + rest)[k..k + |s|] == s
  {
    var w := WriteVarInt(|s|);
    VarIntRoundTrip(|s|, s + rest);
    assert WriteString(s) + rest == w + (s + rest);
    assert (w + (s + rest))[|w|..|w| + |s|] == s;
  }

  const ProtocolVersion: int32 := 754
  const NextStateStatus: int32 := 1

  /** Port as two big-endian bytes (`binary.Write(..., binary.BigEndian, port)`). */
  function BigEndian16(port: uint16): (r: seq<byte>)
    ensures |r| == 2 && 256 * (r[0] as int) + (r[1] as int) == port as int
  {
    [port / 256, port % 256]
  }

  function HandshakeBody(host: seq<byte>, port: uint16): seq<byte> {
    WriteVarInt(0) + WriteVarInt(ProtocolVersion) + WriteString(host)
    + BigEndian16(port) + WriteVarInt(NextStateStatus)
  }

  /** `encodeHandshake`: the body framed by its length. The writes go to an
      in-memory buffer and cannot fail, so the Go error result is always nil. */
  function EncodeHandshake(host: seq<byte>, port: uint16): seq<byte> {
    var body := HandshakeBody(host, port);
    WriteVarInt(ToInt32(|body|)) + body
  }

  /** The handshake frame is, byte for byte: its length as a varint, packet
      id 0, protocol version 754 as the varint F2 05, the host as a string,
      the big-endian port and next state 1; a reader gets the body length
      back from the first varint. */
  lemma HandshakeLayout(host: seq<byte>, port: uint16)
    requires |host| < TwoTo31 - 16
    ensures var body := [0x00, 0xF2, 0x05] + WriteString(host) + BigEndian16(port) + [0x01];
      && EncodeHandshake(host, port) == WriteVarInt(|body|) + body
      && ReadVarInt(EncodeHandshake(host, port)) == Ok((|body|, |WriteVarInt(|body|)|))
  {
    var body := [0x00, 0xF2, 0x05] + WriteString(host) + BigEndian16(port) + [0x01];
    HandshakeBodyBytes(host, port);
    assert |body| < TwoTo31;
    VarIntRoundTrip(|body|, body);
  }

  lemma HandshakeBodyBytes(host: seq<byte>, port: uint16)
    ensures HandshakeBody(host, port) == [0x00, 0xF2, 0x05] + WriteString(host) + BigEndian16(port) + [0x01]
  {
    assert WriteVarInt(0) == [0x00];
    ProtocolVersionBytes();
    assert WriteVarInt(NextStateStatus) == [0x01];
    JoinHead(0x00, 0xF2, 0x05, WriteString(host), BigEndian16(port), [0x01]);
  }

  /** 754 is 0x72 + 128 * 5: the groups 0xF2 (with the continuation bit)
      and 0x05. */
  lemma ProtocolVersionBytes()
    ensures WriteVarInt(ProtocolVersion) == [0xF2, 0x05]
  {
    assert EncodeUvarint(5) == [0x05];
    assert EncodeUvarint(754) == [0xF2] + EncodeUvarint(5);
  }

  lemma JoinHead(x: byte, y: byte, z: byte, c: seq<byte>, d: seq<byte>, e: seq<byte>)
    ensures [x] + [y, z] + c + d + e == [x, y, z] + c + d + e
  {
  }

  /** `encodeStatusRequest`: a one-byte frame holding packet id 0. */
  function EncodeStatusRequest(): (r: seq<byte>)
    ensures r == [0x01, 0x00]
    ensures ReadVarInt(r) == Ok((1, 1)) && ReadVarInt(r[1..]) == Ok((0, 1))
  {
    var body := WriteVarInt(0);
    WriteVarInt(ToInt32(|body|)) + body
  }

  datatype DecodeError =
    | BadVarInt(cause: VarIntError)
    | NonPositiveLength
    | ShortFrame
    | UnexpectedPacketId(id: int32)
    | BadJsonLength
    | BadJson

  /** The payload of a status-response frame: packet id 0, then the JSON
      length as a varint and at least that many bytes, of which exactly the
      first `jsonLen` go to `parseJson` (Go's `json.Unmarshal` into the
      status struct). */
  function DecodePayload<S>(payload: seq<byte>, parseJson: seq<byte> -> Option<S>): Result<S, DecodeError> {
    match ReadVarInt(payload)
    case Err(e) => Err(BadVarInt(e))
    case Ok((id, k1)) =>
      if id != 0 then Err(UnexpectedPacketId(id))
      else DecodeJson(payload[k1..], parseJson)
  }

  /** The part of the payload after the packet id: the JSON length, then the
      JSON text. */
  function DecodeJson<S>(body: seq<byte>, parseJson: seq<byte> -> Option<S>): Result<S, DecodeError> {
    match ReadVarInt(body)
    case Err(e) => Err(BadVarInt(e))
    case Ok((jsonLen, k2)) =>
      var rest := body[k2..];
      if jsonLen < 0 || jsonLen > |rest| then Err(BadJsonLength)
      else
        match parseJson(rest[..jsonLen])
        case None => Err(BadJson)
        case Some(s) => Ok(s)
  }

  /** `decodeStatusResponse`: the frame length, which must be positive, then
      exactly that many payload bytes. */
  function DecodeStatusResponse<S>(frame: seq<byte>, parseJson: seq<byte> -> Option<S>): Result<S, DecodeError> {
    match ReadVarInt(frame)
    case Err(e) => Err(BadVarInt(e))
    case Ok((length, k)) => DecodeFrame(frame, length, k, parseJson)
  }

  /** The frame after its length prefix of `k` bytes, which declared
      `length` bytes of payload. */
  function DecodeFrame<S>(frame: seq<byte>, length: int, k: nat, parseJson: seq<byte> -> Option<S>): Result<S, DecodeError>
    requires k <= |frame|
  {
    if length <= 0 then Err(NonPositiveLength)
    else if |frame| - k < length then Err(ShortFrame)
    else DecodePayload(frame[k..k + length], parseJson)
  }

  /** The frame-level rejections of `decodeStatusResponse`: a non-positive
      declared length and fewer bytes than declared; otherwise the outcome is
      that of the declared payload alone. */
  lemma FrameRejects<S>(frame: seq<byte>, parseJson: seq<byte> -> Option<S>)
    requires ReadVarInt(frame).Ok?
    ensures var (length, k) := ReadVarInt(frame).value;
      && (length <= 0 ==> DecodeStatusResponse(frame, parseJson) == Err(NonPositiveLength))
      && (0 < length && |frame| - k < length ==> DecodeStatusResponse(frame, parseJson) == Err(ShortFrame))
      && (0 < length <= |frame| - k ==>
            DecodeStatusResponse(frame, parseJson) == DecodePayload(frame[k..k + length], parseJson))
  {
  }

  /** The payload-level rejections: a packet id other than 0, and a JSON
      length that is negative or longer than the rest of the payload. */
  lemma PayloadRejects<S>(payload: seq<byte>, parseJson: seq<byte> -> Option<S>)
    requires ReadVarInt(payload).Ok?
    ensures ReadVarInt(payload).value.0 != 0 ==>
      DecodePayload(payload, parseJson) == Err(UnexpectedPacketId(ReadVarInt(payload).value.0))
    ensures var k1 := ReadVarInt(payload).value.1;
      (ReadVarInt(payload).value.0 == 0 && ReadVarInt(payload[k1..]).Ok?
       && (ReadVarInt(payload[k1..]).value.0 < 0
           || ReadVarInt(payload[k1..]).value.0 > |payload| - k1 - ReadVarInt(payload[k1..]).value.1))
      ==> DecodePayload(payload, parseJson) == Err(BadJsonLength)
  {
  }

  /** An accepted payload starts with packet id 0 and its status is the
      parse of a slice of it. */
  lemma PayloadAccepted<S>(payload: seq<byte>, parseJson: seq<byte> -> Option<S>)
    requires DecodePayload(payload, parseJson).Ok?
    ensures ReadVarInt(payload).Ok? && ReadVarInt(payload).value.0 == 0
    ensures exists a, b ::
      && 0 <= a <= b <= |payload|
      && parseJson(payload[a..b]) == Some(DecodePayload(payload, parseJson).value)
  {
    var k1 := ReadVarInt(payload).value.1;
    var body := payload[k1..];
    JsonAccepted(body, parseJson);
    var (n, k) := ReadVarInt(body).value;
    assert body[k..k + n] == payload[k1 + k..k1 + k + n];
  }

  /** An accepted JSON field is the parse of exactly the declared number of
      bytes after its length. */
  lemma JsonAccepted<S>(body: seq<byte>, parseJson: seq<byte> -> Option<S>)
    requires DecodeJson(body, parseJson).Ok?
    ensures ReadVarInt(body).Ok?
    ensures var (n, k) := ReadVarInt(body).value;
      && 0 <= n <= |body| - k
      && parseJson(body[k..k + n]) == Some(DecodeJson(body, parseJson).value)
  {
    var (n, k) := ReadVarInt(body).value;
    assert body[k..][..n] == body[k..k + n];
  }

  /** Bytes after the declared frame are ignored. */
  lemma DecodeIgnoresTrailing<S>(frame: seq<byte>, extra: seq<byte>, parseJson: seq<byte> -> Option<S>)
    requires ReadVarInt(frame).Ok?
    requires ReadVarInt(frame).value.0 <= |frame| - ReadVarInt(frame).value.1
    ensures DecodeStatusResponse(frame + extra, parseJson) == DecodeStatusResponse(frame, parseJson)
  {
    ReadVarIntPrefix(frame, extra);
    var (length, k) := ReadVarInt(frame).value;
    if 0 < length {
      SliceOfAppend(frame, extra, k, k + length);
    }
    SameFrame(frame + extra, frame, parseJson);
  }

  /** Two inputs with the same length prefix and the same declared frame
      decode alike. */
  lemma SameFrame<S>(a: seq<byte>, b: seq<byte>, parseJson: seq<byte> -> Option<S>)
    requires ReadVarInt(a).Ok? && ReadVarInt(a) == ReadVarInt(b)
    requires var (length, k) := ReadVarInt(a).value;
      length <= |b| - k && (0 < length ==> length <= |a| - k && a[k..k + length] == b[k..k + length])
    ensures DecodeStatusResponse(a, parseJson) == DecodeStatusResponse(b, parseJson)
  {
    var h := ReadVarInt(a).value;
    SameDeclaredFrame(a, b, h.0, h.1, parseJson);
  }

  lemma SameDeclaredFrame<S>(a: seq<byte>, b: seq<byte>, length: int, k: nat, parseJson: seq<byte> -> Option<S>)
    requires k <= |a| && k <= |b| && length <= |b| - k
    requires 0 < length ==> length <= |a| - k && a[k..k + length] == b[k..k + length]
    ensures DecodeFrame(a, length, k, parseJson) == DecodeFrame(b, length, k, parseJson)
  {
  }

  lemma SliceOfAppend(a: seq<byte>, b: seq<byte>, i: nat, j: nat)
    requires i <= j <= |a|
    ensures (a + b)[i..j] == a[i..j]
  {
  }

  /** The status-response framing a server sends (and the unit test builds):
      frame length, then packet id 0 and the length-prefixed JSON text. */
  function EncodeStatusResponse(json: seq<byte>): seq<byte> {
    var payload := WriteVarInt(0) + WriteVarInt(ToInt32(|json|)) + json;
    WriteVarInt(ToInt32(|payload|)) + payload
  }

  lemma PayloadRoundTrip<S>(json: seq<byte>, parseJson: seq<byte> -> Option<S>)
    requires |json| < TwoTo31
    ensures DecodePayload(WriteVarInt(0) + WriteVarInt(|json|) + json, parseJson)
         == (if parseJson(json).Some? then Ok(parseJson(json).value) else Err(BadJson))
  {
    var body := WriteVarInt(|json|) + json;
    var payload := WriteVarInt(0) + WriteVarInt(|json|) + json;
    assert payload == WriteVarInt(0) + body;
    VarIntRoundTrip(0, body);
    assert WriteVarInt(0) == [0];
    assert payload[1..] == body;
    JsonRoundTrip(json, parseJson);
  }

  /** The length-prefixed JSON text decodes as the parse of the text. */
  lemma JsonRoundTrip<S>(json: seq<byte>, parseJson: seq<byte> -> Option<S>)
    requires |json| < TwoTo31
    ensures DecodeJson(WriteVarInt(|json|) + json, parseJson)
         == (if parseJson(json).Some? then Ok(parseJson(json).value) else Err(BadJson))
  {
    var lenBytes := WriteVarInt(|json|);
    VarIntRoundTrip(|json|, json);
    assert (lenBytes + json)[|lenBytes|..] == json;
    assert json[..|json|] == json;
  }

  /** Decoding a framed status response hands exactly the JSON text to the
      JSON parser, whatever bytes follow the frame. */
  lemma StatusResponseRoundTrip<S>(json: seq<byte>, extra: seq<byte>, parseJson: seq<byte> -> Option<S>)
    requires |json| < TwoTo31 - 6
    ensures DecodeStatusResponse(EncodeStatusResponse(json) + extra, parseJson)
         == (if parseJson(json).Some? then Ok(parseJson(json).value) else Err(BadJson))
  {
    var payload := WriteVarInt(0) + WriteVarInt(|json|) + json;
    var header := WriteVarInt(|payload|);
    assert EncodeStatusResponse(json) == header + payload;
    Regroup(header, payload, extra);
    VarIntRoundTrip(|payload|, payload + extra);
    MiddleSlice(header, payload, extra);
    FramedPayload(header + (payload + extra), payload, parseJson);
    PayloadRoundTrip(json, parseJson);
  }

  lemma Regroup(a: seq<byte>, b: seq<byte>, c: seq<byte>)
    ensures a + b + c == a + (b + c)
  {
  }

  /** A frame whose header declares exactly the payload that follows it
      decodes as that payload. */
  lemma FramedPayload<S>(frame: seq<byte>, payload: seq<byte>, parseJson: seq<byte> -> Option<S>)
    requires ReadVarInt(frame).Ok?
    requires 0 < ReadVarInt(frame).value.0 <= |frame| - ReadVarInt(frame).value.1
    requires frame[ReadVarInt(frame).value.1..ReadVarInt(frame).value.1 + ReadVarInt(frame).value.0] == payload
    ensures DecodeStatusResponse(frame, parseJson) == DecodePayload(payload, parseJson)
  {
    FrameRejects(frame, parseJson);
  }

  lemma MiddleSlice(a: seq<byte>, b: seq<byte>, c: seq<byte>)
    ensures (a + (b + c))[|a|..|a| + |b|] == b
  {
    assert forall i :: 0 <= i < |b| ==> (a + (b + c))[|a| + i] == b[i];
  }

  /** The fields of the status JSON the plugin keeps. */
  datatype StatusInfo = StatusInfo(
    versionName: seq<byte>,
    protocolVersion: int,
    playersOnline: int,
    playersMax: int,
    description: seq<byte>,
    favicon: seq<byte>,
    enforcesSecureChat: bool)

  /** The host name written into the handshake: the target's host, or the
      address when the host is empty. */
  function HandshakeHost(target: Target): seq<byte> {
    if target.host == [] then target.addr else target.host
  }

  /** The frames `Run` puts on the wire and its verdict. `sendErr` is the
      outcome of sending the handshake, `recv` that of the status request's
      send-and-receive. */
  datatype Exchange = Exchange(sent: seq<seq<byte>>, result: RunResult<StatusInfo>)

  function Run(target: Target, sendErr: Option<IoError>, recv: Result<seq<byte>, IoError>,
               parseJson: seq<byte> -> Option<StatusInfo>): (x: Exchange)
    ensures |x.sent| >= 1 && x.sent[0] == EncodeHandshake(HandshakeHost(target), target.port)
    ensures sendErr.Some? ==> x == Exchange([x.sent[0]], Err(sendErr.value))
    ensures sendErr.None? ==> x.sent == [x.sent[0], [0x01, 0x00]]
    ensures sendErr.None? ==> x.result == Verdict(target, recv, parseJson)
  {
    var handshake := EncodeHandshake(HandshakeHost(target), target.port);
    var request := EncodeStatusRequest();
    if sendErr.Some? then Exchange([handshake], Err(sendErr.value))
    else Exchange([handshake, request], Verdict(target, recv, parseJson))
  }

  /** The verdict on the status request's outcome `recv`: its error, "not
      Minecraft" for an empty or undecodable reply, or the detection built
      from the decoded status. */
  function Verdict(target: Target, recv: Result<seq<byte>, IoError>,
                   parseJson: seq<byte> -> Option<StatusInfo>): (r: RunResult<StatusInfo>)
    ensures recv.Err? ==> r == Err(recv.error)
    ensures recv == Ok([]) ==> r == Ok(None)
    ensures recv.Ok? && DecodeStatusResponse(recv.value, parseJson).Err? ==> r == Ok(None)
    ensures r.Ok? && r.value.Some? ==>
      && recv.Ok? && DecodeStatusResponse(recv.value, parseJson).Ok?
      && var info := DecodeStatusResponse(recv.value, parseJson).value;
      r.value.value == Detection(target, info, false, info.versionName, TCP)
  {
    match recv
    case Err(e) => Err(e)
    case Ok(frame) =>
      if |frame| == 0 then Ok(None)
      else
        match DecodeStatusResponse(frame, parseJson)
        case Err(_) => Ok(None)
        case Ok(info) => Ok(Some(Detection(target, info, false, info.versionName, TCP)))
  }

  /** A server answering "not minecraft" is rejected without an error: the
      first byte declares a 110-byte frame and only 13 bytes arrived. */
  lemma RunRejectsNonMinecraft(target: Target, parseJson: seq<byte> -> Option<StatusInfo>)
    ensures var notMinecraft := [0x6e, 0x6f, 0x74, 0x20, 0x6d, 0x69, 0x6e, 0x65, 0x63, 0x72, 0x61, 0x66, 0x74];
      Run(target, None, Ok(notMinecraft), parseJson).result == Ok(None)
  {
    var notMinecraft: seq<byte> := [0x6e, 0x6f, 0x74, 0x20, 0x6d, 0x69, 0x6e, 0x65, 0x63, 0x72, 0x61, 0x66, 0x74];
    ReadVarIntOneByte(notMinecraft);
    RunRejectsShortFrame(target, notMinecraft, parseJson);
  }

  /** A first byte below 0x80 is a whole varint. */
  lemma ReadVarIntOneByte(bs: seq<byte>)
    requires |bs| > 0 && bs[0] < 128
    ensures ReadVarInt(bs) == Ok((bs[0], 1))
  {
  }

  /** A response shorter than its declared frame is "not Minecraft", not an
      error. */
  lemma RunRejectsShortFrame(target: Target, frame: seq<byte>, parseJson: seq<byte> -> Option<StatusInfo>)
    requires ReadVarInt(frame).Ok?
    requires ReadVarInt(frame).value.0 > |frame| - ReadVarInt(frame).value.1
    ensures Run(target, None, Ok(frame), parseJson).result == Ok(None)
  {
    assert DecodeStatusResponse(frame, parseJson) == Err(ShortFrame);
  }

  /** `PortPriority`: only the default port 25565 is preferred. */
  function PortPriority(port: uint16): (r: bool)
    ensures r <==> port == 25565
  {
    port == 25565
  }
}

=== FILE: netbios.dfy ===
/** The NetBIOS name-service fingerprint plugin: a node-status (NBSTAT)
    query for the wildcard name, and the extraction of the first name from
    the reply (sections 4.2.17 and 14.1 of RFC 1002 and RFC 1001). */
module Netbios {
  import opened Wrappers
  import opened Bytes
  import opened Plugins

  /** `plugins.ServiceNetbios`. */
  datatype NetbiosMeta = ServiceNetbios(netBiosName: seq<byte>)

  function Repeat(b: byte, n: nat): (r: seq<byte>)
    ensures |r| == n && forall i :: 0 <= i < n ==> r[i] == b
  {
    seq(n, _ => b)
  }

  /** First-level encoding of a NetBIOS name: each byte becomes two letters,
      'A' plus its high nibble and 'A' plus its low nibble. */
  function EncodeName(name: seq<byte>): (r: seq<byte>)
    ensures |r| == 2 * |name|
    ensures forall i :: 0 <= i < |r| ==> 0x41 <= r[i] < 0x41 + 16
  {
    if |name| == 0 then []
    else [0x41 + name[0] / 16, 0x41 + name[0] % 16] + EncodeName(name[1..])
  }

  function DecodeName(enc: seq<byte>): seq<byte>
    requires |enc| % 2 == 0
    requires forall i :: 0 <= i < |enc| ==> 0x41 <= enc[i] < 0x41 + 16
  {
    if |enc| == 0 then []
    else [(enc[0] - 0x41) * 16 + (enc[1] - 0x41)] + DecodeName(enc[2..])
  }

  lemma {:induction false} NameRoundTrip(name: seq<byte>)
    ensures DecodeName(EncodeName(name)) == name
  {
    if |name| > 0 {
      var e := EncodeName(name);
      assert e[2..] == EncodeName(name[1..]);
      NameRoundTrip(name[1..]);
    }
  }

  /** The wildcard name "*" padded with NUL bytes to 16 bytes. */
  function WildcardName(): (r: seq<byte>)
    ensures |r| == 16
  {
    [0x2a] + Repeat(0x00, 15)
  }

  /** The header after the transaction id: the broadcast flag, one
      question, no answer, authority or additional records. */
  const QueryFlags: seq<byte> := [0x00, 0x10, 0x00, 0x01, 0x00, 0x00, 0x00, 0x00, 0x00, 0x00]
  /** The root terminator of the name, question type NBSTAT (0x21) and
      class IN (1). */
  const QuestionTail: seq<byte> := [0x00, 0x00, 0x21, 0x00, 0x01]

  /** The 32 name bytes as sent: "CK" followed by thirty 'A's. */
  function SentName(): seq<byte> {
    [0x43, 0x4b] + Repeat(0x41, 30)
  }

  /** The 48 bytes after the transaction id: the header, the name with its
      length label 32, and the tail. */
  function Question(): seq<byte> {
    QueryFlags + [0x20] + SentName() + QuestionTail
  }

  /** The query sent with transaction id `txid`. */
  function Request(txid: seq<byte>): (r: seq<byte>)
    requires |txid| == 2
    ensures |r| == 50 && r[..2] == txid
  {
    txid + Question()
  }

  /** The queried name is "CKAAAA...A", the first-level encoding of the
      wildcard name, so it decodes back to "*" and fifteen NULs. */
  lemma QueriesWildcard(txid: seq<byte>)
    requires |txid| == 2
    ensures Request(txid)[12] == 32
    ensures Request(txid)[13..45] == EncodeName(WildcardName())
    ensures DecodeName(Request(txid)[13..45]) == WildcardName()
    ensures Request(txid)[45..] == [0x00, 0x00, 0x21, 0x00, 0x01]
  {
    Regroup(txid, QueryFlags, [0x20], SentName(), QuestionTail);
    FieldsOf(txid + QueryFlags, 0x20, SentName(), QuestionTail);
    SentNameIsWildcard();
    NameRoundTrip(WildcardName());
  }

  lemma Regroup(a: seq<byte>, b: seq<byte>, c: seq<byte>, d: seq<byte>, e: seq<byte>)
    ensures a + (b + c + d + e) == (a + b) + c + d + e
  {
  }

  /** The parts of `a + [x] + m + t` at their offsets. */
  lemma FieldsOf(a: seq<byte>, x: byte, m: seq<byte>, t: seq<byte>)
    ensures (a + [x] + m + t)[|a|] == x
    ensures (a + [x] + m + t)[|a| + 1..|a| + 1 + |m|] == m
    ensures (a + [x] + m + t)[|a| + 1 + |m|..] == t
  {
  }

  lemma SentNameIsWildcard()
    ensures SentName() == EncodeName(WildcardName())
  {
    PaddedStarEncoding(15);
  }

  /** "*" padded with `n` NULs encodes to "CK" and `2 * n` 'A's. */
  lemma PaddedStarEncoding(n: nat)
    ensures EncodeName([0x2a] + Repeat(0x00, n)) == [0x43, 0x4b] + Repeat(0x41, 2 * n)
  {
    EncodeCons(0x2a, Repeat(0x00, n));
    EncodeNulls(n);
  }

  lemma EncodeCons(b: byte, rest: seq<byte>)
    ensures EncodeName([b] + rest) == [0x41 + b / 16, 0x41 + b % 16] + EncodeName(rest)
  {
    assert ([b] + rest)[1..] == rest;
  }

  lemma {:induction false} EncodeNulls(n: nat)
    ensures EncodeName(Repeat(0x00, n)) == Repeat(0x41, 2 * n)
  {
    if n > 0 {
      assert Repeat(0x00, n)[1..] == Repeat(0x00, n - 1);
      EncodeNulls(n - 1);
      assert Repeat(0x41, 2 * n) == [0x41, 0x41] + Repeat(0x41, 2 * (n - 1));
    }
  }

  /** Five NUL bytes: in a node-status reply, the TTL and the high byte of
      RDLENGTH, seven bytes before the first name. */
  const Nul5: seq<byte> := [0x00, 0x00, 0x00, 0x00, 0x00]
  /** Three spaces: the padding after a NetBIOS name shorter than 15 bytes. */
  const Spaces3: seq<byte> := [0x20, 0x20, 0x20]

  /** The name extraction as written: 7 is added to the index of the NUL run
      before that index is compared with -1, so a reply without five NULs is
      read from byte 6 on. */
  function ExtractName(response: seq<byte>): (r: Option<seq<byte>>)
    ensures r.Some? <==> Contains(response, Spaces3) && IndexOf(response, Nul5) + 7 <= IndexOf(response, Spaces3)
    ensures r.Some? ==>
      var e := IndexOf(response, Spaces3);
      && e - |r.value| >= 6
      && response[e - |r.value|..e] == r.value
      && response[e..e + 3] == Spaces3
      && !Contains(r.value, Spaces3)
  {
    var stringBegin := IndexOf(response, Nul5) + 7;
    var stringEnd := IndexOf(response, Spaces3);
    if stringBegin == -1 || stringEnd == -1 || stringEnd < stringBegin
       || stringBegin >= |response| || stringEnd >= |response| then None
    else
      var name := response[stringBegin..stringEnd];
      NoOccurrenceBefore(response, Spaces3, stringBegin, stringEnd);
      Some(name)
  }

  /** A window that ends before the first occurrence of `needle` does not
      contain it. */
  lemma NoOccurrenceBefore(hay: seq<byte>, needle: seq<byte>, b: nat, e: nat)
    requires b <= e <= |hay| && |needle| >= 1
    requires forall j: nat :: j < e ==> !OccursAt(hay, needle, j)
    ensures !Contains(hay[b..e], needle)
  {
    if Contains(hay[b..e], needle) {
      var i: nat :| i <= e - b && OccursAt(hay[b..e], needle, i);
      assert i + |needle| <= e - b;
      forall k | 0 <= k < |needle| ensures hay[b + i + k] == needle[k] {
        assert hay[b..e][i..i + |needle|][k] == needle[k];
      }
      assert hay[b + i..b + i + |needle|] == needle;
      assert OccursAt(hay, needle, b + i);
      assert false;
    }
  }

  /** The check as evidently intended: a reply without a run of five NULs is
      rejected. */
  function ExtractNameFixed(response: seq<byte>): (r: Option<seq<byte>>)
    ensures r.Some? ==> Contains(response, Nul5)
    ensures r.Some? ==>
      && IndexOf(response, Nul5) + 7 + |r.value| == IndexOf(response, Spaces3)
      && response[IndexOf(response, Nul5) + 7..IndexOf(response, Spaces3)] == r.value
  {
    if IndexOf(response, Nul5) == -1 then None else ExtractName(response)
  }

  /** The two agree whenever the reply holds five NULs in a row. */
  lemma FixedAgrees(response: seq<byte>)
    requires Contains(response, Nul5)
    ensures ExtractNameFixed(response) == ExtractName(response)
  {
  }

  /** A reply without five NULs in a row is read from byte 6 on as
      written, and rejected by the corrected check. */
  lemma NulFreeReadFromSix(response: seq<byte>)
    requires !Contains(response, Nul5) && Contains(response, Spaces3)
    requires 6 <= IndexOf(response, Spaces3)
    ensures ExtractName(response) == Some(response[6..IndexOf(response, Spaces3)])
    ensures ExtractNameFixed(response).None?
  {
  }

  /** "ABCDEFGH" and three spaces: a reply with no NUL byte at all. */
  const NulFreeReply: seq<byte> := [0x41, 0x42, 0x43, 0x44, 0x45, 0x46, 0x47, 0x48, 0x20, 0x20, 0x20]

  lemma NulFreeReplyLayout()
    ensures !Contains(NulFreeReply, Nul5)
    ensures IndexOf(NulFreeReply, Spaces3) == 8
  {
    var reply := NulFreeReply;
    forall j: nat | j <= |reply| ensures !OccursAt(reply, Nul5, j) {
      if j + 5 <= |reply| { assert reply[j..j + 5][0] == reply[j] != 0; }
    }
    assert OccursAt(reply, Spaces3, 8);
    forall j: nat | j < 8 ensures !OccursAt(reply, Spaces3, j) {
      assert reply[j..j + 3][0] == reply[j] != 0x20;
    }
  }

  /** The NUL-free reply is accepted as written, with name "GH"; the
      corrected check rejects it. */
  lemma NulFreeReplyAccepted()
    ensures ExtractName(NulFreeReply) == Some([0x47, 0x48])
    ensures ExtractNameFixed(NulFreeReply) == None
  {
    NulFreeReplyLayout();
    NulFreeReadFromSix(NulFreeReply);
    assert NulFreeReply[6..8] == [0x47, 0x48];
  }

  /** `Run` after the exchange: `txid` is the two random bytes, `None` when
      the random source failed; `recv` is the outcome of sending
      `Request(txid)` and reading the reply. The name is taken with the
      guard as written, so a reply without five NULs in a row can still be
      reported as a service. */
  function Run(target: Target, txid: Option<seq<byte>>, recv: Result<seq<byte>, IoError>): (r: RunResult<NetbiosMeta>)
    requires txid.Some? ==> |txid.value| == 2
    ensures txid.None? ==> r == Err(RandomizeError)
    ensures txid.Some? && recv.Err? ==> r == Err(recv.error)
    ensures r.Ok? && r.value.Some? ==>
      && recv.Ok? && ExtractName(recv.value).Some?
      && r.value.value == Detection(target, ServiceNetbios(ExtractName(recv.value).value), false, [], UDP)
    ensures txid.Some? && recv.Ok? && ExtractName(recv.value).None? ==> r == Ok(None)
    ensures txid.Some? && recv.Ok? && |recv.value| > 0 && ExtractName(recv.value).Some? ==> r.Ok? && r.value.Some?
  {
    if txid.None? then Err(RandomizeError)
    else
      match recv
      case Err(e) => Err(e)
      case Ok(response) =>
        if |response| == 0 then Ok(None)
        else
          match ExtractName(response)
          case None => Ok(None)
          case Some(name) => Ok(Some(Detection(target, ServiceNetbios(name), false, [], UDP)))
  }

  /** `Run` with the corrected check: a reply without five NULs in a row is
      no service. */
  function RunFixed(target: Target, txid: Option<seq<byte>>, recv: Result<seq<byte>, IoError>): (r: RunResult<NetbiosMeta>)
    requires txid.Some? ==> |txid.value| == 2
    ensures txid.None? ==> r == Err(RandomizeError)
    ensures txid.Some? && recv.Err? ==> r == Err(recv.error)
    ensures r.Ok? && r.value.Some? ==>
      && recv.Ok? && ExtractNameFixed(recv.value).Some?
      && r.value.value == Detection(target, ServiceNetbios(ExtractNameFixed(recv.value).value), false, [], UDP)
    ensures txid.Some? && recv.Ok? && ExtractNameFixed(recv.value).None? ==> r == Ok(None)
    ensures txid.Some? && recv.Ok? && |recv.value| > 0 && ExtractNameFixed(recv.value).Some? ==> r.Ok? && r.value.Some?
  {
    if txid.None? then Err(RandomizeError)
    else
      match recv
      case Err(e) => Err(e)
      case Ok(response) =>
        if |response| == 0 then Ok(None)
        else
          match ExtractNameFixed(response)
          case None => Ok(None)
          case Some(name) => Ok(Some(Detection(target, ServiceNetbios(name), false, [], UDP)))
  }

  /** The two agree on every reply that holds five NULs in a row. */
  lemma RunFixedAgrees(target: Target, txid: Option<seq<byte>>, recv: Result<seq<byte>, IoError>)
    requires txid.Some? ==> |txid.value| == 2
    requires recv.Ok? ==> Contains(recv.value, Nul5)
    ensures RunFixed(target, txid, recv) == Run(target, txid, recv)
  {
    if recv.Ok? {
      FixedAgrees(recv.value);
    }
  }

  /** On the NUL-free reply the plugin as written reports a NetBIOS service
      named "GH"; the corrected one reports nothing. */
  lemma NulFreeReplyDetected(target: Target, txid: seq<byte>)
    requires |txid| == 2
    ensures Run(target, Some(txid), Ok(NulFreeReply))
         == Ok(Some(Detection(target, ServiceNetbios([0x47, 0x48]), false, [], UDP)))
    ensures RunFixed(target, Some(txid), Ok(NulFreeReply)) == Ok(None)
  {
    NulFreeReplyAccepted();
  }

  /** `PortPriority`: only port 137 is preferred. */
  function PortPriority(port: uint16): (r: bool)
    ensures r <==> port == 137
  {
    port == 137
  }
}

=== FILE: ntp.dfy ===
/** The NTP fingerprint plugin: a client-mode request (section 7.3 of
    RFC 5905) and the check that the reply is a 48-byte server-mode packet. */
module Ntp {
  import opened Wrappers
  import opened Bytes
  import opened Plugins

  /** The plugin keeps no NTP-specific metadata (`plugins.ServiceNTP{}`). */
  datatype NtpMeta = ServiceNtp

  const ModeClient: nat := 3
  const ModeServer: nat := 4
  const PacketLength: nat := 48

  /** The mode, version and leap-indicator fields of the first header byte. */
  function Mode(b: byte): nat { b % 8 }
  function Version(b: byte): nat { (b / 8) % 8 }
  function LeapIndicator(b: byte): nat { b / 64 }

  /** The header byte `LI << 6 | VN << 3 | Mode`. */
  function HeaderByte(li: nat, vn: nat, mode: nat): (b: byte)
    requires li < 4 && vn < 8 && mode < 8
    ensures LeapIndicator(b) == li && Version(b) == vn && Mode(b) == mode
  {
    li * 64 + vn * 8 + mode
  }

  /** `n` zero bytes. */
  function Zeros(n: nat): (r: seq<byte>)
    ensures |r| == n && forall i :: 0 <= i < n ==> r[i] == 0
  {
    if n == 0 then [] else [0] + Zeros(n - 1)
  }

  /** The request the plugin sends: the first header word, then 44 zero
      bytes of root delay, root dispersion, reference id and timestamps. */
  const Request: seq<byte> := [0xe3, 0x00, 0x0a, 0xf8] + Zeros(44)

  /** The request is a 48-byte NTPv4 client packet with leap indicator 3
      (clock unsynchronised), poll 10 and precision -8 (0xf8), every
      timestamp zero. */
  lemma RequestFields()
    ensures |Request| == PacketLength
    ensures Request[0] == HeaderByte(3, 4, ModeClient)
    ensures Request[2] == 10 && Request[3] == 0x100 - 8
    ensures forall i :: 4 <= i < |Request| ==> Request[i] == 0
  {
    assert HeaderByte(3, 4, ModeClient) == 0xe3;
  }

  /** A reply the plugin accepts: exactly 48 bytes in server mode. */
  predicate IsServerReply(response: seq<byte>) {
    |response| == PacketLength && Mode(response[0]) == ModeServer
  }

  /** `Run` after the exchange: `recv` is the outcome of sending `Request`
      and reading the reply. */
  function Run(target: Target, recv: Result<seq<byte>, IoError>): (r: RunResult<NtpMeta>)
    ensures recv.Err? ==> r == Err(recv.error)
    ensures recv.Ok? ==> r.Ok?
    ensures r.Ok? && r.value.Some? ==>
      r.value.value == Detection(target, ServiceNtp, false, [], UDP)
  {
    match recv
    case Err(e) => Err(e)
    case Ok(response) =>
      if |response| == 0 then Ok(None)
      else if response[0] % 8 == ModeServer && |response| == |Request| then
        Ok(Some(Detection(target, ServiceNtp, false, [], UDP)))
      else Ok(None)
  }

  /** The plugin reports NTP exactly for a 48-byte server-mode reply, for any
      leap indicator and version number. */
  lemma RunAcceptsIff(target: Target, response: seq<byte>)
    ensures Run(target, Ok(response)).value.Some? <==> IsServerReply(response)
  {
    RequestFields();
  }

  /** A server reply of any version is accepted. */
  lemma ServerReplyAccepted(target: Target, li: nat, vn: nat, rest: seq<byte>)
    requires li < 4 && vn < 8 && |rest| == PacketLength - 1
    ensures Run(target, Ok([HeaderByte(li, vn, ModeServer)] + rest)).value.Some?
  {
    RunAcceptsIff(target, [HeaderByte(li, vn, ModeServer)] + rest);
  }

  /** A peer that echoes the probe back is not reported: the echo is in
      client mode. */
  lemma EchoRejected(target: Target)
    ensures Run(target, Ok(Request)) == Ok(None)
  {
    RequestFields();
  }

  /** `PortPriority`: only port 123 is preferred. */
  function PortPriority(port: uint16): (r: bool)
    ensures r <==> port == 123
  {
    port == 123
  }
}

=== FILE: pagination.dfy ===
/** The API's paging helpers (`rigour/pkg/api/pagination.go`): the page-size
    clamp and the continuation token, which is the standard padded base64
    of the JSON object `{"last_id": ..., "sort_field": ...}`. */
module Pagination {
  import opened Wrappers
  import opened Bytes
  import Base64

  const DefaultPageSize: int := 50
  const MaxPageSize: int := 500

  /** `ValidatePageSize`: a non-positive size falls back to the default, an
      oversized one is cut to the maximum, anything else is kept. */
  function ValidatePageSize(size: int): (r: int)
    ensures 1 <= r <= MaxPageSize
    ensures size <= 0 ==> r == DefaultPageSize
    ensures size > MaxPageSize ==> r == MaxPageSize
    ensures 1 <= size <= MaxPageSize ==> r == size
  {
    if size <= 0 then DefaultPageSize
    else if size > MaxPageSize then MaxPageSize
    else size
  }

  /** Clamping a clamped size changes nothing. */
  lemma ValidatePageSizeIdempotent(size: int)
    ensures ValidatePageSize(ValidatePageSize(size)) == ValidatePageSize(size)
  {
  }

  /** `api.PaginationToken`. */
  datatype Token = Token(lastId: string, sortField: string)

  /** `encoding/json` on a `PaginationToken`. Marshalling a struct of two
      strings cannot fail, so `marshal` is total; `unmarshal` is `None`
      where `json.Unmarshal` returns an error. */
  datatype JsonCodec = JsonCodec(
    marshal: Token -> seq<byte>,
    unmarshal: seq<byte> -> Option<Token>)

  /** What `encoding/json` guarantees for this struct: the text of an object
      is never empty, and reading it back gives the same two fields. */
  ghost predicate JsonLaws(json: JsonCodec) {
    forall t :: |json.marshal(t)| > 0 && json.unmarshal(json.marshal(t)) == Some(t)
  }

  datatype TokenError = BadBase64 | BadJson

  /** `EncodePaginationToken`. */
  function EncodeToken(lastId: string, sortField: string, json: JsonCodec): (r: string)
    ensures Base64.DecodeString(r) == Some(json.marshal(Token(lastId, sortField)))
  {
    var payload := json.marshal(Token(lastId, sortField));
    Base64.DecodeStringRoundTrip(payload);
    Base64.Encode(payload)
  }

  /** `DecodePaginationToken`: `Ok(None)` is Go's `(nil, nil)`. */
  function DecodeToken(token: string, json: JsonCodec): (r: Result<Option<Token>, TokenError>)
    ensures token == "" <==> r == Ok(None)
    ensures r == Err(BadBase64) <==> token != "" && Base64.DecodeString(token).None?
    ensures r == Err(BadJson) <==>
      token != "" && Base64.DecodeString(token).Some? && json.unmarshal(Base64.DecodeString(token).value).None?
  {
    if token == "" then Ok(None)
    else
      match Base64.DecodeString(token)
      case None => Err(BadBase64)
      case Some(data) =>
        match json.unmarshal(data)
        case None => Err(BadJson)
        case Some(t) => Ok(Some(t))
  }

  /** A token is never empty, so it is never mistaken for "no token". */
  lemma EncodeTokenNonEmpty(lastId: string, sortField: string, json: JsonCodec)
    requires JsonLaws(json)
    ensures EncodeToken(lastId, sortField, json) != ""
  {
    var payload := json.marshal(Token(lastId, sortField));
    assert |payload| > 0;
    assert |Base64.Encode(payload)| == 4 * ((|payload| + 2) / 3);
  }

  /** Decoding an issued token gives back the id and sort field it was made
      from. */
  lemma TokenRoundTrip(lastId: string, sortField: string, json: JsonCodec)
    requires JsonLaws(json)
    ensures DecodeToken(EncodeToken(lastId, sortField, json), json) == Ok(Some(Token(lastId, sortField)))
  {
    EncodeTokenNonEmpty(lastId, sortField, json);
  }

  /** A non-empty token that is not base64 (here: of the wrong length once
      line breaks are skipped) is an error, not "no token". */
  lemma MalformedTokenRejected(token: string, json: JsonCodec)
    requires |Base64.StripNewlines(token)| % 4 != 0
    ensures DecodeToken(token, json) == Err(BadBase64)
  {
    Base64.DecodeStringRejectsLength(token);
  }

  /** A line break after a token, as `%0A` in the query string, is skipped
      by the decoder: the token means the same. */
  lemma TrailingNewlineIgnored(token: string, json: JsonCodec)
    requires token != ""
    ensures DecodeToken(token + "\n", json) == DecodeToken(token, json)
  {
    Base64.DecodeSkipsNewline(token, '\n', "");
    assert token + ['\n'] + "" == token + "\n";
    assert token + "" == token;
  }
}

=== FILE: persistence.dfy ===
/** The persistence application (`rigour/pkg/persistence/persistence.go`):
    configuration defaults and validation, the four steps that store one
    service event, and the error policy of `Close` and `Run`. The host
    repository is a parameter (its operations are functions on a store
    state); the Kafka fetches are a finite sequence of events. */
module Persistence {
  import opened Wrappers
  import opened Hosts
  import opened Bytes
  import ServiceRecord
  import GeoIp
  import Enricher

  type Time = ServiceRecord.Time
  type Service<M> = ServiceRecord.Service<M>

  const KafkaTopicScannedServices: string := "rigour.crawler.service"
  const DatabaseName: string := "rigour"
  const HostsRepositoryName: string := "hosts"
  const DefaultMongoTimeout: GeoIp.Duration := 10 * GeoIp.Second

  datatype Config = Config(
    kafkaBrokers: string,
    kafkaGroupId: string,
    topic: string,
    mongoUri: string,
    mongoDatabase: string,
    mongoCollection: string,
    mongoTimeout: GeoIp.Duration,
    geoIpBaseUrl: string,
    geoIpApiKey: string)

  /** `Config.withDefaults`: an empty topic, database or collection and a
      non-positive timeout take the package constants. */
  function WithDefaults(c: Config): (r: Config)
    ensures r.topic == (if c.topic == "" then KafkaTopicScannedServices else c.topic)
    ensures r.mongoDatabase == (if c.mongoDatabase == "" then DatabaseName else c.mongoDatabase)
    ensures r.mongoCollection == (if c.mongoCollection == "" then HostsRepositoryName else c.mongoCollection)
    ensures r.mongoTimeout == (if c.mongoTimeout <= 0 then DefaultMongoTimeout else c.mongoTimeout)
    ensures r.(topic := c.topic, mongoDatabase := c.mongoDatabase,
               mongoCollection := c.mongoCollection, mongoTimeout := c.mongoTimeout) == c
  {
    c.(topic := if c.topic == "" then KafkaTopicScannedServices else c.topic,
       mongoDatabase := if c.mongoDatabase == "" then DatabaseName else c.mongoDatabase,
       mongoCollection := if c.mongoCollection == "" then HostsRepositoryName else c.mongoCollection,
       mongoTimeout := if c.mongoTimeout <= 0 then DefaultMongoTimeout else c.mongoTimeout)
  }

  /** Defaults are filled once: applying them again changes nothing, and a
      configuration that already sets the four fields is left as it is. */
  lemma WithDefaultsIdempotent(c: Config)
    ensures WithDefaults(WithDefaults(c)) == WithDefaults(c)
    ensures WithDefaults(c) == c <==>
      c.topic != "" && c.mongoDatabase != "" && c.mongoCollection != "" && c.mongoTimeout > 0
  {
  }

  /** `Config.Validate`: `None` is a nil error. */
  function Validate(c: Config): (r: Option<string>)
    ensures r.None? <==>
      c.kafkaBrokers != "" && c.kafkaGroupId != "" && c.mongoUri != ""
      && c.geoIpBaseUrl != "" && c.geoIpApiKey != ""
    ensures c.kafkaBrokers == "" ==> r == Some("persistence: kafka brokers is required")
    ensures c.kafkaBrokers != "" && c.kafkaGroupId == "" ==>
      r == Some("persistence: kafka group id is required")
    ensures c.kafkaBrokers != "" && c.kafkaGroupId != "" && c.mongoUri == "" ==>
      r == Some("persistence: mongo uri is required")
    ensures c.kafkaBrokers != "" && c.kafkaGroupId != "" && c.mongoUri != ""
            && (c.geoIpBaseUrl == "" || c.geoIpApiKey == "") ==>
      r == Some("persistence: geoip base url and api key are required")
  {
    var d := WithDefaults(c);
    if d.kafkaBrokers == "" then Some("persistence: kafka brokers is required")
    else if d.kafkaGroupId == "" then Some("persistence: kafka group id is required")
    else if d.mongoUri == "" then Some("persistence: mongo uri is required")
    else if d.geoIpBaseUrl == "" || d.geoIpApiKey == "" then
      Some("persistence: geoip base url and api key are required")
    else None
  }

  /** The defaulted fields never decide validity. */
  lemma DefaultedFieldsNeverFail(c: Config, topic: string, db: string, coll: string, timeout: GeoIp.Duration)
    ensures Validate(c.(topic := topic, mongoDatabase := db, mongoCollection := coll, mongoTimeout := timeout))
            == Validate(c)
  {
  }

  // ---------------------------------------------------------------------
  // handleService

  /** The host repository's three operations, as the store state they
      leave behind or the error they return. */
  datatype Repo<!S, !M> = Repo(
    ensureHost: (S, string, Time) -> Result<S, string>,
    updateHost: (S, Host<M>) -> Result<S, string>,
    upsertService: (S, Service<M>) -> Result<S, string>)

  /** The host `handleService` hands to the enricher: only its IP and
      last-seen time are set. */
  function BareHost<M>(ip: string, now: Time): Host<M> {
    Host("", ip, 0, None, None, 0, now, [], None)
  }

  /** `handleService`. `now` is `time.Now()`, `geo` the GeoIP answer for the
      service's IP and `parse` is `net.ParseIP`. The result is the error
      (`None` for nil) and the store state after the steps that ran. */
  function HandleService<S, M>(repo: Repo<S, M>, st: S, svc: Service<M>, now: Time,
                               geo: Result<GeoIp.Record, string>,
                               parse: string -> Option<seq<byte>>): (r: (Option<string>, S))
    ensures repo.ensureHost(st, svc.ip, now).Err? ==>
      r == (Some(repo.ensureHost(st, svc.ip, now).error), st)
    ensures repo.ensureHost(st, svc.ip, now).Ok? ==>
      var s1 := repo.ensureHost(st, svc.ip, now).value;
      var e := Enricher.EnrichHost(BareHost<M>(svc.ip, now), geo, parse);
      && (e.Err? ==> r == (Some(e.error), s1))
      && (e.Ok? && repo.updateHost(s1, e.value).Err? ==> r == (Some(repo.updateHost(s1, e.value).error), s1))
      && (e.Ok? && repo.updateHost(s1, e.value).Ok? ==>
            var s2 := repo.updateHost(s1, e.value).value;
            var stamped := svc.(lastScan := if svc.lastScan == 0 then now else svc.lastScan);
            match repo.upsertService(s2, stamped)
            case Err(err) => r == (Some(err), s2)
            case Ok(s3) => r == (None, s3))
  {
    var stamped := svc.(lastScan := if svc.lastScan == 0 then now else svc.lastScan);
    match repo.ensureHost(st, svc.ip, now)
    case Err(err) => (Some(err), st)
    case Ok(s1) =>
      match Enricher.EnrichHost(BareHost<M>(svc.ip, now), geo, parse)
      case Err(err) => (Some(err), s1)
      case Ok(host) =>
        match repo.updateHost(s1, host)
        case Err(err) => (Some(err), s1)
        case Ok(s2) =>
          match repo.upsertService(s2, stamped)
          case Err(err) => (Some(err), s2)
          case Ok(s3) => (None, s3)
  }

  /** A nil error means every step ran and succeeded; the GeoIP answer in
      particular was not an error. */
  lemma HandledMeansAllStepsRan<S, M>(repo: Repo<S, M>, st: S, svc: Service<M>, now: Time,
                                      geo: Result<GeoIp.Record, string>,
                                      parse: string -> Option<seq<byte>>)
    requires HandleService(repo, st, svc, now, geo, parse).0.None?
    ensures repo.ensureHost(st, svc.ip, now).Ok?
    ensures geo.Ok? && Enricher.IpToIPInt(svc.ip, parse).Ok?
  {
  }

  /** A failing GeoIP lookup keeps the host `ensureHost` created (or
      touched) and stops before the service is stored. */
  lemma LookupFailureKeepsEnsuredHost<S, M>(repo: Repo<S, M>, st: S, svc: Service<M>, now: Time,
                                            e: string, parse: string -> Option<seq<byte>>)
    requires repo.ensureHost(st, svc.ip, now).Ok?
    ensures HandleService(repo, st, svc, now, Err(e), parse) ==
      (Some(e), repo.ensureHost(st, svc.ip, now).value)
  {
  }

  // ---------------------------------------------------------------------
  // Close and Run

  /** A resource the app holds: absent (nil), or present with the error its
      `Close` returns (`None` for nil). */
  datatype Resource = Absent | Held(closeError: Option<string>)

  datatype App = App(consumer: Resource, mongoClient: Resource)

  /** `App.Close`: the error (`None` for nil) and the resources it closed, in
      order. */
  function Close(app: Option<App>): (r: (Option<string>, seq<string>))
    ensures app.None? ==> r == (None, [])
    ensures app.Some? ==>
      && ("consumer" in r.1 <==> app.value.consumer.Held?)
      && ("mongo" in r.1 <==> app.value.mongoClient.Held?)
    ensures app.Some? && app.value.consumer.Held? && app.value.consumer.closeError.Some? ==>
      r.0 == app.value.consumer.closeError
    ensures app.Some? && !(app.value.consumer.Held? && app.value.consumer.closeError.Some?) ==>
      r.0 == (if app.value.mongoClient.Held? then app.value.mongoClient.closeError else None)
  {
    match app
    case None => (None, [])
    case Some(a) =>
      var (e1, c1) := if a.consumer.Held? then (a.consumer.closeError, ["consumer"]) else (None, []);
      var (e2, c2) := if a.mongoClient.Held? then (a.mongoClient.closeError, ["mongo"]) else (None, []);
      (if e1.Some? then e1 else e2, c1 + c2)
  }

  /** What a loop iteration sees: the context cancelled, or the result of
      `Fetch` (an error, a nil message, or a message). */
  datatype Event<T> = Cancelled | Fetched(result: Result<Option<T>, string>)

  /** How the loop ends: it returned an error, or it has consumed every
      event given and would fetch again. */
  datatype RunEnd<S> = Returned(error: string, state: S) | Waiting(state: S)

  /** `App.Run`. `handle` stores one message (error `None` for nil) and
      `cancelled` is `ctx.Err()`. */
  function Run<S, T>(app: Option<App>, st: S, events: seq<Event<T>>,
                     handle: (S, T) -> (Option<string>, S), cancelled: string): (r: RunEnd<S>)
    ensures app.None? ==> r == Returned("persistence: app is nil", st)
    ensures app.Some? && r.Waiting? ==>
      forall i :: 0 <= i < |events| ==> events[i].Fetched? && events[i].result.Ok?
  {
    if app.None? then Returned("persistence: app is nil", st)
    else Loop(st, events, handle, cancelled)
  }

  function Loop<S, T>(st: S, events: seq<Event<T>>,
                      handle: (S, T) -> (Option<string>, S), cancelled: string): (r: RunEnd<S>)
    ensures r.Waiting? ==> forall i :: 0 <= i < |events| ==> events[i].Fetched? && events[i].result.Ok?
    ensures |events| > 0 && events[0] == Cancelled ==> r == Returned(cancelled, st)
    ensures |events| > 0 && events[0].Fetched? && events[0].result.Err? ==>
      r == Returned(events[0].result.error, st)
  {
    if |events| == 0 then Waiting(st)
    else
      match events[0]
      case Cancelled => Returned(cancelled, st)
      case Fetched(Err(e)) => Returned(e, st)
      case Fetched(Ok(None)) => Loop(st, events[1..], handle, cancelled)
      case Fetched(Ok(Some(msg))) =>
        match handle(st, msg)
        case (Some(e), s1) => Returned(e, s1)
        case (None, s1) => Loop(s1, events[1..], handle, cancelled)
  }

  /** The messages the fetches delivered, nil ones skipped. */
  function Messages<T>(events: seq<Event<T>>): seq<T> {
    if |events| == 0 then []
    else
      (if events[0].Fetched? && events[0].result.Ok? && events[0].result.value.Some?
       then [events[0].result.value.value] else []) + Messages(events[1..])
  }

  /** Stores every message in turn, stopping at the first error. */
  function HandleAll<S, T>(st: S, msgs: seq<T>, handle: (S, T) -> (Option<string>, S)): (Option<string>, S) {
    if |msgs| == 0 then (None, st)
    else
      match handle(st, msgs[0])
      case (Some(e), s1) => (Some(e), s1)
      case (None, s1) => HandleAll(s1, msgs[1..], handle)
  }

  /** Without a cancellation or a fetch error, the loop stores exactly the
      non-nil messages, in order, and returns the first store error. */
  lemma {:induction false} RunHandlesMessagesInOrder<S, T>(
      st: S, events: seq<Event<T>>, handle: (S, T) -> (Option<string>, S), cancelled: string)
    requires forall i :: 0 <= i < |events| ==> events[i].Fetched? && events[i].result.Ok?
    ensures var (e, s) := HandleAll(st, Messages(events), handle);
      Loop(st, events, handle, cancelled) == if e.Some? then Returned(e.value, s) else Waiting(s)
  {
    if |events| > 0 {
      var rest := events[1..];
      assert forall i :: 0 <= i < |rest| ==> rest[i].Fetched? && rest[i].result.Ok? by {
        forall i | 0 <= i < |rest| ensures rest[i].Fetched? && rest[i].result.Ok? {
          assert rest[i] == events[i + 1];
        }
      }
      match events[0].result.value
      case None =>
        assert Messages(events) == Messages(rest);
        RunHandlesMessagesInOrder(st, rest, handle, cancelled);
      case Some(msg) =>
        var ms := Messages(events);
        assert ms[0] == msg && ms[1..] == Messages(rest);
        var (e1, s1) := handle(st, msg);
        if e1.None? {
          RunHandlesMessagesInOrder(s1, rest, handle, cancelled);
        }
    }
  }

  /** A cancellation after `k` clean fetches ends the loop with the
      context's error, after storing the messages fetched before it. */
  lemma {:induction false} CancelStopsAfterPrefix<S, T>(
      st: S, events: seq<Event<T>>, k: nat, handle: (S, T) -> (Option<string>, S), cancelled: string)
    requires k < |events| && events[k] == Cancelled
    requires forall i :: 0 <= i < k ==> events[i].Fetched? && events[i].result.Ok?
    ensures var (e, s) := HandleAll(st, Messages(events[..k]), handle);
      Loop(st, events, handle, cancelled) == if e.Some? then Returned(e.value, s) else Returned(cancelled, s)
    decreases k
  {
    if k == 0 {
      assert events[..0] == [];
    } else {
      var rest := events[1..];
      assert rest[k - 1] == Cancelled;
      assert forall i :: 0 <= i < k - 1 ==> rest[i].Fetched? && rest[i].result.Ok? by {
        forall i | 0 <= i < k - 1 ensures rest[i].Fetched? && rest[i].result.Ok? {
          assert rest[i] == events[i + 1];
        }
      }
      assert events[..k][1..] == rest[..k - 1];
      match events[0].result.value
      case None =>
        assert Messages(events[..k]) == Messages(rest[..k - 1]);
        CancelStopsAfterPrefix(st, rest, k - 1, handle, cancelled);
      case Some(msg) =>
        var ms := Messages(events[..k]);
        assert ms[0] == msg && ms[1..] == Messages(rest[..k - 1]);
        var (e1, s1) := handle(st, msg);
        if e1.None? {
          CancelStopsAfterPrefix(s1, rest, k - 1, handle, cancelled);
        }
    }
  }
}

=== FILE: plugins.dfy ===
/** What every fingerprint plugin shares: the target it probes, the
    transport it reports and the service record it returns
    (`plugins.CreateServiceFrom`). */
module Plugins {
  import opened Wrappers
  import opened Bytes

  datatype Transport = TCP | UDP

  type uint16 = p: int | 0 <= p < 0x1_0000

  /** `plugins.Target`: `host` is the optional host name, `addr` the textual
      form of the IP address, `port` the TCP/UDP port. */
  datatype Target = Target(host: seq<byte>, addr: seq<byte>, port: uint16)

  /** The `*plugins.Service` a plugin returns on a positive identification. */
  datatype Detection<M> = Detection(
    target: Target,
    metadata: M,
    tls: bool,
    version: seq<byte>,
    transport: Transport)

  /** A send, receive or random-source failure; the driver's own error value
      is opaque here. */
  datatype IoError = IoError(code: int) | RandomizeError

  /** A plugin's `(*plugins.Service, error)`: `Ok(None)` is Go's `(nil, nil)`,
      "not this protocol". */
  type RunResult<M> = Result<Option<Detection<M>>, IoError>
}

=== FILE: raw_message.dfy ===
/** `bsonRawMessage`: a MongoDB field of any BSON type turned into JSON
    bytes on read (`UnmarshalBSONValue`) and written back out verbatim
    (`MarshalJSON`). The BSON and JSON libraries are parameters; the laws
    below are what the normalisation relies on. */
module RawMessage {
  import opened Wrappers
  import opened Bytes
  import Text

  /** The BSON type tag of the incoming value. */
  datatype BsonType = Null | Undefined | String | Binary | EmbeddedDocument | Array | OtherType(code: byte)

  /** The Go values the BSON decoder produces and `json.Marshal` consumes:
      a string, a byte slice (marshalled as a base64 string), a `bson.M`
      map, a `bson.A` slice, or any other scalar. */
  datatype GoValue =
    | GoString(text: seq<byte>)
    | GoBytes(data: seq<byte>)
    | GoMap(fields: map<string, GoValue>)
    | GoSlice(items: seq<GoValue>)
    | GoScalar(id: int)

  /** The library calls the normalisation makes. `None` is a Go error. */
  datatype Libs = Libs(
    unmarshalValue: (BsonType, seq<byte>) -> Option<GoValue>,
    jsonValid: seq<byte> -> bool,
    jsonMarshal: GoValue -> Option<seq<byte>>)

  /** What `encoding/json` guarantees: what it marshals is non-empty, valid
      JSON, and "null" is valid. */
  ghost predicate JsonLaws(libs: Libs) {
    && libs.jsonValid(Null4)
    && forall v: GoValue :: libs.jsonMarshal(v).Some? ==>
         |libs.jsonMarshal(v).value| > 0 && libs.jsonValid(libs.jsonMarshal(v).value)
  }

  /** What the BSON decoder returns for each type it is asked for. */
  ghost predicate BsonLaws(libs: Libs) {
    forall t: BsonType, data: seq<byte> :: libs.unmarshalValue(t, data).Some? ==>
      match t
      case String => libs.unmarshalValue(t, data).value.GoString?
      case Binary => libs.unmarshalValue(t, data).value.GoBytes?
      case EmbeddedDocument => libs.unmarshalValue(t, data).value.GoMap?
      case Array => libs.unmarshalValue(t, data).value.GoSlice?
      case _ => true
  }

  /** "null" */
  const Null4: seq<byte> := [0x6e, 0x75, 0x6c, 0x6c]

  datatype UnmarshalError = NilReceiver | BsonDecodeError | JsonMarshalError

  /** The UTF-8 encoding of a character `unicode.IsSpace` accepts, found at
      the start of `b`: its length in bytes, or 0. */
  function SpaceRuneAt(b: seq<byte>): (n: nat)
    ensures n <= |b| && n <= 3
  {
    if |b| >= 1 && (0x09 <= b[0] <= 0x0D || b[0] == 0x20) then 1
    else if |b| >= 2 && b[0] == 0xC2 && (b[1] == 0x85 || b[1] == 0xA0) then 2
    else if |b| >= 3 && b[0] == 0xE1 && b[1] == 0x9A && b[2] == 0x80 then 3
    else if |b| >= 3 && b[0] == 0xE2 && b[1] == 0x80
         && (0x80 <= b[2] <= 0x8A || b[2] == 0xA8 || b[2] == 0xA9 || b[2] == 0xAF) then 3
    else if |b| >= 3 && b[0] == 0xE2 && b[1] == 0x81 && b[2] == 0x9F then 3
    else if |b| >= 3 && b[0] == 0xE3 && b[1] == 0x80 && b[2] == 0x80 then 3
    else 0
  }

  /** `len(bytes.TrimSpace(b)) == 0`: `b` decodes as UTF-8 into white space
      only. An invalid byte decodes to U+FFFD, which is not white space. */
  function IsBlankUtf8(b: seq<byte>): bool
    decreases |b|
  {
    if |b| == 0 then true
    else
      var n := SpaceRuneAt(b);
      n > 0 && IsBlankUtf8(b[n..])
  }

  /** The UTF-8 encoding of one character. */
  function EncodeRune(c: char): (r: seq<byte>)
    ensures 1 <= |r| <= 4
  {
    var n := c as int;
    if n < 0x80 then [n]
    else if n < 0x800 then [0xC0 + n / 64, 0x80 + n % 64]
    else if n < 0x10000 then [0xE0 + n / 4096, 0x80 + (n / 64) % 64, 0x80 + n % 64]
    else [0xF0 + n / 262144, 0x80 + (n / 4096) % 64, 0x80 + (n / 64) % 64, 0x80 + n % 64]
  }

  /** The UTF-8 encoding of a string. */
  function EncodeUtf8(s: string): seq<byte> {
    if |s| == 0 then [] else EncodeRune(s[0]) + EncodeUtf8(s[1..])
  }

  /** The byte-level space recogniser reads exactly one white-space
      character, and nothing when the character is not white space. */
  lemma SpaceRuneOfEncoding(c: char, rest: seq<byte>)
    ensures SpaceRuneAt(EncodeRune(c) + rest) == if Text.IsGoSpace(c) then |EncodeRune(c)| else 0
  {
    var n := c as int;
    var e := EncodeRune(c);
    if n < 0x80 {
    } else if n < 0x800 {
      assert (e + rest)[0] == 0xC0 + n / 64 && (e + rest)[1] == 0x80 + n % 64;
    } else if n < 0x10000 {
      assert (e + rest)[0] == 0xE0 + n / 4096;
      assert (e + rest)[1] == 0x80 + (n / 64) % 64;
      assert (e + rest)[2] == 0x80 + n % 64;
      if n / 4096 == 1 && (n / 64) % 64 == 0x1A && n % 64 == 0 {
        assert n == 0x1680;
      }
      if n / 4096 == 2 && (n / 64) % 64 == 0 {
        assert 0x2000 <= n < 0x2040;
      }
      if n / 4096 == 2 && (n / 64) % 64 == 1 && n % 64 == 0x1F {
        assert n == 0x205F;
      }
      if n / 4096 == 3 && (n / 64) % 64 == 0 && n % 64 == 0 {
        assert n == 0x3000;
      }
    } else {
      assert (e + rest)[0] >= 0xF0;
    }
  }

  /** `bytes.TrimSpace` empties the UTF-8 encoding of a string exactly when
      every character of the string is white space for `unicode.IsSpace`. */
  lemma {:induction false} BlankIffAllSpace(s: string)
    ensures IsBlankUtf8(EncodeUtf8(s)) <==> Text.AllSatisfy(s, Text.IsGoSpace)
  {
    if |s| > 0 {
      var e := EncodeUtf8(s);
      SpaceRuneOfEncoding(s[0], EncodeUtf8(s[1..]));
      BlankIffAllSpace(s[1..]);
      assert e[|EncodeRune(s[0])|..] == EncodeUtf8(s[1..]);
      if Text.AllSatisfy(s[1..], Text.IsGoSpace) && Text.IsGoSpace(s[0]) {
        forall i | 0 <= i < |s| ensures Text.IsGoSpace(s[i]) {
          if i > 0 { assert s[i] == s[1..][i - 1]; }
        }
      }
      if Text.AllSatisfy(s, Text.IsGoSpace) {
        assert Text.IsGoSpace(s[0]);
        forall i | 0 <= i < |s| - 1 ensures Text.IsGoSpace(s[1..][i]) {
          assert s[1..][i] == s[i + 1];
        }
      }
    }
  }

  /** `UnmarshalBSONValue`: the receiver is `None` when the Go pointer is
      nil. The stored message is a byte sequence, empty for Go's nil. */
  function UnmarshalBsonValue(receiver: Option<seq<byte>>, t: BsonType, data: seq<byte>, libs: Libs)
    : (r: Result<seq<byte>, UnmarshalError>)
    requires BsonLaws(libs)
    ensures receiver.None? ==> r == Err(NilReceiver)
    ensures receiver.Some? && (t == Null || t == Undefined) ==> r == Ok([])
  {
    if receiver.None? then Err(NilReceiver)
    else
      match t
      case Null => Ok([])
      case Undefined => Ok([])
      case String => (
        match libs.unmarshalValue(t, data)
        case None => Err(BsonDecodeError)
        case Some(v) =>
          var b := v.text;
          if libs.jsonValid(b) then Ok(b)
          else MarshalOrFail(GoString(b), libs))
      case Binary => (
        match libs.unmarshalValue(t, data)
        case None => Err(BsonDecodeError)
        case Some(v) =>
          var b := v.data;
          if IsBlankUtf8(b) then Ok([])
          else if libs.jsonValid(b) then Ok(b)
          else MarshalOrFail(GoBytes(b), libs))
      case EmbeddedDocument => (
        match libs.unmarshalValue(t, data)
        case None => Err(BsonDecodeError)
        case Some(v) => MarshalOrFail(v, libs))
      case Array => (
        match libs.unmarshalValue(t, data)
        case None => Err(BsonDecodeError)
        case Some(v) =>
          if |v.items| == 1 then MarshalOrFail(v.items[0], libs)
          else MarshalOrFail(v, libs))
      case OtherType(_) =>
        match libs.unmarshalValue(t, data)
        case None => Err(BsonDecodeError)
        case Some(v) => MarshalOrFail(v, libs)
  }

  function MarshalOrFail(v: GoValue, libs: Libs): (r: Result<seq<byte>, UnmarshalError>)
    ensures r.Ok? <==> libs.jsonMarshal(v).Some?
    ensures r.Ok? ==> r.value == libs.jsonMarshal(v).value
  {
    match libs.jsonMarshal(v)
    case None => Err(JsonMarshalError)
    case Some(b) => Ok(b)
  }

  /** `MarshalJSON`: "null" for an empty message, the bytes otherwise. */
  function MarshalJson(m: seq<byte>): (r: seq<byte>)
    ensures |m| == 0 ==> r == Null4
    ensures |m| > 0 ==> r == m
  {
    if |m| == 0 then Null4 else m
  }

  /** Every successful decode stores nothing or valid JSON, so the message
      always marshals to valid JSON. */
  lemma DecodedIsJson(receiver: Option<seq<byte>>, t: BsonType, data: seq<byte>, libs: Libs)
    requires BsonLaws(libs) && JsonLaws(libs)
    requires UnmarshalBsonValue(receiver, t, data, libs).Ok?
    ensures var m := UnmarshalBsonValue(receiver, t, data, libs).value;
      |m| == 0 || libs.jsonValid(m)
    ensures libs.jsonValid(MarshalJson(UnmarshalBsonValue(receiver, t, data, libs).value))
  {
  }

  /** A BSON string: its text is kept verbatim when it already is JSON (so
      the string "42" becomes the number 42), and marshalled as a JSON string
      otherwise. */
  lemma StringCase(text: seq<byte>, data: seq<byte>, libs: Libs, m: seq<byte>)
    requires BsonLaws(libs)
    requires libs.unmarshalValue(String, data) == Some(GoString(text))
    ensures libs.jsonValid(text) ==> UnmarshalBsonValue(Some(m), String, data, libs) == Ok(text)
    ensures !libs.jsonValid(text) ==>
      UnmarshalBsonValue(Some(m), String, data, libs) == MarshalOrFail(GoString(text), libs)
  {
  }

  /** Binary data: blank (white space only, or empty) becomes nil, valid JSON
      is kept verbatim, and anything else is marshalled as a byte slice,
      which JSON encodes as a base64 string. */
  lemma BinaryCase(bytes: seq<byte>, data: seq<byte>, libs: Libs, m: seq<byte>)
    requires BsonLaws(libs)
    requires libs.unmarshalValue(Binary, data) == Some(GoBytes(bytes))
    ensures IsBlankUtf8(bytes) ==> UnmarshalBsonValue(Some(m), Binary, data, libs) == Ok([])
    ensures !IsBlankUtf8(bytes) && libs.jsonValid(bytes) ==>
      UnmarshalBsonValue(Some(m), Binary, data, libs) == Ok(bytes)
    ensures !IsBlankUtf8(bytes) && !libs.jsonValid(bytes) ==>
      UnmarshalBsonValue(Some(m), Binary, data, libs) == MarshalOrFail(GoBytes(bytes), libs)
  {
  }

  /** An array of one element is unwrapped to that element's encoding;
      arrays of any other length are encoded whole. An embedded document is
      encoded from its decoded map. */
  lemma ContainerCases(items: seq<GoValue>, fields: map<string, GoValue>, data: seq<byte>, libs: Libs, m: seq<byte>)
    requires BsonLaws(libs)
    ensures libs.unmarshalValue(Array, data) == Some(GoSlice(items)) ==>
      UnmarshalBsonValue(Some(m), Array, data, libs)
        == MarshalOrFail(if |items| == 1 then items[0] else GoSlice(items), libs)
    ensures libs.unmarshalValue(EmbeddedDocument, data) == Some(GoMap(fields)) ==>
      UnmarshalBsonValue(Some(m), EmbeddedDocument, data, libs) == MarshalOrFail(GoMap(fields), libs)
  {
  }

  /** Blank binary data in the sense of `bytes.TrimSpace`: ASCII spaces, a
      no-break space (C2 A0) and an ideographic space (E3 80 80) together
      are blank, while a lone C2 byte is not. */
  lemma BlankExamples()
    ensures IsBlankUtf8([0x20, 0x0A, 0xC2, 0xA0, 0xE3, 0x80, 0x80])
    ensures !IsBlankUtf8([0x20, 0xC2])
    ensures IsBlankUtf8([])
  {
    var ideographic: seq<byte> := [0xE3, 0x80, 0x80];
    BlankStep(ideographic, 3);
    var noBreak: seq<byte> := [0xC2, 0xA0] + ideographic;
    BlankStep(noBreak, 2);
    var newline: seq<byte> := [0x0A] + noBreak;
    BlankStep(newline, 1);
    var space: seq<byte> := [0x20] + newline;
    BlankStep(space, 1);
    assert space == [0x20, 0x0A, 0xC2, 0xA0, 0xE3, 0x80, 0x80];
    var lone: seq<byte> := [0x20, 0xC2];
    assert SpaceRuneAt(lone[1..]) == 0;
    BlankStep(lone, 1);
  }

  /** A byte string is blank when it opens with an `n`-byte space and the
      rest is blank. */
  lemma BlankStep(b: seq<byte>, n: nat)
    requires 0 < n == SpaceRuneAt(b)
    ensures IsBlankUtf8(b) == IsBlankUtf8(b[n..])
  {
  }
}

=== FILE: search_query.dfy ===
/** The search box of the UI (`rigour-ui/components/SearchHeader.tsx`):
    `parseQuery`, which reads "field: value" with the regular expression
    `(\w+(?:\.\w+)*)\s*:\s*(.+)`, and the URL parameters `handleSearch`
    pushes.

    The expression is unanchored, so JavaScript's `match` returns the match
    with the leftmost start. From a given start the match is determined
    without search: the field is the greedy extent of `\w+(?:\.\w+)*`
    (a shorter field would be followed by a word character or a dot, which
    neither `\s` nor ':' accepts); the colon must follow after optional
    white space; `\s*` then takes all white space and `.+` the rest of the
    line. Only when the white space reaches the end of the input does the
    engine back off, handing `.+` a single white-space character that is
    not a line terminator, which `trim()` turns into "". `MatchAt` computes
    exactly this. */
module SearchQuery {
  import opened Wrappers
  import opened Text
  import Json
  import opened Bytes

  /** `\w`. */
  predicate IsWordChar(c: char) {
    ('a' <= c <= 'z') || ('A' <= c <= 'Z') || ('0' <= c <= '9') || c == '_'
  }

  /** The language of `\w+(?:\.\w+)*`: word characters, where every dot is
      followed by a word character and none comes first. */
  predicate IsDottedName(f: string) {
    && |f| > 0
    && IsWordChar(f[0])
    && forall j :: 0 <= j < |f| ==> NameCharAt(f, j, |f|)
  }

  /** `s[j]` may stand at position `j` of a dotted name ending at `end`: a
      word character, or a dot with a word character after it. */
  predicate NameCharAt(s: string, j: nat, end: nat) {
    && j < |s|
    && (IsWordChar(s[j]) || (s[j] == '.' && j + 1 < end <= |s| && IsWordChar(s[j + 1])))
  }

  /** The end of the longest run from `i` of characters satisfying `p`. */
  function RunEnd(s: string, i: nat, p: char -> bool): (r: nat)
    requires i <= |s|
    ensures i <= r <= |s|
    ensures forall j :: i <= j < r ==> p(s[j])
    ensures r < |s| ==> !p(s[r])
    decreases |s| - i
  {
    if i < |s| && p(s[i]) then RunEnd(s, i + 1, p) else i
  }

  predicate NotLineTerminator(c: char) { !IsJsLineTerminator(c) }

  /** The greedy end of `\w+(?:\.\w+)*` from `i`. */
  function FieldEnd(s: string, i: nat): (r: nat)
    requires i < |s| && IsWordChar(s[i])
    ensures i < r <= |s|
    ensures forall j :: i <= j < r ==> NameCharAt(s, j, r)
    ensures r < |s| ==> !IsWordChar(s[r]) && !(s[r] == '.' && r + 1 < |s| && IsWordChar(s[r + 1]))
    decreases |s| - i
  {
    var e := RunEnd(s, i, IsWordChar);
    assert forall j :: i <= j < e ==> IsWordChar(s[j]);
    if e + 1 < |s| && s[e] == '.' && IsWordChar(s[e + 1]) then
      var rest := FieldEnd(s, e + 1);
      assert NameCharAt(s, e, rest);
      assert forall j :: i <= j < e ==> NameCharAt(s, j, rest);
      rest
    else e
  }

  /** What `parseQuery` returns: the object `{[field]: value}`. */
  datatype Query = Query(field: string, value: string)

  /** A match of the expression: the field group, and the index right
      after the colon where `\s*(.+)` begins. */
  datatype Match = Match(field: string, valueStart: nat)

  /** `(.+)` can match after the colon at `c - 1`: some character from `c`
      on is not a line terminator. */
  predicate HasValue(s: string, c: nat)
    requires c <= |s|
  {
    RunEnd(s, c, IsJsLineTerminator) < |s|
  }

  /** What `\s*(.+)` captures after the colon at `c - 1`, trimmed. When the
      white space runs to the end, the capture is a single white-space
      character, which trims to "". */
  function ValueOf(s: string, c: nat): string
    requires c <= |s|
  {
    var k := RunEnd(s, c, IsJsSpace);
    if k < |s| then JsTrim(s[k..RunEnd(s, k, NotLineTerminator)]) else ""
  }

  /** The value is trimmed, and a value exists exactly when something other
      than line terminators follows the colon. */
  lemma ValueOfShape(s: string, c: nat)
    requires c <= |s|
    ensures JsTrim(ValueOf(s, c)) == ValueOf(s, c)
    ensures !HasValue(s, c) <==> forall j :: c <= j < |s| ==> IsJsLineTerminator(s[j])
  {
    var k := RunEnd(s, c, IsJsSpace);
    if k < |s| {
      JsTrimIdempotent(s[k..RunEnd(s, k, NotLineTerminator)]);
    } else {
      assert JsTrim("") == "";
    }
  }

  /** The match of the expression starting exactly at `i`, if any. */
  function MatchAt(s: string, i: nat): (r: Option<Match>)
    requires i <= |s|
    ensures r.Some? ==> r.value.valueStart <= |s|
  {
    if i < |s| && IsWordChar(s[i]) then AfterField(s, i, FieldEnd(s, i))
    else None
  }

  /** The rest of a match whose field spans `[i, e)`: optional white space,
      the colon, and a value. */
  function AfterField(s: string, i: nat, e: nat): (r: Option<Match>)
    requires i <= e <= |s|
    ensures r.Some? ==> r.value.valueStart <= |s|
  {
    var c := RunEnd(s, e, IsJsSpace);
    if c < |s| && s[c] == ':' && HasValue(s, c + 1) then Some(Match(s[i..e], c + 1))
    else None
  }

  /** A match is a dotted name found at its start, followed (after white
      space) by a colon. */
  lemma MatchAtShape(s: string, i: nat)
    requires i <= |s| && MatchAt(s, i).Some?
    ensures var m := MatchAt(s, i).value;
      && i + |m.field| < |s| && IsDottedName(m.field) && OccursAt(s, m.field, i)
      && ':' in s[i + |m.field|..]
  {
    var e := FieldEnd(s, i);
    var c := RunEnd(s, e, IsJsSpace);
    DottedSlice(s, i, e);
    ColonIn(s, e, c);
  }

  lemma DottedSlice(s: string, i: nat, e: nat)
    requires i < e <= |s| && IsWordChar(s[i])
    requires forall j :: i <= j < e ==> NameCharAt(s, j, e)
    ensures IsDottedName(s[i..e]) && OccursAt(s, s[i..e], i)
  {
    var f := s[i..e];
    forall j | 0 <= j < |f| ensures NameCharAt(f, j, |f|) {
      assert NameCharAt(s, i + j, e);
      assert f[j] == s[i + j];
      if j + 1 < |f| { assert f[j + 1] == s[i + j + 1]; }
    }
  }

  lemma ColonIn(s: string, e: nat, c: nat)
    requires e <= c < |s| && s[c] == ':'
    ensures ':' in s[e..]
  {
    assert s[e..][c - e] == ':';
  }

  lemma JsTrimIdempotent(s: string)
    ensures JsTrim(JsTrim(s)) == JsTrim(s)
  {
    var t := JsTrim(s);
    if |t| > 0 {
      assert TrimLeft(t, IsJsSpace) == t;
      assert TrimRight(t, IsJsSpace) == t;
    }
  }

  /** The least index in `[lo, hi)` satisfying `p`, if any. */
  function FirstIndex(lo: nat, hi: nat, p: nat -> bool): (r: Option<nat>)
    requires lo <= hi
    ensures r.Some? ==> lo <= r.value < hi && p(r.value)
    ensures r.Some? ==> forall j :: lo <= j < r.value ==> !p(j)
    ensures r.None? ==> forall j :: lo <= j < hi ==> !p(j)
    decreases hi - lo
  {
    if lo == hi then None
    else if p(lo) then Some(lo)
    else FirstIndex(lo + 1, hi, p)
  }

  /** The starts at which the expression matches. */
  function MatchesAt(s: string): nat -> bool {
    (j: nat) => j <= |s| && MatchAt(s, j).Some?
  }

  /** `parseQuery`: `null` is `None`; the value is the trimmed capture. */
  function ParseQuery(s: string): (r: Option<Query>)
    ensures r.Some? ==> IsDottedName(r.value.field) && JsTrim(r.value.value) == r.value.value
  {
    match FirstIndex(0, |s|, MatchesAt(s))
    case None => None
    case Some(j) =>
      var m := MatchAt(s, j).value;
      MatchAtShape(s, j);
      ValueOfShape(s, m.valueStart);
      Some(Query(m.field, ValueOf(s, m.valueStart)))
  }

  /** The query of the match at the leftmost start `j`. */
  lemma ParseQueryAt(s: string, j: nat, m: Match, v: string)
    requires FirstIndex(0, |s|, MatchesAt(s)) == Some(j) && MatchAt(s, j) == Some(m)
    requires ValueOf(s, m.valueStart) == v
    ensures ParseQuery(s) == Some(Query(m.field, v))
  {
  }

  /** `parseQuery` returns the match with the leftmost start, and `null`
      exactly when the expression matches nowhere. */
  lemma ParseQueryLeftmost(s: string)
    ensures ParseQuery(s).None? <==> forall j :: 0 <= j <= |s| ==> MatchAt(s, j).None?
    ensures ParseQuery(s).Some? ==>
      exists j :: 0 <= j < |s| && MatchAt(s, j).Some?
        && ParseQuery(s) == Some(Query(MatchAt(s, j).value.field, ValueOf(s, MatchAt(s, j).value.valueStart)))
        && forall k :: 0 <= k < j ==> MatchAt(s, k).None?
  {
    var p := MatchesAt(s);
    match FirstIndex(0, |s|, p)
    case None =>
      forall j | 0 <= j <= |s| ensures MatchAt(s, j).None? {
        if j < |s| { assert !p(j); }
      }
    case Some(m) =>
      forall k | 0 <= k < m ensures MatchAt(s, k).None? {
        assert !p(k);
      }
  }

  /** Without a colon nothing parses. */
  lemma NoColonNoQuery(s: string)
    requires ':' !in s
    ensures ParseQuery(s).None?
  {
    assert forall k :: 0 <= k < |s| ==> s[k] != ':';
    ParseQueryLeftmost(s);
  }

  /** A dotted name at offset `o`, followed by a colon, is taken whole as
      the field from any of its segment starts. */
  lemma {:induction false} FieldEndOfName(s: string, o: nat, f: string, i: nat)
    requires IsDottedName(f) && o + |f| < |s| && s[o + |f|] == ':'
    requires forall j :: 0 <= j < |f| ==> s[o + j] == f[j]
    requires i < |f| && IsWordChar(f[i]) && (i == 0 || f[i - 1] == '.')
    ensures FieldEnd(s, o + i) == o + |f|
    decreases |f| - i
  {
    var e := RunEnd(s, o + i, IsWordChar);
    assert e <= o + |f|;
    if e < o + |f| {
      assert NameCharAt(f, e - o, |f|);
      FieldEndOfName(s, o, f, e - o + 1);
    }
  }

  /** A value needs no backing off when it starts with a non-space. */
  lemma ValueOfTrimmed(s: string, c: nat, v: string)
    requires c < |s| && s[c] == ' ' && s[c + 1..] == v
    requires JsTrim(v) == v
    requires forall j :: 0 <= j < |v| ==> NotLineTerminator(v[j])
    ensures HasValue(s, c) && ValueOf(s, c) == v
  {
    var k := RunEnd(s, c, IsJsSpace);
    if |v| == 0 {
      assert k == |s|;
      assert NotLineTerminator(s[c]);
    } else {
      assert TrimLeft(v, IsJsSpace) == v;
      assert s[c + 1] == v[0];
      assert k == c + 1;
      assert RunEnd(s, k, NotLineTerminator) == |s|;
      assert s[k..|s|] == v;
    }
  }

  /** The match at `o` assembled from its parts: the field up to `e`, the
      colon at `e`, and a value after it. */
  lemma MatchOfParts(s: string, o: nat, e: nat)
    requires o < e < |s| && IsWordChar(s[o]) && FieldEnd(s, o) == e && s[e] == ':'
    requires HasValue(s, e + 1)
    ensures MatchAt(s, o) == Some(Match(s[o..e], e + 1))
  {
    ColonAfterField(s, o, e);
  }

  lemma ColonAfterField(s: string, o: nat, e: nat)
    requires o <= e < |s| && s[e] == ':'
    requires HasValue(s, e + 1)
    ensures AfterField(s, o, e) == Some(Match(s[o..e], e + 1))
  {
    RunEndAt(s, e, e, IsJsSpace);
  }

  /** `s` holds "field: value" from offset `o` to its end, for a dotted
      field and a trimmed single-line value. */
  predicate RenderedAt(s: string, o: nat, f: string, v: string) {
    && IsDottedName(f) && JsTrim(v) == v
    && (forall j :: 0 <= j < |v| ==> NotLineTerminator(v[j]))
    && |s| == o + |f| + 2 + |v| && s[o + |f|] == ':' && s[o + |f| + 1] == ' '
    && (forall j :: 0 <= j < |f| ==> s[o + j] == f[j])
    && s[o + |f| + 2..] == v
  }

  /** The match at offset `o` of a text laid out there as "field: value". */
  lemma MatchOfRendered(s: string, o: nat, f: string, v: string)
    requires RenderedAt(s, o, f, v)
    ensures MatchAt(s, o) == Some(Match(f, o + |f| + 1))
    ensures ValueOf(s, o + |f| + 1) == v
  {
    FieldEndOfName(s, o, f, 0);
    ValueOfTrimmed(s, o + |f| + 1, v);
    SliceOf(s, o, f);
    assert s[o] == f[0];
    MatchOfParts(s, o, o + |f|);
  }

  lemma SliceOf(s: string, o: nat, f: string)
    requires o + |f| <= |s| && forall j :: 0 <= j < |f| ==> s[o + j] == f[j]
    ensures s[o..o + |f|] == f
  {
  }

  /** Rendering a query as "field: value" and parsing it gives it back, for
      every dotted field and every trimmed single-line value (the empty
      value included). */
  lemma RenderedQueryParses(f: string, v: string)
    requires IsDottedName(f) && JsTrim(v) == v
    requires forall j :: 0 <= j < |v| ==> NotLineTerminator(v[j])
    ensures ParseQuery(f + ": " + v) == Some(Query(f, v))
  {
    var s := f + ": " + v;
    forall j | 0 <= j < |f| ensures s[j] == f[j] { }
    assert s[|f|] == ':' && s[|f| + 1] == ' ' && s[|f| + 2..] == v;
    assert RenderedAt(s, 0, f, v);
    MatchOfRendered(s, 0, f, v);
    FirstIndexAt(0, |s|, MatchesAt(s), 0);
    ParseQueryAt(s, 0, Match(f, |f| + 1), v);
  }

  /** `handleSearch`: the parameters of the pushed URL. An empty box and
      free text that does not parse both push no parameter; a parsed query
      pushes the one `filter` parameter, and nothing of the current facet
      selection is kept. */
  function SearchParams(query: string): (r: seq<(string, string)>)
    ensures |r| <= 1
    ensures |r| == 1 <==> ParseQuery(query).Some?
    ensures |r| == 1 ==> r[0].0 == "filter"
    ensures |r| == 1 ==> r[0].1 == Json.SingleEntryObject(ParseQuery(query).value.field, ParseQuery(query).value.value)
  {
    if query == "" then []
    else
      match ParseQuery(query)
      case None => []
      case Some(q) => [("filter", Json.SingleEntryObject(q.field, q.value))]
  }

  /** The pushed filter names the rendered field and value. */
  lemma SearchParamsOfRendered(f: string, v: string)
    requires IsDottedName(f) && JsTrim(v) == v
    requires forall j :: 0 <= j < |v| ==> NotLineTerminator(v[j])
    ensures SearchParams(f + ": " + v) == [("filter", Json.SingleEntryObject(f, v))]
  {
    RenderedQueryParses(f, v);
    SearchParamsOfParsed(f + ": " + v, Query(f, v));
  }

  lemma SearchParamsOfParsed(query: string, q: Query)
    requires ParseQuery(query) == Some(q)
    ensures SearchParams(query) == [("filter", Json.SingleEntryObject(q.field, q.value))]
  {
    var r := SearchParams(query);
    assert r == [r[0]];
  }

  /** A value of white space parses as "". */
  lemma EmptyValue()
    ensures ParseQuery("a: ") == Some(Query("a", ""))
  {
    RenderedQueryParses("a", "");
    assert "a: " == "a" + ": " + "";
  }

  /** Before a word and a blank nothing matches: the field would end at
      the blank, and a word character rather than a colon follows it. */
  lemma WordThenBlank(s: string, n: nat, j: nat)
    requires n + 1 < |s| && s[n] == ' ' && IsWordChar(s[n + 1])
    requires forall k :: 0 <= k < n ==> IsWordChar(s[k])
    requires j <= n
    ensures MatchAt(s, j).None?
  {
    if j < n {
      RunEndAt(s, j, n, IsWordChar);
      assert FieldEnd(s, j) == n;
      RunEndAt(s, n, n + 1, IsJsSpace);
      assert AfterField(s, j, n).None?;
    }
  }

  /** A run from `i` ends at the first index that fails `p`. */
  lemma RunEndAt(s: string, i: nat, n: nat, p: char -> bool)
    requires i <= n < |s| && !p(s[n])
    requires forall k :: i <= k < n ==> p(s[k])
    ensures RunEnd(s, i, p) == n
  {
  }

  /** The least index is the one before which nothing satisfies `p`. */
  lemma FirstIndexAt(lo: nat, hi: nat, p: nat -> bool, m: nat)
    requires lo <= m < hi && p(m)
    requires forall j :: lo <= j < m ==> !p(j)
    ensures FirstIndex(lo, hi, p) == Some(m)
  {
  }

  /** A match right after a word and a blank is the leftmost one. */
  lemma MatchAfterWord(s: string, o: nat, m: Match, v: string)
    requires 0 < o < |s| && s[o - 1] == ' '
    requires forall k :: 0 <= k < o - 1 ==> IsWordChar(s[k])
    requires MatchAt(s, o) == Some(m) && ValueOf(s, m.valueStart) == v
    ensures ParseQuery(s) == Some(Query(m.field, v))
  {
    var p := MatchesAt(s);
    forall j | 0 <= j < o ensures !p(j) {
      WordThenBlank(s, o - 1, j);
    }
    FirstIndexAt(0, |s|, p, o);
    ParseQueryAt(s, o, m, v);
  }

  /** The leftmost match wins: a word before the field is dropped, so
      "x y: z" gives the field "y". */
  lemma EarlierWordDropped(w: string, f: string, v: string)
    requires |w| > 0 && forall j :: 0 <= j < |w| ==> IsWordChar(w[j])
    requires IsDottedName(f) && JsTrim(v) == v
    requires forall j :: 0 <= j < |v| ==> NotLineTerminator(v[j])
    ensures ParseQuery(w + " " + f + ": " + v) == Some(Query(f, v))
  {
    var s := w + " " + f + ": " + v;
    forall j | 0 <= j < |f| ensures s[|w| + 1 + j] == f[j] { }
    forall k | 0 <= k < |w| ensures IsWordChar(s[k]) { assert s[k] == w[k]; }
    assert s[|w|] == ' ' && s[|w| + 1 + |f|] == ':' && s[|w| + 1 + |f| + 1] == ' ' && s[|w| + 1 + |f| + 2..] == v;
    assert RenderedAt(s, |w| + 1, f, v);
    WordThenRendered(s, |w| + 1, f, v);
  }

  /** A word, a blank, and then "field: value" from `o` on. */
  lemma WordThenRendered(s: string, o: nat, f: string, v: string)
    requires 0 < o <= |s| && s[o - 1] == ' ' && forall k :: 0 <= k < o - 1 ==> IsWordChar(s[k])
    requires RenderedAt(s, o, f, v)
    ensures ParseQuery(s) == Some(Query(f, v))
  {
    MatchOfRendered(s, o, f, v);
    MatchAfterWord(s, o, Match(f, o + |f| + 1), v);
  }
}

=== FILE: seqs.dfy ===
/** Sequence helpers for the query stages the repositories run: `$match`
    (a filter that keeps order) and `$group` with `$sum: 1` (a tally of
    keys). */
module Seqs {

  /** The elements of `s` satisfying `p`, in their original order. */
  function Filter<T>(s: seq<T>, p: T -> bool): (r: seq<T>)
    ensures |r| <= |s|
    ensures forall i :: 0 <= i < |r| ==> p(r[i])
    ensures forall i :: 0 <= i < |r| ==> r[i] in s
    ensures forall i :: 0 <= i < |s| && p(s[i]) ==> s[i] in r
  {
    if |s| == 0 then []
    else if p(s[0]) then [s[0]] + Filter(s[1..], p)
    else Filter(s[1..], p)
  }

  lemma {:induction false} FilterAppend<T>(a: seq<T>, b: seq<T>, p: T -> bool)
    ensures Filter(a + b, p) == Filter(a, p) + Filter(b, p)
    decreases |a|
  {
    if |a| > 0 {
      assert (a + b)[1..] == a[1..] + b;
      FilterAppend(a[1..], b, p);
    } else {
      assert a + b == b;
    }
  }

  /** Filtering keeps order: a sequence ordered by `lt` stays ordered. */
  lemma {:induction false} FilterOrdered<T>(s: seq<T>, p: T -> bool, lt: (T, T) -> bool)
    requires forall i, j :: 0 <= i < j < |s| ==> lt(s[i], s[j])
    ensures forall i, j :: 0 <= i < j < |Filter(s, p)| ==> lt(Filter(s, p)[i], Filter(s, p)[j])
    decreases |s|
  {
    if |s| > 0 {
      var t := s[1..];
      assert forall i, j :: 0 <= i < j < |t| ==> lt(t[i], t[j]) by {
        forall i, j | 0 <= i < j < |t| ensures lt(t[i], t[j]) {
          assert t[i] == s[i + 1] && t[j] == s[j + 1];
        }
      }
      FilterOrdered(t, p, lt);
      var rest := Filter(t, p);
      if p(s[0]) {
        var r := [s[0]] + rest;
        forall i, j | 0 <= i < j < |r| ensures lt(r[i], r[j]) {
          if i == 0 {
            var k :| 0 <= k < |t| && t[k] == rest[j - 1];
            assert s[k + 1] == r[j];
          } else {
            assert r[i] == rest[i - 1] && r[j] == rest[j - 1];
          }
        }
      }
    }
  }

  /** Filters that agree on every element select the same elements. */
  lemma {:induction false} FilterAgree<T>(s: seq<T>, p: T -> bool, q: T -> bool)
    requires forall i :: 0 <= i < |s| ==> (p(s[i]) <==> q(s[i]))
    ensures Filter(s, p) == Filter(s, q)
    decreases |s|
  {
    if |s| > 0 {
      assert forall i :: 0 <= i < |s[1..]| ==> s[1..][i] == s[i + 1];
      FilterAgree(s[1..], p, q);
    }
  }

  /** A filter that keeps every element changes nothing. */
  lemma {:induction false} FilterAll<T>(s: seq<T>, p: T -> bool)
    requires forall i :: 0 <= i < |s| ==> p(s[i])
    ensures Filter(s, p) == s
    decreases |s|
  {
    if |s| > 0 {
      assert forall i :: 0 <= i < |s[1..]| ==> s[1..][i] == s[i + 1];
      FilterAll(s[1..], p);
      assert s == [s[0]] + s[1..];
    }
  }

  /** `$group` by key with `$sum: 1`: each distinct key of `keys` mapped to
      the number of times it occurs. */
  function Tally(keys: seq<string>): (r: map<string, int>)
    ensures forall k :: k in r <==> k in keys
    ensures forall k | k in r :: r[k] == multiset(keys)[k]
    decreases |keys|
  {
    if |keys| == 0 then map[]
    else
      var init := keys[..|keys| - 1];
      var last := keys[|keys| - 1];
      var m := Tally(init);
      assert keys == init + [last];
      m[last := (if last in m then m[last] else 0) + 1]
  }

  lemma TallyEmpty()
    ensures Tally([]) == map[]
  {
  }
}

=== FILE: service_record.dfy ===
/** `types.Service`, the record the persistence layer stores for every
    fingerprinted service, and `FromPluginService`, which builds it from a
    plugin's result by decoding the raw JSON metadata into the one field
    that belongs to the service's protocol. */
module ServiceRecord {
  import opened Wrappers
  import opened Bytes

  /** Go's `time.Time` as an opaque instant; 0 is the zero time. */
  type Time = int

  /** The 38 protocol-specific metadata fields of `types.Service`, in
      declaration order (which is also the order of the `switch`). */
  datatype MetaKind =
    | MetaHTTP | MetaHTTPS | MetaSSH | MetaRDP | MetaSMB | MetaRPC
    | MetaMSSQL | MetaNetbios | MetaKafka | MetaOracle | MetaMySQL | MetaSMTP
    | MetaSMTPS | MetaLDAP | MetaModbus | MetaLDAPS | MetaIMAP | MetaRsync
    | MetaRtsp | MetaIMAPS | MetaMQTT | MetaPOP3 | MetaPOP3S | MetaFTP
    | MetaPostgreSQL | MetaVNC | MetaTelnet | MetaRedis | MetaSNMP | MetaNTP
    | MetaIPSEC | MetaStun | MetaDNS | MetaDHCP | MetaEcho | MetaIPMI
    | MetaJDWP | MetaMinecraftJava

  const AllKinds: seq<MetaKind> := [
    MetaHTTP, MetaHTTPS, MetaSSH, MetaRDP, MetaSMB, MetaRPC,
    MetaMSSQL, MetaNetbios, MetaKafka, MetaOracle, MetaMySQL, MetaSMTP,
    MetaSMTPS, MetaLDAP, MetaModbus, MetaLDAPS, MetaIMAP, MetaRsync,
    MetaRtsp, MetaIMAPS, MetaMQTT, MetaPOP3, MetaPOP3S, MetaFTP,
    MetaPostgreSQL, MetaVNC, MetaTelnet, MetaRedis, MetaSNMP, MetaNTP,
    MetaIPSEC, MetaStun, MetaDNS, MetaDHCP, MetaEcho, MetaIPMI,
    MetaJDWP, MetaMinecraftJava]

  lemma AllKindsComplete(k: MetaKind)
    ensures k in AllKinds
  {
  }

  /** `plugins.Service` as the crawler emits it: `raw` is the protocol
      metadata as JSON. */
  datatype PluginService = PluginService(
    ip: string, port: int, protocol: string, tls: bool, transport: string, raw: seq<byte>)

  /** `types.Service`: `metadata` holds the non-nil metadata pointers, keyed by
      field; a decoded metadata struct is a value of type `M`. */
  datatype Service<M> = Service(
    ip: string, port: int, protocol: string, tls: bool, transport: string,
    lastScan: Time, metadata: map<MetaKind, M>)

  /** The `plugins.ProtoX` constants the `switch` compares against: distinct
      names, one per field. */
  predicate DistinctNames(protoName: MetaKind -> string) {
    forall a: MetaKind, b: MetaKind :: protoName(a) == protoName(b) ==> a == b
  }

  /** The first field in `kinds` whose protocol constant is `protocol`. */
  function FindKind(kinds: seq<MetaKind>, protocol: string, protoName: MetaKind -> string): (r: Option<MetaKind>)
    ensures r.Some? ==> r.value in kinds && protoName(r.value) == protocol
    ensures r.None? ==> forall i :: 0 <= i < |kinds| ==> protoName(kinds[i]) != protocol
  {
    if |kinds| == 0 then None
    else if protoName(kinds[0]) == protocol then Some(kinds[0])
    else FindKind(kinds[1..], protocol, protoName)
  }

  /** The `switch` on `Protocol`: the case that matches, if any. */
  function KindOf(protocol: string, protoName: MetaKind -> string): (r: Option<MetaKind>)
    ensures r.Some? <==> exists k: MetaKind :: protoName(k) == protocol
    ensures r.Some? ==> protoName(r.value) == protocol
  {
    NoKindFound(protocol, protoName);
    FindKind(AllKinds, protocol, protoName)
  }

  lemma NoKindFound(protocol: string, protoName: MetaKind -> string)
    ensures FindKind(AllKinds, protocol, protoName).None? ==> forall k: MetaKind :: protoName(k) != protocol
  {
    if FindKind(AllKinds, protocol, protoName).None? {
      forall k: MetaKind ensures protoName(k) != protocol {
        AllKindsComplete(k);
      }
    }
  }

  /** `FromPluginService`: the plain fields are copied, `LastScan` is the
      argument, and the metadata field of the matching protocol is set when
      `unmarshal` (Go's `json.Unmarshal` into that field's struct) accepts
      `raw`. */
  function FromPluginService<M>(p: PluginService, lastScan: Time, protoName: MetaKind -> string,
                                unmarshal: (MetaKind, seq<byte>) -> Option<M>): (s: Service<M>)
    ensures s.ip == p.ip && s.port == p.port && s.protocol == p.protocol
    ensures s.tls == p.tls && s.transport == p.transport && s.lastScan == lastScan
    ensures |s.metadata| <= 1
    ensures forall k :: k in s.metadata ==> protoName(k) == p.protocol && unmarshal(k, p.raw) == Some(s.metadata[k])
  {
    WithKind(p, lastScan, KindOf(p.protocol, protoName), unmarshal)
  }

  /** The record once the `switch` has picked the field `kind`. */
  function WithKind<M>(p: PluginService, lastScan: Time, kind: Option<MetaKind>,
                       unmarshal: (MetaKind, seq<byte>) -> Option<M>): (s: Service<M>)
    ensures s.ip == p.ip && s.port == p.port && s.protocol == p.protocol
    ensures s.tls == p.tls && s.transport == p.transport && s.lastScan == lastScan
    ensures |s.metadata| <= 1
    ensures forall k :: k in s.metadata ==> kind == Some(k) && unmarshal(k, p.raw) == Some(s.metadata[k])
  {
    match kind
    case None => Service(p.ip, p.port, p.protocol, p.tls, p.transport, lastScan, map[])
    case Some(k) =>
      match unmarshal(k, p.raw)
      case None => Service(p.ip, p.port, p.protocol, p.tls, p.transport, lastScan, map[])
      case Some(m) => Service(p.ip, p.port, p.protocol, p.tls, p.transport, lastScan, map[k := m])
  }

  /** With distinct protocol constants, a field is set exactly when it is
      the protocol's own field and its JSON decodes; so an unknown protocol
      or undecodable metadata leaves every field nil. */
  lemma MetadataIff<M>(p: PluginService, lastScan: Time, protoName: MetaKind -> string,
                       unmarshal: (MetaKind, seq<byte>) -> Option<M>, k: MetaKind)
    requires DistinctNames(protoName)
    ensures k in FromPluginService(p, lastScan, protoName, unmarshal).metadata
        <==> protoName(k) == p.protocol && unmarshal(k, p.raw).Some?
  {
    if protoName(k) == p.protocol {
      KindOfUnique(p.protocol, protoName, k);
      MetadataOfKind(p, lastScan, protoName, unmarshal, k);
    }
  }

  /** The metadata once the protocol's field is known. */
  lemma MetadataOfKind<M>(p: PluginService, lastScan: Time, protoName: MetaKind -> string,
                          unmarshal: (MetaKind, seq<byte>) -> Option<M>, k: MetaKind)
    requires KindOf(p.protocol, protoName) == Some(k)
    ensures FromPluginService(p, lastScan, protoName, unmarshal).metadata
         == if unmarshal(k, p.raw).Some? then map[k := unmarshal(k, p.raw).value] else map[]
  {
    assert FromPluginService(p, lastScan, protoName, unmarshal) == WithKind(p, lastScan, Some(k), unmarshal);
  }

  lemma KindOfUnique(protocol: string, protoName: MetaKind -> string, k: MetaKind)
    requires DistinctNames(protoName) && protoName(k) == protocol
    ensures KindOf(protocol, protoName) == Some(k)
  {
    var r := KindOf(protocol, protoName);
    assert r.Some? by {
      assert protoName(k) == protocol;
    }
    assert protoName(r.value) == protoName(k);
  }

  /** Example: the SSH field is set exactly for an "ssh" service whose raw
      JSON decodes as SSH metadata. */
  lemma SshDispatch<M>(p: PluginService, lastScan: Time, protoName: MetaKind -> string,
                       unmarshal: (MetaKind, seq<byte>) -> Option<M>)
    requires DistinctNames(protoName) && protoName(MetaSSH) == "ssh"
    requires p.protocol == "ssh" && unmarshal(MetaSSH, p.raw).Some?
    ensures FromPluginService(p, lastScan, protoName, unmarshal).metadata
         == map[MetaSSH := unmarshal(MetaSSH, p.raw).value]
  {
    KindOfUnique(p.protocol, protoName, MetaSSH);
    MetadataOfKind(p, lastScan, protoName, unmarshal, MetaSSH);
  }
}

=== FILE: service_repo.dfy ===
/** The MongoDB service repository (`rigour/internal/storage/mongodb/mongodb.go`)
    over an in-memory collection. The collection is kept in `ip` order, the
    order of the `$sort` stage of `Search`, so that a page is a prefix of the
    matching documents. Caller-supplied filter conditions are evaluated by a
    parameter; driver faults are parameters. */
module ServiceRepo {
  import opened Wrappers
  import opened Text
  import opened Storage
  import opened Bytes
  import Seqs
  import RawMessage
  import GeoIp
  import ServiceRecord

  type Time = ServiceRecord.Time

  /** `serviceDocument`. `metadata` is the byte slice as written, which the
      driver stores as a BSON binary value. */
  datatype ServiceDocument = ServiceDocument(
    port: int, protocol: string, tls: bool, transport: string,
    metadata: seq<byte>, timestamp: Time)

  /** `hostDocument`: `id` is the hex form of its ObjectId. */
  datatype HostDocument = HostDocument(
    id: string, ip: string, country: string, asn: string,
    services: seq<ServiceDocument>, geoip: Option<GeoIp.Record>, timestamp: Time)

  /** `storage.Service` and `storage.Host`. */
  datatype StoredService = StoredService(
    port: int, protocol: string, tls: bool, transport: string,
    metadata: seq<byte>, timestamp: Time)

  datatype StoredHost = StoredHost(
    id: string, ip: string, country: string, asn: string,
    services: seq<StoredService>, geoip: Option<GeoIp.Record>, timestamp: Time)

  /** `enricher.EnrichedServiceEvent`. */
  datatype ServiceEvent = ServiceEvent(
    timestamp: Time, ip: string, port: int, protocol: string, tls: bool,
    transport: string, metadata: seq<byte>, geoip: Option<GeoIp.Record>)

  const NilRepository: string := "mongodb: repository is nil"

  // ---------------------------------------------------------------------
  // Document conversion

  function ServiceOf(d: ServiceDocument): StoredService {
    StoredService(d.port, d.protocol, d.tls, d.transport, d.metadata, d.timestamp)
  }

  function ServicesOf(ds: seq<ServiceDocument>): (r: seq<StoredService>)
    ensures |r| == |ds|
    ensures forall i :: 0 <= i < |ds| ==> r[i] == ServiceOf(ds[i])
  {
    if |ds| == 0 then [] else [ServiceOf(ds[0])] + ServicesOf(ds[1..])
  }

  /** `hostDocumentToHost`: the services one-to-one and in order, every
      field of each carried over. */
  function HostDocumentToHost(doc: HostDocument): (r: StoredHost)
    ensures r.id == doc.id && r.ip == doc.ip && r.country == doc.country && r.asn == doc.asn
    ensures r.geoip == doc.geoip && r.timestamp == doc.timestamp
    ensures |r.services| == |doc.services|
    ensures forall i :: 0 <= i < |doc.services| ==>
      var (s, d) := (r.services[i], doc.services[i]);
      s.port == d.port && s.protocol == d.protocol && s.tls == d.tls
      && s.transport == d.transport && s.metadata == d.metadata && s.timestamp == d.timestamp
  {
    StoredHost(doc.id, doc.ip, doc.country, doc.asn, ServicesOf(doc.services), doc.geoip, doc.timestamp)
  }

  /** Nothing is lost in conversion: different documents give different
      hosts. */
  lemma ConversionInjective(a: HostDocument, b: HostDocument)
    requires HostDocumentToHost(a) == HostDocumentToHost(b)
    ensures a == b
  {
    assert |a.services| == |b.services|;
    forall i | 0 <= i < |a.services| ensures a.services[i] == b.services[i] {
      assert HostDocumentToHost(a).services[i] == HostDocumentToHost(b).services[i];
    }
  }

  function HostsOf(docs: seq<HostDocument>): (r: seq<StoredHost>)
    ensures |r| == |docs|
    ensures forall i :: 0 <= i < |docs| ==> r[i] == HostDocumentToHost(docs[i])
  {
    if |docs| == 0 then [] else [HostDocumentToHost(docs[0])] + HostsOf(docs[1..])
  }

  // ---------------------------------------------------------------------
  // The collection

  predicate SortedByIp(docs: seq<HostDocument>) {
    forall i, j :: 0 <= i < j < |docs| ==> Less(docs[i].ip, docs[j].ip)
  }

  /** Number of documents whose IP sorts before `ip`: where `ip` is found
      or goes. */
  function IpPos(docs: seq<HostDocument>, ip: string): (k: nat)
    requires SortedByIp(docs)
    ensures k <= |docs|
    ensures forall i :: 0 <= i < k ==> Less(docs[i].ip, ip)
    ensures forall i :: k <= i < |docs| ==> docs[i].ip == ip || Less(ip, docs[i].ip)
    ensures forall i :: k < i < |docs| ==> Less(ip, docs[i].ip)
  {
    if |docs| == 0 then 0
    else if Less(docs[0].ip, ip) then IpPos(docs[1..], ip) + 1
    else
      LessTotalOrEqual(docs[0].ip, ip);
      assert forall i :: 0 < i < |docs| ==> Less(ip, docs[i].ip) by {
        forall i | 0 < i < |docs| ensures Less(ip, docs[i].ip) {
          if docs[0].ip != ip { LessTransitive(ip, docs[0].ip, docs[i].ip); }
        }
      }
      0
  }

  lemma LessTotalOrEqual(a: string, b: string)
    requires !Less(a, b)
    ensures a == b || Less(b, a)
  {
    if a != b { LessTotal(a, b); }
  }

  /** `$addToSet`: appends `x` unless an equal element is present. */
  function AddToSet<T(==)>(s: seq<T>, x: T): (r: seq<T>)
    ensures x in r
    ensures forall i :: 0 <= i < |r| ==> r[i] in s || r[i] == x
    ensures forall i :: 0 <= i < |s| ==> s[i] in r
    ensures multiset(r)[x] == if x in s then multiset(s)[x] else 1
  {
    if x in s then s else s + [x]
  }

  /** The service document built from the event. */
  function ServiceDocumentOf(rec: ServiceEvent): ServiceDocument {
    ServiceDocument(rec.port, rec.protocol, rec.tls, rec.transport, rec.metadata, rec.timestamp)
  }

  /** How `cursor.All` reads a stored `metadata` field back into the
      `bsonRawMessage` of a `serviceDocument`. `omitempty` leaves an empty
      slice out of the document, so the field stays nil; otherwise the
      driver passes the binary value, `binary(stored)`, to
      `UnmarshalBSONValue`. */
  function ReadBackMetadata(stored: seq<byte>, binary: seq<byte> -> seq<byte>, libs: RawMessage.Libs)
    : (r: Result<seq<byte>, RawMessage.UnmarshalError>)
    requires RawMessage.BsonLaws(libs)
    ensures |stored| == 0 ==> r == Ok([])
  {
    if |stored| == 0 then Ok([])
    else RawMessage.UnmarshalBsonValue(Some([]), RawMessage.Binary, binary(stored), libs)
  }

  /** The metadata `InsertServiceRecord` writes reads back unchanged exactly
      when it is empty or is valid JSON that is not blank. Blank metadata
      reads back empty, and anything else as its JSON (base64 string)
      encoding. */
  lemma MetadataReadBack(rec: ServiceEvent, binary: seq<byte> -> seq<byte>, libs: RawMessage.Libs)
    requires RawMessage.BsonLaws(libs) && RawMessage.JsonLaws(libs)
    requires libs.unmarshalValue(RawMessage.Binary, binary(rec.metadata)) == Some(RawMessage.GoBytes(rec.metadata))
    ensures var r := ReadBackMetadata(ServiceDocumentOf(rec).metadata, binary, libs);
      && (RawMessage.IsBlankUtf8(rec.metadata) ==> r == Ok([]))
      && (!RawMessage.IsBlankUtf8(rec.metadata) && !libs.jsonValid(rec.metadata) ==>
            r == RawMessage.MarshalOrFail(RawMessage.GoBytes(rec.metadata), libs))
      && (r == Ok(rec.metadata) <==>
            |rec.metadata| == 0 || (!RawMessage.IsBlankUtf8(rec.metadata) && libs.jsonValid(rec.metadata)))
  {
    var m := rec.metadata;
    if |m| > 0 {
      RawMessage.BinaryCase(m, binary(m), libs, []);
    }
  }

  /** The document an upsert creates: the filter's `ip`, the `$set` fields
      and a one-element `services` array. */
  function NewDocument(id: string, rec: ServiceEvent): HostDocument {
    HostDocument(id, rec.ip, "", "", [ServiceDocumentOf(rec)], rec.geoip, rec.timestamp)
  }

  /** The document holding `ip`, if any. */
  function FindIp(docs: seq<HostDocument>, ip: string): (r: Option<HostDocument>)
    requires SortedByIp(docs)
    ensures r.Some? ==> r.value in docs && r.value.ip == ip
    ensures r.None? ==> forall i :: 0 <= i < |docs| ==> docs[i].ip != ip
    ensures forall i :: 0 <= i < |docs| && docs[i].ip == ip ==> r == Some(docs[i])
  {
    var k := IpPos(docs, ip);
    LessIrreflexive(ip);
    if k < |docs| && docs[k].ip == ip then Some(docs[k]) else None
  }

  /** `InsertServiceRecord`: `UpdateOne({ip}, {$set: {ip, geoip, timestamp},
      $addToSet: {services: svc}}, upsert)`. `newId` is the ObjectId the
      server assigns when the upsert inserts; `fault` is an error of
      `UpdateOne`, which leaves the collection as it was. */
  function InsertServiceRecord(repo: Option<seq<HostDocument>>, rec: ServiceEvent, newId: string,
                               fault: Option<string>)
    : (r: Result<seq<HostDocument>, string>)
    requires repo.Some? ==> SortedByIp(repo.value)
    ensures repo.None? <==> r == Err(NilRepository)
    ensures repo.Some? && fault.Some? ==> r == Err("mongodb: upsert service record: " + fault.value)
    ensures r.Ok? <==> repo.Some? && fault.None?
    ensures r.Ok? ==> SortedByIp(r.value)
    ensures r.Ok? ==>
      var d := FindIp(r.value, rec.ip);
      && d.Some?
      && d.value.geoip == rec.geoip && d.value.timestamp == rec.timestamp
      && (FindIp(repo.value, rec.ip).Some? ==>
            var stored := FindIp(repo.value, rec.ip).value;
            d.value == stored.(geoip := rec.geoip, timestamp := rec.timestamp,
                             services := AddToSet(stored.services, ServiceDocumentOf(rec))))
      && (FindIp(repo.value, rec.ip).None? ==> d.value == NewDocument(newId, rec))
    ensures r.Ok? ==> forall ip :: ip != rec.ip ==> FindIp(r.value, ip) == FindIp(repo.value, ip)
  {
    match repo
    case None => Err(NilRepository)
    case Some(docs) =>
      if fault.Some? then Err("mongodb: upsert service record: " + fault.value)
      else
      var k := IpPos(docs, rec.ip);
      if k < |docs| && docs[k].ip == rec.ip then
        var d := docs[k];
        var updated := d.(geoip := rec.geoip, timestamp := rec.timestamp,
                          services := AddToSet(d.services, ServiceDocumentOf(rec)));
        ReplaceKeepsOrder(docs, k, updated);
        Ok(docs[k := updated])
      else
        InsertKeepsOrder(docs, k, NewDocument(newId, rec));
        Ok(docs[..k] + [NewDocument(newId, rec)] + docs[k..])
  }

  lemma ReplaceKeepsOrder(docs: seq<HostDocument>, k: nat, d: HostDocument)
    requires SortedByIp(docs) && k < |docs| && d.ip == docs[k].ip
    ensures SortedByIp(docs[k := d])
    ensures forall ip :: ip != d.ip ==> FindIp(docs[k := d], ip) == FindIp(docs, ip)
    ensures FindIp(docs[k := d], d.ip) == Some(d)
  {
    var r := docs[k := d];
    assert forall i :: 0 <= i < |r| ==> r[i].ip == docs[i].ip;
    assert SortedByIp(r);
    forall ip | ip != d.ip ensures FindIp(r, ip) == FindIp(docs, ip) {
      if i :| 0 <= i < |docs| && docs[i].ip == ip {
        assert r[i] == docs[i];
      }
    }
    assert r[k] == d;
  }

  /** Two cut points with the `IpPos` property are the same point. */
  lemma PosUnique(docs: seq<HostDocument>, ip: string, p: nat, q: nat)
    requires p <= |docs| && q <= |docs|
    requires forall i :: 0 <= i < p ==> Less(docs[i].ip, ip)
    requires forall i :: p <= i < |docs| ==> docs[i].ip == ip || Less(ip, docs[i].ip)
    requires forall i :: 0 <= i < q ==> Less(docs[i].ip, ip)
    requires forall i :: q <= i < |docs| ==> docs[i].ip == ip || Less(ip, docs[i].ip)
    ensures p == q
  {
    if p < q {
      LessIrreflexive(ip);
      if docs[p].ip != ip { LessAsymmetric(ip, docs[p].ip); }
    } else if q < p {
      LessIrreflexive(ip);
      if docs[q].ip != ip { LessAsymmetric(ip, docs[q].ip); }
    }
  }

  lemma LessAsymmetric(a: string, b: string)
    requires Less(a, b)
    ensures !Less(b, a)
  {
    if Less(b, a) {
      LessTransitive(a, b, a);
      LessIrreflexive(a);
    }
  }

  lemma InsertKeepsOrder(docs: seq<HostDocument>, k: nat, d: HostDocument)
    requires SortedByIp(docs) && k <= |docs|
    requires forall i :: 0 <= i < k ==> Less(docs[i].ip, d.ip)
    requires forall i :: k <= i < |docs| ==> Less(d.ip, docs[i].ip)
    ensures SortedByIp(docs[..k] + [d] + docs[k..])
    ensures forall ip :: ip != d.ip ==> FindIp(docs[..k] + [d] + docs[k..], ip) == FindIp(docs, ip)
    ensures FindIp(docs[..k] + [d] + docs[k..], d.ip) == Some(d)
  {
    var r := docs[..k] + [d] + docs[k..];
    assert forall i :: 0 <= i < |r| ==> r[i] == if i < k then docs[i] else if i == k then d else docs[i - 1];
    forall i, j | 0 <= i < j < |r| ensures Less(r[i].ip, r[j].ip) {
      if i < k && j > k { LessTransitive(r[i].ip, d.ip, r[j].ip); }
    }
    forall ip | ip != d.ip ensures FindIp(r, ip) == FindIp(docs, ip) {
      InsertedFind(docs, k, d, ip);
    }
    LessIrreflexive(d.ip);
    PosUnique(r, d.ip, IpPos(r, d.ip), k);
  }

  lemma InsertedFind(docs: seq<HostDocument>, k: nat, d: HostDocument, ip: string)
    requires SortedByIp(docs) && k <= |docs| && ip != d.ip
    requires SortedByIp(docs[..k] + [d] + docs[k..])
    ensures FindIp(docs[..k] + [d] + docs[k..], ip) == FindIp(docs, ip)
  {
    var r := docs[..k] + [d] + docs[k..];
    assert forall i :: 0 <= i < |r| ==> r[i] == if i < k then docs[i] else if i == k then d else docs[i - 1];
    if p :| 0 <= p < |docs| && docs[p].ip == ip {
      var j := if p < k then p else p + 1;
      assert r[j] == docs[p];
    } else {
      assert forall i :: 0 <= i < |r| ==> r[i].ip != ip;
    }
  }

  /** Recording the same event twice stores the service once: the second
      call changes nothing. */
  lemma InsertTwiceKeepsOne(docs: seq<HostDocument>, rec: ServiceEvent, id1: string, id2: string)
    requires SortedByIp(docs)
    ensures var once := InsertServiceRecord(Some(docs), rec, id1, None).value;
      InsertServiceRecord(Some(once), rec, id2, None) == Ok(once)
  {
    var once := InsertServiceRecord(Some(docs), rec, id1, None).value;
    var k := IpPos(once, rec.ip);
    var d := FindIp(once, rec.ip).value;
    assert once[k] == d;
    assert ServiceDocumentOf(rec) in d.services;
    assert once[k := d] == once;
  }

  /** The stored service list never holds the same service document twice
      once it has been built by recording events. */
  lemma AddToSetKeepsDistinct<T>(s: seq<T>, x: T)
    requires forall y | y in s :: multiset(s)[y] == 1
    ensures forall y | y in AddToSet(s, x) :: multiset(AddToSet(s, x))[y] == 1
  {
    if x !in s {
      forall y | y in s + [x] ensures multiset(s + [x])[y] == 1 {
        assert multiset(s + [x]) == multiset(s) + multiset{x};
      }
    }
  }

  // ---------------------------------------------------------------------
  // Search

  /** One condition of the query document: a caller-supplied value, or the
      `{$gte: lastID}` the continuation puts on `ip`. */
  datatype Cond<V> = Given(value: V) | IpAtLeast(bound: string)

  /** Builds the query: every filter entry, then `ip` overwritten when a
      continuation id is given. */
  function BuildQuery<V>(filter: map<string, V>, lastId: string): (q: map<string, Cond<V>>)
    ensures lastId == "" ==> q.Keys == filter.Keys
    ensures lastId != "" ==> q.Keys == filter.Keys + {"ip"} && q["ip"] == IpAtLeast(lastId)
    ensures forall k | k in q && (lastId == "" || k != "ip") :: q[k] == Given(filter[k])
  {
    var given := map k | k in filter :: Given(filter[k]);
    if lastId == "" then given else given["ip" := IpAtLeast(lastId)]
  }

  /** `a >= b` for strings. */
  predicate AtLeast(a: string, b: string) {
    a == b || Less(b, a)
  }

  predicate Holds<V>(key: string, c: Cond<V>, doc: HostDocument, eval: (string, V, HostDocument) -> bool) {
    match c
    case Given(v) => eval(key, v, doc)
    case IpAtLeast(b) => AtLeast(doc.ip, b)
  }

  predicate Satisfies<V>(q: map<string, Cond<V>>, doc: HostDocument, eval: (string, V, HostDocument) -> bool) {
    forall k | k in q :: Holds(k, q[k], doc, eval)
  }

  /** The documents the query selects, in collection order. */
  function Matching<V>(docs: seq<HostDocument>, q: map<string, Cond<V>>,
                       eval: (string, V, HostDocument) -> bool): (r: seq<HostDocument>)
    ensures |r| <= |docs|
    ensures forall i :: 0 <= i < |r| ==> r[i] in docs && Satisfies(q, r[i], eval)
    ensures forall i :: 0 <= i < |docs| && Satisfies(q, docs[i], eval) ==> docs[i] in r
  {
    Seqs.Filter(docs, (d: HostDocument) => Satisfies(q, d, eval))
  }

  /** The selection keeps the collection's order, so it is sorted by IP
      when the collection is. */
  lemma {:induction false} MatchingSorted<V>(docs: seq<HostDocument>, q: map<string, Cond<V>>,
                                             eval: (string, V, HostDocument) -> bool)
    requires SortedByIp(docs)
    ensures SortedByIp(Matching(docs, q, eval))
  {
    var lt := (a: HostDocument, b: HostDocument) => Less(a.ip, b.ip);
    assert forall i, j :: 0 <= i < j < |docs| ==> lt(docs[i], docs[j]);
    Seqs.FilterOrdered(docs, (d: HostDocument) => Satisfies(q, d, eval), lt);
  }

  /** Documents that fail the query in front of the first one that passes
      are skipped: the selection starts with that one. */
  lemma {:induction false} MatchingFrom<V>(docs: seq<HostDocument>, q: map<string, Cond<V>>,
                                           eval: (string, V, HostDocument) -> bool, j: nat)
    requires j < |docs| && Satisfies(q, docs[j], eval)
    requires forall i :: 0 <= i < j ==> !Satisfies(q, docs[i], eval)
    ensures |Matching(docs, q, eval)| > 0 && Matching(docs, q, eval)[0] == docs[j]
    decreases j
  {
    if j > 0 {
      MatchingFrom(docs[1..], q, eval, j - 1);
    }
  }

  /** `Repository.Search`: sort by `ip`, fetch `limit + 1`, return `limit`
      and the last returned IP when the extra one came back. `outcome` is
      how the `Find` and the decoding of its cursor went. Every caller
      passes the page size `Pagination.ValidatePageSize` returns, which is
      between 1 and 500; at 0 the code would take the last host of an empty
      page. */
  function Search<V>(repo: Option<seq<HostDocument>>, filter: map<string, V>,
                     eval: (string, V, HostDocument) -> bool, lastId: string, limit: int,
                     outcome: Outcome)
    : (r: Result<(seq<StoredHost>, string), string>)
    requires limit >= 1
    requires repo.Some? ==> SortedByIp(repo.value)
    ensures repo.None? <==> r == Err(NilRepository)
    ensures repo.Some? && outcome.AggregateFailed? ==> r == Err("mongodb: failed to search: " + outcome.e)
    ensures repo.Some? && outcome.DecodeFailed? ==>
      r == Err("mongodb: failed to decode results: " + outcome.e)
    ensures r.Ok? <==> repo.Some? && outcome.Done?
    ensures r.Ok? ==>
      var c := Matching(repo.value, BuildQuery(filter, lastId), eval);
      var (hosts, nextId) := r.value;
      && |hosts| <= limit
      && (|c| > limit ==> hosts == HostsOf(c[..limit]) && nextId == c[limit - 1].ip)
      && (|c| <= limit ==> hosts == HostsOf(c) && nextId == "")
      && (forall i, j :: 0 <= i < j < |hosts| ==> Less(hosts[i].ip, hosts[j].ip))
      && (lastId != "" ==> forall i :: 0 <= i < |hosts| ==> AtLeast(hosts[i].ip, lastId))
  {
    match repo
    case None => Err(NilRepository)
    case Some(docs) =>
      if outcome.AggregateFailed? then Err("mongodb: failed to search: " + outcome.e)
      else if outcome.DecodeFailed? then Err("mongodb: failed to decode results: " + outcome.e)
      else
      var c := Matching(docs, BuildQuery(filter, lastId), eval);
      PageFacts(docs, filter, eval, lastId, limit);
      Ok((HostsOf(Trim(c, limit).0), Trim(c, limit).1))
  }

  /** Drops the extra document fetched beyond `limit`, and names the IP the
      page ends on when there was one. */
  function Trim(c: seq<HostDocument>, limit: int): (r: (seq<HostDocument>, string))
    requires limit >= 1
    ensures |c| > limit ==> r.0 == c[..limit] && r.1 == c[limit - 1].ip
    ensures |c| <= limit ==> r == (c, "")
  {
    if |c| > limit then (c[..limit], c[limit - 1].ip) else (c, "")
  }

  lemma PageFacts<V>(docs: seq<HostDocument>, filter: map<string, V>,
                     eval: (string, V, HostDocument) -> bool, lastId: string, limit: int)
    requires limit >= 1 && SortedByIp(docs)
    ensures var c := Matching(docs, BuildQuery(filter, lastId), eval);
      var hosts := HostsOf(Trim(c, limit).0);
      && |hosts| <= limit
      && (forall i, j :: 0 <= i < j < |hosts| ==> Less(hosts[i].ip, hosts[j].ip))
      && (lastId != "" ==> forall i :: 0 <= i < |hosts| ==> AtLeast(hosts[i].ip, lastId))
  {
    var q := BuildQuery(filter, lastId);
    var c := Matching(docs, q, eval);
    MatchingSorted(docs, q, eval);
    PageOf(c, limit);
    if lastId != "" {
      forall i | 0 <= i < |c| ensures AtLeast(c[i].ip, lastId) {
        ContinuationHolds(filter, lastId, c[i], eval);
      }
    }
  }

  /** The hosts of a page are those of a prefix of the selection, so they
      keep its order and its bounds. */
  lemma PageOf(c: seq<HostDocument>, limit: int)
    requires limit >= 1
    ensures var hosts := HostsOf(Trim(c, limit).0);
      && |hosts| <= limit && |hosts| <= |c|
      && (forall i :: 0 <= i < |hosts| ==> hosts[i].ip == c[i].ip)
      && (SortedByIp(c) ==> forall i, j :: 0 <= i < j < |hosts| ==> Less(hosts[i].ip, hosts[j].ip))
  {
  }

  /** A selected document passes the continuation condition. */
  lemma ContinuationHolds<V>(filter: map<string, V>, lastId: string, d: HostDocument,
                             eval: (string, V, HostDocument) -> bool)
    requires lastId != "" && Satisfies(BuildQuery(filter, lastId), d, eval)
    ensures AtLeast(d.ip, lastId)
  {
    var q := BuildQuery(filter, lastId);
    assert Holds("ip", q["ip"], d, eval);
  }

  /** Because the continuation uses `$gte`, following `nextId` returns the
      last host of this page again, as the first host of the next. */
  lemma NextPageRepeatsLast<V>(docs: seq<HostDocument>, filter: map<string, V>,
                               eval: (string, V, HostDocument) -> bool, lastId: string, limit: int)
    requires limit >= 1 && SortedByIp(docs)
    requires Search(Some(docs), filter, eval, lastId, limit, Done).value.1 != ""
    ensures var (hosts, nextId) := Search(Some(docs), filter, eval, lastId, limit, Done).value;
      var next := Search(Some(docs), filter, eval, nextId, limit, Done).value.0;
      |next| > 0 && next[0] == hosts[limit - 1]
  {
    var q := BuildQuery(filter, lastId);
    var c := Matching(docs, q, eval);
    var d := c[limit - 1];
    ContinuationKeeps(filter, lastId, d, eval);
    var j :| 0 <= j < |docs| && docs[j] == d;
    EarlierFail(docs, filter, eval, j);
    var c2 := Matching(docs, BuildQuery(filter, d.ip), eval);
    MatchingFrom(docs, BuildQuery(filter, d.ip), eval, j);
    EndsOfPages(c, c2, limit);
  }

  /** When the selection overflows the page, the page's last host is its
      `limit`-th document; any non-empty selection starts its page with its
      first document. */
  lemma EndsOfPages(c: seq<HostDocument>, c2: seq<HostDocument>, limit: int)
    requires limit >= 1 && |c| > limit && |c2| > 0 && c2[0] == c[limit - 1]
    ensures Trim(c, limit).1 == c[limit - 1].ip
    ensures |HostsOf(Trim(c2, limit).0)| > 0
    ensures HostsOf(Trim(c2, limit).0)[0] == HostsOf(Trim(c, limit).0)[limit - 1]
  {
  }

  /** A document selected under some continuation is selected when the
      continuation is its own IP. */
  lemma ContinuationKeeps<V>(filter: map<string, V>, lastId: string, d: HostDocument,
                             eval: (string, V, HostDocument) -> bool)
    requires Satisfies(BuildQuery(filter, lastId), d, eval)
    ensures Satisfies(BuildQuery(filter, d.ip), d, eval)
  {
    var q := BuildQuery(filter, lastId);
    var q2 := BuildQuery(filter, d.ip);
    forall k | k in q2 ensures Holds(k, q2[k], d, eval) {
      if k != "ip" { assert q[k] == q2[k]; }
    }
  }

  /** With the continuation at `docs[j].ip`, every document before `j`
      fails the `$gte` condition. */
  lemma EarlierFail<V>(docs: seq<HostDocument>, filter: map<string, V>,
                       eval: (string, V, HostDocument) -> bool, j: nat)
    requires SortedByIp(docs) && j < |docs|
    ensures forall i :: 0 <= i < j ==> !Satisfies(BuildQuery(filter, docs[j].ip), docs[i], eval)
  {
    var q2 := BuildQuery(filter, docs[j].ip);
    forall i | 0 <= i < j ensures !Satisfies(q2, docs[i], eval) {
      assert !Holds("ip", q2["ip"], docs[i], eval) by {
        assert Less(docs[i].ip, docs[j].ip);
        LessIrreflexive(docs[j].ip);
        LessAsymmetric(docs[i].ip, docs[j].ip);
      }
    }
  }

  /** A caller's own `ip` condition is dropped once a continuation id is
      given. */
  lemma IpFilterReplaced<V>(filter: map<string, V>, lastId: string)
    requires "ip" in filter && lastId != ""
    ensures BuildQuery(filter, lastId)["ip"] == IpAtLeast(lastId)
    ensures BuildQuery(filter, lastId)["ip"] != Given(filter["ip"])
  {
  }

  // ---------------------------------------------------------------------
  // Facets

  /** `_id` values of the service branch: each service's protocol. */
  function ProtocolsOf(docs: seq<HostDocument>): seq<string> {
    if |docs| == 0 then []
    else Protocols(docs[0].services) + ProtocolsOf(docs[1..])
  }

  function Protocols(services: seq<ServiceDocument>): (r: seq<string>)
    ensures |r| == |services|
    ensures forall i :: 0 <= i < |r| ==> r[i] == services[i].protocol
  {
    if |services| == 0 then [] else [services[0].protocol] + Protocols(services[1..])
  }

  /** `$geoip.country` of each document; a missing record or an omitted
      empty field reads back as "". */
  function CountriesOf(docs: seq<HostDocument>): (r: seq<string>)
    ensures |r| == |docs|
  {
    if |docs| == 0 then []
    else [if docs[0].geoip.Some? then docs[0].geoip.value.country else ""] + CountriesOf(docs[1..])
  }

  /** `$geoip.organization` of each document, `None` where it is missing. */
  function OrganizationsOf(docs: seq<HostDocument>): (r: seq<Option<string>>)
    ensures |r| == |docs|
  {
    if |docs| == 0 then []
    else [if docs[0].geoip.Some? && docs[0].geoip.value.organization != ""
          then Some(docs[0].geoip.value.organization) else None] + OrganizationsOf(docs[1..])
  }

  function NonEmpty(keys: seq<string>): (r: seq<string>)
    ensures forall k :: k in r <==> k in keys && k != ""
    ensures forall k | k != "" :: multiset(r)[k] == multiset(keys)[k]
  {
    if |keys| == 0 then []
    else
      assert keys == [keys[0]] + keys[1..];
      (if keys[0] != "" then [keys[0]] else []) + NonEmpty(keys[1..])
  }

  function Present(keys: seq<Option<string>>): (r: seq<string>)
    ensures forall k :: k in r <==> Some(k) in keys
    ensures forall k :: multiset(r)[k] == multiset(keys)[Some(k)]
  {
    if |keys| == 0 then []
    else
      assert keys == [keys[0]] + keys[1..];
      (if keys[0].Some? then [keys[0].value] else []) + Present(keys[1..])
  }

  /** `Repository.Facets`. A failure of the service branch is returned;
      failures of the country and ASN branches leave those maps empty. The
      ASN map is keyed by the organization name. */
  function Facets<V>(repo: Option<seq<HostDocument>>, filter: map<string, V>,
                     eval: (string, V, HostDocument) -> bool,
                     services: Outcome, countries: Outcome, asns: Outcome): (r: Result<FacetCounts, string>)
    ensures repo.None? ==> r == Err(NilRepository)
    ensures repo.Some? && services.AggregateFailed? ==>
      r == Err("mongodb: failed to aggregate services: " + services.e)
    ensures repo.Some? && services.DecodeFailed? ==>
      r == Err("mongodb: failed to decode service results: " + services.e)
    ensures r.Ok? <==> repo.Some? && services.Done?
    ensures r.Ok? ==>
      var m := Matching(repo.value, BuildQuery(filter, ""), eval);
      && "" !in r.value.services && "" !in r.value.countries
      && (forall p | p != "" :: p in r.value.services <==> p in ProtocolsOf(m))
      && (forall p | p in r.value.services :: r.value.services[p] == multiset(ProtocolsOf(m))[p])
      && (countries.Done? ==> forall c | c != "" :: c in r.value.countries <==> c in CountriesOf(m))
      && (forall c | c in r.value.countries :: r.value.countries[c] == multiset(CountriesOf(m))[c])
      && (!countries.Done? ==> r.value.countries == map[])
      && (asns.Done? ==> forall o :: o in r.value.asns <==> Some(o) in OrganizationsOf(m))
      && (forall o | o in r.value.asns :: r.value.asns[o] == multiset(OrganizationsOf(m))[Some(o)])
      && (!asns.Done? ==> r.value.asns == map[])
  {
    match repo
    case None => Err(NilRepository)
    case Some(docs) =>
      var m := Matching(docs, BuildQuery(filter, ""), eval);
      match services
      case AggregateFailed(e) => Err("mongodb: failed to aggregate services: " + e)
      case DecodeFailed(e) => Err("mongodb: failed to decode service results: " + e)
      case Done =>
        var countryCounts := if countries.Done? then Seqs.Tally(NonEmpty(CountriesOf(m))) else map[];
        var asnCounts := if asns.Done? then Seqs.Tally(Present(OrganizationsOf(m))) else map[];
        Ok(FacetCounts(Seqs.Tally(NonEmpty(ProtocolsOf(m))), countryCounts, asnCounts))
  }

  /** A document without a GeoIP record adds nothing to the country and
      ASN counts, however many services it has. */
  lemma NoGeoNoCountry(d: HostDocument)
    requires d.geoip.None?
    ensures NonEmpty(CountriesOf([d])) == []
    ensures Present(OrganizationsOf([d])) == []
  {
  }
}

=== FILE: snmp.dfy ===
/** The SNMP fingerprint plugin: an SNMPv1 GetRequest for sysDescr.0 with
    community "public", and the extraction of a version string from the
    reply (section 4.1 of RFC 1157; BER encoding of ITU-T X.690). */
module Snmp {
  import opened Wrappers
  import opened Bytes
  import opened Plugins

  /** The plugin keeps no SNMP-specific metadata (`plugins.ServiceSNMP{}`). */
  datatype SnmpMeta = ServiceSnmp

  /** A BER tag-length-value with a short-form (single byte) length. */
  function Tlv(tag: byte, contents: seq<byte>): (r: seq<byte>)
    requires |contents| < 128
    ensures |r| == |contents| + 2 && r[0] == tag && r[1] == |contents| && r[2..] == contents
  {
    [tag, |contents|] + contents
  }

  const TagInteger: byte := 0x02
  const TagOctetString: byte := 0x04
  const TagNull: byte := 0x05
  const TagOid: byte := 0x06
  const TagSequence: byte := 0x30
  const TagGetRequest: byte := 0xa0
  const TagGetResponse: byte := 0xa2

  /** "public" */
  const Community: seq<byte> := [0x70, 0x75, 0x62, 0x6c, 0x69, 0x63]

  /** The OID 1.3.6.1.2.1.1.1.0 (sysDescr.0) in BER: the first byte packs
      the first two arcs as 40 * 1 + 3. */
  const SysDescrOid: seq<byte> := [0x2b, 0x06, 0x01, 0x02, 0x01, 0x01, 0x01, 0x00]

  /** Distance from the start of "public" to the first version byte. */
  const InfoOffset: nat := 33

  /** An SNMPv1 message: version 0, the community, then a PDU whose
      request id is -1 (four 0xff bytes), error status and index 0, and a
      single variable binding. */
  function Message(pduTag: byte, oid: seq<byte>, value: seq<byte>): seq<byte>
    requires |oid| < 64 && |value| < 32
  {
    var varbind := Tlv(TagSequence, Tlv(TagOid, oid) + value);
    var pdu := Tlv(TagInteger, [0xff, 0xff, 0xff, 0xff]) + Tlv(TagInteger, [0])
               + Tlv(TagInteger, [0]) + Tlv(TagSequence, varbind);
    Tlv(TagSequence, Tlv(TagInteger, [0]) + Tlv(TagOctetString, Community) + Tlv(pduTag, pdu))
  }

  /** The probe as the plugin writes it, byte for byte: the message
      header and community, the PDU header, then the variable binding. */
  const Probe: seq<byte> :=
    [0x30, 0x29, 0x02, 0x01, 0x00, 0x04, 0x06] + Community + [0xa0, 0x1c]
    + ([0x02, 0x04, 0xff, 0xff, 0xff, 0xff, 0x02, 0x01, 0x00, 0x02, 0x01, 0x00, 0x30, 0x0e]
       + ([0x30, 0x0c, 0x06, 0x08] + SysDescrOid + [0x05, 0x00]))

  /** The literal probe is the BER encoding of a GetRequest for sysDescr.0
      with a NULL value. */
  lemma ProbeIsGetRequest()
    ensures |Probe| == 43
    ensures Probe == Message(TagGetRequest, SysDescrOid, Tlv(TagNull, []))
  {
    var varbind := Tlv(TagSequence, Tlv(TagOid, SysDescrOid) + Tlv(TagNull, []));
    VarbindBytes(SysDescrOid);
    PduBytes(varbind);
    var pdu := Tlv(TagInteger, [0xff, 0xff, 0xff, 0xff]) + Tlv(TagInteger, [0])
               + Tlv(TagInteger, [0]) + Tlv(TagSequence, varbind);
    MessageBytes(Community, pdu);
  }

  lemma VarbindBytes(oid: seq<byte>)
    requires |oid| == 8
    ensures Tlv(TagSequence, Tlv(TagOid, oid) + Tlv(TagNull, [])) == [0x30, 0x0c, 0x06, 0x08] + oid + [0x05, 0x00]
  {
  }

  lemma PduBytes(varbind: seq<byte>)
    requires |varbind| == 14
    ensures Tlv(TagInteger, [0xff, 0xff, 0xff, 0xff]) + Tlv(TagInteger, [0])
            + Tlv(TagInteger, [0]) + Tlv(TagSequence, varbind)
         == [0x02, 0x04, 0xff, 0xff, 0xff, 0xff, 0x02, 0x01, 0x00, 0x02, 0x01, 0x00, 0x30, 0x0e] + varbind
  {
  }

  lemma MessageBytes(community: seq<byte>, pdu: seq<byte>)
    requires |community| == 6 && |pdu| == 28
    ensures Tlv(TagSequence, Tlv(TagInteger, [0]) + Tlv(TagOctetString, community) + Tlv(TagGetRequest, pdu))
         == [0x30, 0x29, 0x02, 0x01, 0x00, 0x04, 0x06] + community + [0xa0, 0x1c] + pdu
  {
  }

  /** The version string: everything from `InfoOffset` bytes after the first
      "public" on, or nothing when the reply is shorter; `None` when the
      reply lacks "public" or the sysDescr OID. */
  function Classify(response: seq<byte>): (r: Option<seq<byte>>)
    ensures r.Some? <==> Contains(response, Community) && Contains(response, SysDescrOid)
    ensures r.Some? ==> |r.value| <= |response| && r.value == response[|response| - |r.value|..]
    ensures r.Some? ==>
      exists idx: nat :: OccursAt(response, Community, idx)
        && (forall j: nat :: j < idx ==> !OccursAt(response, Community, j))
        && r.value == (if idx + InfoOffset < |response| then response[idx + InfoOffset..] else [])
  {
    var idx := IndexOf(response, Community);
    if idx == -1 then None
    else
      var stringBegin := idx + InfoOffset;
      if Contains(response, SysDescrOid) then
        if stringBegin < |response| then Some(response[stringBegin..]) else Some([])
      else None
  }

  /** `Run` after the exchange: `recv` is the outcome of sending `Probe` and
      reading the reply. */
  function Run(target: Target, recv: Result<seq<byte>, IoError>): (r: RunResult<SnmpMeta>)
    ensures recv.Err? ==> r == Err(recv.error)
    ensures recv.Ok? ==> r.Ok?
    ensures recv.Ok? ==> (r.value.Some? <==> Classify(recv.value).Some?)
    ensures r.Ok? && r.value.Some? ==>
      r.value.value == Detection(target, ServiceSnmp, false, Classify(recv.value).value, UDP)
  {
    match recv
    case Err(e) => Err(e)
    case Ok(response) =>
      if |response| == 0 then Ok(None)
      else
        match Classify(response)
        case None => Ok(None)
        case Some(version) => Ok(Some(Detection(target, ServiceSnmp, false, version, UDP)))
  }

  /** A GetResponse carrying the OCTET STRING `descr` for sysDescr.0. */
  function SysDescrResponse(descr: seq<byte>): seq<byte>
    requires |descr| < 28
  {
    Message(TagGetResponse, SysDescrOid, Tlv(TagOctetString, descr))
  }

  lemma CommunityFirstAt7(response: seq<byte>)
    requires |response| >= 13 && response[2] == 0x02 && response[3] == 0x01
    requires response[4] == 0x00 && response[5] == 0x04 && response[6] == 0x06
    requires response[7..13] == Community
    ensures IndexOf(response, Community) == 7
  {
    assert OccursAt(response, Community, 7);
    assert forall j: nat :: j < 7 ==> !OccursAt(response, Community, j);
  }

  function SysDescrVarbind(descr: seq<byte>): seq<byte>
    requires |descr| < 28
  {
    Tlv(TagSequence, Tlv(TagOid, SysDescrOid) + Tlv(TagOctetString, descr))
  }

  lemma VarbindLayout(descr: seq<byte>)
    requires |descr| < 28
    ensures SysDescrVarbind(descr)
         == [0x30, 12 + |descr|, 0x06, 0x08] + SysDescrOid[..7] + ([0x00, TagOctetString, |descr|] + descr)
  {
  }

  lemma MessageLayout(descr: seq<byte>)
    requires |descr| < 28
    ensures SysDescrResponse(descr)
         == [0x30, 41 + |descr|, 0x02, 0x01, 0x00, 0x04, 0x06] + Community
            + [0xa2, 28 + |descr|, 0x02, 0x04, 0xff, 0xff, 0xff, 0xff, 0x02, 0x01, 0x00, 0x02, 0x01, 0x00,
               0x30, 14 + |descr|]
            + SysDescrVarbind(descr)
  {
  }

  /** Where the fields of a sysDescr reply sit when `descr` is short. */
  lemma SysDescrLayout(descr: seq<byte>)
    requires |descr| < 28
    ensures var r := SysDescrResponse(descr);
      && |r| == 43 + |descr|
      && r[2] == 0x02 && r[3] == 0x01 && r[4] == 0x00 && r[5] == 0x04 && r[6] == 0x06
      && r[7..13] == Community
      && r[33..41] == SysDescrOid
      && r[40..] == [0x00, TagOctetString, |descr|] + descr
  {
    MessageLayout(descr);
    VarbindLayout(descr);
    var r := SysDescrResponse(descr);
    var head := [0x30, 41 + |descr|, 0x02, 0x01, 0x00, 0x04, 0x06] + Community
            + [0xa2, 28 + |descr|, 0x02, 0x04, 0xff, 0xff, 0xff, 0xff, 0x02, 0x01, 0x00, 0x02, 0x01, 0x00,
               0x30, 14 + |descr|];
    var vb := SysDescrVarbind(descr);
    assert |head| == 29;
    assert r[29..] == vb;
    assert r[33..41] == vb[4..12];
    assert r[40..] == vb[11..];
  }

  /** On a well-formed sysDescr reply the reported version is not the
      description alone: it starts with the last OID byte (0x00) and the
      OCTET STRING tag and length, followed by the description. */
  lemma SysDescrVersion(descr: seq<byte>)
    requires |descr| < 28
    ensures Classify(SysDescrResponse(descr)) == Some([0x00, TagOctetString, |descr|] + descr)
  {
    var r := SysDescrResponse(descr);
    SysDescrLayout(descr);
    CommunityFirstAt7(r);
    assert OccursAt(r, SysDescrOid, 33);
  }

  /** A peer that echoes the probe is reported, with the three bytes that
      follow the OID's last-but-one byte as version. */
  lemma EchoedProbe()
    ensures Classify(Probe) == Some([0x00, 0x05, 0x00])
  {
    CommunityFirstAt7(Probe);
    assert OccursAt(Probe, SysDescrOid, 33);
    assert Probe[40..] == [0x00, 0x05, 0x00];
  }

  /** `PortPriority`: only port 161 is preferred. */
  function PortPriority(port: uint16): (r: bool)
    ensures r <==> port == 161
  {
    port == 161
  }
}

=== FILE: storage.dfy ===
/** Declarations shared by the two MongoDB repositories and the HTTP layer
    (`rigour/internal/storage`). */
module Storage {

  /** `storage.FacetCounts`: a count per service protocol, per country and
      per ASN key. */
  datatype FacetCounts = FacetCounts(
    services: map<string, int>,
    countries: map<string, int>,
    asns: map<string, int>)

  const EmptyCounts: FacetCounts := FacetCounts(map[], map[], map[])

  /** How one aggregation call went: its cursor, or the error of the
      `Aggregate` or of the decoding `All`. */
  datatype Outcome = Done | AggregateFailed(e: string) | DecodeFailed(e: string)

  /** The largest count a `$sum: 1` group reports as a BSON int32. */
  const MaxInt32: int := 0x7fff_ffff
}

=== FILE: text.dfy ===
/** String helpers of the Go and JavaScript standard libraries that the
    modelled code leans on: white space, trimming, splitting on a separator
    and decimal formatting. Each is given a contract that characterises it
    independently of how it is computed. */
module Text {
  import Bytes

  /** Go's `unicode.IsSpace`: the Latin-1 spaces plus Unicode White_Space. */
  predicate IsGoSpace(c: char) {
    var n := c as int;
    n == 0x09 || n == 0x0A || n == 0x0B || n == 0x0C || n == 0x0D || n == 0x20
    || n == 0x85 || n == 0xA0 || n == 0x1680 || (0x2000 <= n <= 0x200A)
    || n == 0x2028 || n == 0x2029 || n == 0x202F || n == 0x205F || n == 0x3000
  }

  /** ECMAScript LineTerminator. */
  predicate IsJsLineTerminator(c: char) {
    var n := c as int;
    n == 0x0A || n == 0x0D || n == 0x2028 || n == 0x2029
  }

  /** ECMAScript WhiteSpace or LineTerminator: what `\s` and `trim()` use. */
  predicate IsJsSpace(c: char) {
    var n := c as int;
    IsJsLineTerminator(c)
    || n == 0x09 || n == 0x0B || n == 0x0C || n == 0x20 || n == 0xA0 || n == 0xFEFF
    || n == 0x1680 || (0x2000 <= n <= 0x200A) || n == 0x202F || n == 0x205F || n == 0x3000
  }

  predicate AllSatisfy(s: string, p: char -> bool) {
    forall i :: 0 <= i < |s| ==> p(s[i])
  }

  /** Drops the longest prefix whose characters satisfy `p`. */
  function TrimLeft(s: string, p: char -> bool): (r: string)
    ensures |r| <= |s| && r == s[|s| - |r|..]
    ensures forall i :: 0 <= i < |s| - |r| ==> p(s[i])
    ensures |r| > 0 ==> !p(r[0])
  {
    if |s| > 0 && p(s[0]) then
      var t := s[1..];
      var rest := TrimLeft(t, p);
      assert forall i :: 0 <= i < |t| ==> s[i + 1] == t[i];
      assert rest == s[|s| - |rest|..];
      rest
    else s
  }

  /** Drops the longest suffix whose characters satisfy `p`. */
  function TrimRight(s: string, p: char -> bool): (r: string)
    ensures |r| <= |s| && r == s[..|r|]
    ensures forall i :: |r| <= i < |s| ==> p(s[i])
    ensures |r| > 0 ==> !p(r[|r| - 1])
  {
    if |s| > 0 && p(s[|s| - 1]) then
      var t := s[..|s| - 1];
      var rest := TrimRight(t, p);
      assert forall i :: |rest| <= i < |t| ==> s[i] == t[i];
      assert rest == s[..|rest|];
      rest
    else s
  }

  /** Go's `strings.TrimSpace`. */
  function TrimSpace(s: string): string {
    TrimRight(TrimLeft(s, IsGoSpace), IsGoSpace)
  }

  /** JavaScript's `String.prototype.trim`. */
  function JsTrim(s: string): string {
    TrimRight(TrimLeft(s, IsJsSpace), IsJsSpace)
  }

  /** Trimming leaves nothing exactly when every character is trimmable. */
  lemma {:induction false} TrimEmptyIff(s: string, p: char -> bool)
    ensures TrimRight(TrimLeft(s, p), p) == "" <==> AllSatisfy(s, p)
  {
    var l := TrimLeft(s, p);
    var r := TrimRight(l, p);
    if r == "" {
      assert |l| == 0;
    }
  }

  /** Go's `strings.TrimSpace(s) == ""`: `s` is blank. */
  predicate IsBlank(s: string) {
    TrimSpace(s) == ""
  }

  lemma BlankIffAllSpace(s: string)
    ensures IsBlank(s) <==> AllSatisfy(s, IsGoSpace)
  {
    TrimEmptyIff(s, IsGoSpace);
  }

  function Count(s: string, c: char): nat {
    if |s| == 0 then 0 else (if s[0] == c then 1 else 0) + Count(s[1..], c)
  }

  /** Inverse of `Split`. */
  function Join(parts: seq<string>, sep: char): string
    requires |parts| >= 1
  {
    if |parts| == 1 then parts[0] else parts[0] + [sep] + Join(parts[1..], sep)
  }

  /** Go's `strings.Split(s, sep)` for a one-character separator: the pieces
      between separators, empty pieces included, so that `n` separators give
      `n + 1` pieces and joining them back gives `s`. */
  function Split(s: string, sep: char): (r: seq<string>)
    ensures |r| == Count(s, sep) + 1
    ensures forall i :: 0 <= i < |r| ==> sep !in r[i]
    ensures Join(r, sep) == s
  {
    if |s| == 0 then [""]
    else
      var rest := Split(s[1..], sep);
      if s[0] == sep then
        assert s == [sep] + s[1..];
        [""] + rest
      else
        var r := [[s[0]] + rest[0]] + rest[1..];
        JoinConsHead(s[0], rest, sep);
        assert s == [s[0]] + s[1..];
        r
  }

  lemma JoinConsHead(c: char, parts: seq<string>, sep: char)
    requires |parts| >= 1
    ensures Join([[c] + parts[0]] + parts[1..], sep) == [c] + Join(parts, sep)
  {
    var q := [[c] + parts[0]] + parts[1..];
    if |parts| > 1 {
      assert q[1..] == parts[1..];
    }
  }

  /** The pieces are recovered from their join when none holds a separator. */
  lemma {:induction false} SplitJoin(parts: seq<string>, sep: char)
    requires |parts| >= 1
    requires forall i :: 0 <= i < |parts| ==> sep !in parts[i]
    ensures Split(Join(parts, sep), sep) == parts
    decreases |parts|, |parts[0]|
  {
    if |parts| == 1 {
      SplitNoSep(parts[0], sep);
    } else if |parts[0]| == 0 {
      var s := Join(parts, sep);
      assert s == [sep] + Join(parts[1..], sep);
      assert s[1..] == Join(parts[1..], sep);
      SplitJoin(parts[1..], sep);
    } else {
      var s := Join(parts, sep);
      var tail := [parts[0][1..]] + parts[1..];
      assert parts[0] == [parts[0][0]] + parts[0][1..];
      assert sep !in parts[0][1..];
      forall i | 0 <= i < |tail| ensures sep !in tail[i] {
        if i > 0 { assert tail[i] == parts[i]; }
      }
      assert tail[1..] == parts[1..];
      assert Join(tail, sep) == parts[0][1..] + [sep] + Join(parts[1..], sep);
      assert s == [parts[0][0]] + Join(tail, sep);
      assert s[1..] == Join(tail, sep);
      SplitJoin(tail, sep);
      assert parts == [[parts[0][0]] + tail[0]] + tail[1..];
    }
  }

  lemma {:induction false} SplitNoSep(s: string, sep: char)
    requires sep !in s
    ensures Split(s, sep) == [s]
  {
    if |s| > 0 {
      assert sep !in s[1..];
      SplitNoSep(s[1..], sep);
      assert s == [s[0]] + s[1..];
    }
  }

  predicate IsDigit(c: char) { '0' <= c <= '9' }

  function DigitChar(d: nat): char
    requires d < 10
  {
    (('0' as int) + d) as char
  }

  function DigitValue(c: char): nat
    requires IsDigit(c)
  {
    (c as int) - ('0' as int)
  }

  /** The number a string of decimal digits denotes. */
  function DecimalValue(s: string): nat
    requires AllSatisfy(s, IsDigit)
  {
    if |s| == 0 then 0 else DecimalValue(s[..|s| - 1]) * 10 + DigitValue(s[|s| - 1])
  }

  /** Go's `fmt.Sprintf("%d", n)` / JavaScript's `n.toString()` for n >= 0:
      the shortest decimal spelling of `n`. */
  function NatToString(n: nat): (r: string)
    ensures |r| >= 1 && AllSatisfy(r, IsDigit)
    ensures DecimalValue(r) == n
    ensures |r| > 1 ==> r[0] != '0'
  {
    if n < 10 then [DigitChar(n)]
    else
      var r := NatToString(n / 10) + [DigitChar(n % 10)];
      assert r[..|r| - 1] == NatToString(n / 10);
      r
  }

  /** Different numbers have different decimal spellings. */
  lemma NatToStringInjective(a: nat, b: nat)
    requires NatToString(a) == NatToString(b)
    ensures a == b
  {
  }

  /** Decimal spelling of a signed integer, with a leading '-' when negative. */
  function IntToString(n: int): (r: string)
    ensures n >= 0 ==> r == NatToString(n)
    ensures n < 0 ==> r == "-" + NatToString(-n)
  {
    if n < 0 then "-" + NatToString(-n) else NatToString(n)
  }

  predicate StartsWith(s: string, prefix: string) {
    |prefix| <= |s| && s[..|prefix|] == prefix
  }

  /** JavaScript's `s.replace(pat, rep)` with a string pattern: only the
      first occurrence is replaced. */
  function ReplaceFirst(s: string, pat: string, rep: string): (r: string)
    ensures !Bytes.Contains(s, pat) ==> r == s
    ensures Bytes.Contains(s, pat) ==>
      exists i: nat :: i + |pat| <= |s| && Bytes.OccursAt(s, pat, i)
        && (forall j: nat :: j < i ==> !Bytes.OccursAt(s, pat, j))
        && r == s[..i] + rep + s[i + |pat|..]
  {
    var i := Bytes.IndexOf(s, pat);
    if i < 0 then s else s[..i] + rep + s[i + |pat|..]
  }

  /** Dropping a leading occurrence of `pat` with `ReplaceFirst`. */
  lemma ReplaceLeading(pat: string, rest: string)
    ensures ReplaceFirst(pat + rest, pat, "") == rest
  {
    var s := pat + rest;
    assert Bytes.OccursAt(s, pat, 0) by { assert s[..|pat|] == pat; }
    assert Bytes.IndexOf(s, pat) == 0;
    assert s[|pat|..] == rest;
  }

  /** Byte-wise string order, as MongoDB compares strings: for text, UTF-8
      byte order and code point order agree. */
  predicate Less(a: string, b: string)
    decreases |a|
  {
    |b| > 0 && (|a| == 0 || a[0] < b[0] || (a[0] == b[0] && Less(a[1..], b[1..])))
  }

  lemma {:induction false} LessIrreflexive(a: string)
    ensures !Less(a, a)
    decreases |a|
  {
    if |a| > 0 {
      LessIrreflexive(a[1..]);
    }
  }

  lemma {:induction false} LessTransitive(a: string, b: string, c: string)
    requires Less(a, b) && Less(b, c)
    ensures Less(a, c)
    decreases |a|
  {
    if |a| > 0 && a[0] == b[0] && b[0] == c[0] {
      LessTransitive(a[1..], b[1..], c[1..]);
    }
  }

  lemma {:induction false} LessTotal(a: string, b: string)
    requires a != b
    ensures Less(a, b) || Less(b, a)
    decreases |a|
  {
    if |a| > 0 && |b| > 0 && a[0] == b[0] {
      assert a == [a[0]] + a[1..] && b == [b[0]] + b[1..];
      LessTotal(a[1..], b[1..]);
    }
  }
}

=== FILE: url_params.dfy ===
/** Query strings as the ordered name/value pairs that `URLSearchParams`
    collects on the client and `url.Values` hands to the Go handlers. */
module UrlParams {

  type Params = seq<(string, string)>

  /** `url.Values.Get` and `URLSearchParams.get`: the first value given for
      `name`, or "" when the name does not occur. */
  function Get(p: Params, name: string): (r: string)
    ensures (forall i :: 0 <= i < |p| ==> p[i].0 != name) ==> r == ""
    ensures forall i :: (0 <= i < |p| && p[i].0 == name && (forall j :: 0 <= j < i ==> p[j].0 != name))
                        ==> r == p[i].1
  {
    if |p| == 0 then ""
    else if p[0].0 == name then p[0].1
    else Get(p[1..], name)
  }

  /** A leading pair with the name is the one `Get` reads. */
  lemma GetFirst(a: Params, b: Params, name: string)
    requires |a| > 0 && a[0].0 == name
    ensures Get(a + b, name) == a[0].1
  {
    assert (a + b)[0] == a[0];
  }

  /** Pairs with other names in front do not matter. */
  lemma {:induction false} GetSkip(a: Params, b: Params, name: string)
    requires forall i :: 0 <= i < |a| ==> a[i].0 != name
    ensures Get(a + b, name) == Get(b, name)
  {
    if |a| > 0 {
      assert (a + b)[1..] == a[1..] + b;
      assert (a + b)[0] == a[0];
      GetSkip(a[1..], b, name);
    } else {
      assert a + b == b;
    }
  }

  /** The percent-encoding of `URLSearchParams.toString()` and the parsing of
      `url.ParseQuery`. The serialisation is well formed, and the parser
      keeps every name's values in their order, so what the server reads
      with `Get` is what the client appended. */
  datatype Codec = Codec(serialize: Params -> string, parse: string -> Params)

  ghost predicate CodecLaws(c: Codec) {
    forall p, name :: Get(c.parse(c.serialize(p)), name) == Get(p, name)
  }
}

=== FILE: wrappers.dfy ===
/** Failure-compatible wrappers shared by every module of the model.
    A Go `(value, error)` pair becomes a `Result`, a Go pointer that may be
    nil becomes an `Option`. */
module Wrappers {

  datatype Option<+T> = None | Some(value: T) {
    predicate IsFailure() { None? }

    function PropagateFailure<U>(): Option<U>
      requires None?
    {
      None
    }

    function Extract(): T
      requires Some?
    {
      value
    }

    function GetOr(default: T): T {
      match this
      case Some(v) => v
      case None => default
    }

    function ToResult<E>(error: E): Result<T, E> {
      match this
      case Some(v) => Ok(v)
      case None => Err(error)
    }
  }

  datatype Result<+R, +E> = Ok(value: R) | Err(error: E) {
    predicate IsFailure() { Err? }

    function PropagateFailure<U>(): Result<U, E>
      requires Err?
    {
      Err(error)
    }

    function Extract(): R
      requires Ok?
    {
      value
    }
  }
}
